=== FILE: README.md ===
# N.E.K.O.-RN avatar control layer, modelled in Dafny

This project models the avatar control layer of the N.E.K.O. React Native
client and the small pure helpers around it, and proves properties of
the model. Each component is one module with immutable datatypes and pure
step functions:

- `OverrideEngine` (override_engine.dfy): the per-frame parameter override
  layer of the Pixi Live2D adapter. The Cubism core is a map from parameter
  id to `(value, default)`. The layer blends saved parameters (mode `off`,
  `override` or `additive`), the lip-sync mouth scalar and persistent
  parameters into that map. It also models the motion-manager hook and
  the `core.update` hook.
- `LayerHost` (layer_host.dfy): the adapter around the engine. It covers
  installing and uninstalling the hooks (with the original update
  functions restored), loading a model and re-installing the layer,
  `dispose` ordering, the runtime parameter accessors, the transform
  snapshot, mouth value and transform setters.
- `Service` (service.dfy): the service state machine (`idle`, `loading`,
  `ready`, `error`). It covers input validation, capability checks, the
  event log (`stateChanged` and the domain events) and the calls made to
  the adapter.
- `Manager` (manager.ts façade, manager.dfy): preference precedence, the
  order "load, transform, install layer, apply parameters", the emotion
  fallbacks with the random choice as an index parameter, and the setters.
- `Emitter` (emitter.dfy): TinyEmitter, with insertion-ordered handler
  sets, an idempotent unsubscribe and per-handler exception isolation. A
  handler's behaviour is an outcome function that says whether it throws,
  and whether `onError` throws in turn is another.
- Helpers:
  - `Preferences`: path normalisation, the three-tier match, upsert on save.
  - `DevConnection`: the sanitise/merge of the stored dev-connection config.
  - `AgentBackend`: agent toggle state derivation, sequence guards, the
    availability cache and the toggle-change request sequences.
  - `WebApp`: URL trimming, template interpolation, translation fallback,
    the dialog resolution table and the toast.
  - `Toolbar`: the right toolbar's panel machine, buttons and position.
  - `Chat`: message assembly and the input guards.
  - `SyncPackages`: the package sync script's argument parser, package
    selection and validation, copy filter and patch step.
  - `AppConfig`: the Expo config merge and the transport-security rules.

Shared pieces:

- `JsNumber`: JavaScript numbers (a finite real, NaN or ±Infinity) and `clamp01`.
- `Text`: JavaScript `trim`, ASCII `toLowerCase`, `split` and `indexOf` on `seq<char>`.
- `Wrappers`: `Option`.
- `Live2DTypes`: the reference shapes.

Storage, the network, timers, `Date.now`, `Math.random` and id generators
are parameters: an in-memory stored value, an explicit reply, an explicit
timer event, a given timestamp or index. An awaited call that may fail is
a `Reply` parameter (`Resolves` or `Rejects(cause)`).

## Model

| member | source | states |
|---|---|---|
| JsNumber.Clamp01 | packages/project-neko-live2d-service/src/web/pixiLive2DAdapter.ts:71-74 | the result lies in [0,1]; it is 0 for a non-finite input, the input itself inside [0,1], 0 below and 1 above |
| OverrideEngine.Write | packages/project-neko-live2d-service/src/web/pixiLive2DAdapter.ts:434-442 | writing a parameter changes only that id's value; the id set, every other entry and the default are kept; an unknown id is a no-op |
| OverrideEngine.SavedStep | packages/project-neko-live2d-service/src/web/pixiLive2DAdapter.ts:443-500 | only eligible ids change: non-empty, not lip-sync, not visibility, not persistent, finite, mode not off. Override sets the saved value; additive adds saved minus default (default missing = 0) to the current value |
| OverrideEngine.MouthStep | packages/project-neko-live2d-service/src/web/pixiLive2DAdapter.ts:502-515 | `ParamMouthOpenY` and `ParamO` take the mouth value and nothing else changes |
| OverrideEngine.PersistentStep | packages/project-neko-live2d-service/src/web/pixiLive2DAdapter.ts:517-536 | each finite, non-empty, non-lip-sync persistent id takes exactly its persistent value; all other entries are unchanged |
| OverrideEngine.ApplyLayerOnce | packages/project-neko-live2d-service/src/web/pixiLive2DAdapter.ts:434-537 | the layer keeps the id set and the defaults, and without a state getter it changes nothing |
| OverrideEngine.CapturePre | packages/project-neko-live2d-service/src/web/pixiLive2DAdapter.ts:552-569 | before the motion update, additive mode records the pre-motion value of exactly the non-empty saved ids the core has |
| OverrideEngine.AdditiveMotionStep | packages/project-neko-live2d-service/src/web/pixiLive2DAdapter.ts:577-613 | the additive motion pass keeps the id set and the defaults; outside additive mode, and for ids the saved step does not apply to, the motion's values stand (the values of the other ids are stated by AdditiveMotionRule) |
| OverrideEngine.MotionHook | packages/project-neko-live2d-service/src/web/pixiLive2DAdapter.ts:571-620 | the wrapped motion update (motion, additive pass, then the layer) keeps the id set, and without a getter the motion's values stand (the additive values are stated by MotionHookAddsOffsetTwice) |
| OverrideEngine.CoreUpdateHook | packages/project-neko-live2d-service/src/web/pixiLive2DAdapter.ts:625-638 | the wrapped core update applies the layer and keeps the id set |
| OverrideEngine.MouthAlwaysWins | packages/project-neko-live2d-service/src/web/pixiLive2DAdapter.ts:502-515 | in every mode, after the layer the two mouth ids equal clamp01 of the mouth value, because the saved and persistent steps skip lip-sync ids |
| OverrideEngine.PersistentAlwaysWins | packages/project-neko-live2d-service/src/web/pixiLive2DAdapter.ts:517-536 | an applicable persistent id ends the layer with exactly its persistent value, in every mode |
| OverrideEngine.LipSyncUntouchedBySavedAndPersistent | packages/project-neko-live2d-service/src/web/pixiLive2DAdapter.ts:451 | lip-sync ids other than the two mouth ids come out of the layer unchanged |
| OverrideEngine.OffModeIgnoresSaved | packages/project-neko-live2d-service/src/web/pixiLive2DAdapter.ts:443-445 | in mode `off` the layer is just the mouth step followed by the persistent step |
| OverrideEngine.NothingElseChanges | packages/project-neko-live2d-service/src/web/pixiLive2DAdapter.ts:434-537 | an id that no step applies to is unchanged by the layer |
| OverrideEngine.AdditiveLayerAddsOffset | packages/project-neko-live2d-service/src/web/pixiLive2DAdapter.ts:464-470 | in additive mode an eligible saved id becomes current + (saved − default), with a missing default read as 0 |
| OverrideEngine.OverrideSetsSaved | packages/project-neko-live2d-service/src/web/pixiLive2DAdapter.ts:460-463 | in override mode an eligible saved id becomes exactly its saved value |
| OverrideEngine.NonAdditiveLayerIdempotent | packages/project-neko-live2d-service/src/web/pixiLive2DAdapter.ts:434-537 | outside additive mode, applying the layer twice gives the same table as applying it once |
| OverrideEngine.AdditiveMotionRule | packages/project-neko-live2d-service/src/web/pixiLive2DAdapter.ts:595-611 | motion pass: if the motion moved the value by more than 0.001 it becomes post + (saved − default), otherwise exactly saved; an uncaptured pre counts as unmoved |
| OverrideEngine.MotionHookAddsOffsetTwice | packages/project-neko-live2d-service/src/web/pixiLive2DAdapter.ts:610-618 | as written: for an id the motion did not move, the motion hook ends at saved + (saved − default), not saved |
| OverrideEngine.AdditiveDriftExample | packages/project-neko-live2d-service/src/web/pixiLive2DAdapter.ts:618-628 | as written: with saved 1 and default 0, one frame takes the value to 2 after the motion hook and to 3 after the core hook |
| OverrideEngine.MotionHookIntended | packages/project-neko-live2d-service/src/web/pixiLive2DAdapter.ts:571-620 | corrected motion hook: it keeps the id set |
| OverrideEngine.MotionHookIntendedAdditive | packages/project-neko-live2d-service/src/web/pixiLive2DAdapter.ts:595-611 | corrected motion hook: an unmoved saved id ends at exactly saved, and a moved one at post + (saved − default) |
| OverrideEngine.MotionHookIntendedKeepsPriorities | packages/project-neko-live2d-service/src/web/pixiLive2DAdapter.ts:502-536 | corrected motion hook: the mouth and persistent values still win |
| OverrideEngine.CoreUpdateHookIntended | packages/project-neko-live2d-service/src/web/pixiLive2DAdapter.ts:625-628 | corrected core-update hook: outside additive mode it is the hook as written |
| OverrideEngine.FrameIntended | packages/project-neko-live2d-service/src/web/pixiLive2DAdapter.ts:571-628 | a whole frame with both corrected hooks: in additive mode an unmoved saved id ends at exactly saved and a moved one at post + (saved − default); in override mode at saved; the mouth ids at the clamped mouth value |
| LayerHost.NewAdapter | packages/project-neko-live2d-service/src/web/pixiLive2DAdapter.ts:220-232 | a fresh adapter has no model, no state getter and no uninstaller, and satisfies the hook invariant |
| LayerHost.Wrap | packages/project-neko-live2d-service/src/web/pixiLive2DAdapter.ts:571-638 | wrapping an update function adds exactly one layer, and a missing function stays missing |
| LayerHost.RunUninstaller | packages/project-neko-live2d-service/src/web/pixiLive2DAdapter.ts:640-651 | the uninstaller touches only the model's update functions, not the getter or the model's presence |
| LayerHost.Install | packages/project-neko-live2d-service/src/web/pixiLive2DAdapter.ts:423-656 | installing records the new getter and keeps the model |
| LayerHost.Uninstall | packages/project-neko-live2d-service/src/web/pixiLive2DAdapter.ts:657-664 | uninstalling clears both the getter and the uninstaller |
| LayerHost.LoadModel | packages/project-neko-live2d-service/src/web/pixiLive2DAdapter.ts:670-718 | loading creates the app, attaches the new core and keeps the getter |
| LayerHost.Attach | packages/project-neko-live2d-service/src/web/pixiLive2DAdapter.ts:676-706 | the app exists and the new model holds the SDK's core and its own unwrapped update functions under a fresh token; the getter and uninstaller are kept, and no existing uninstaller owns the new model |
| LayerHost.Dispose | packages/project-neko-live2d-service/src/web/pixiLive2DAdapter.ts:768-787 | disposing clears getter, uninstaller, app and sink; the model is destroyed exactly when there was an app and a model |
| LayerHost.InstallWrapsOnce | packages/project-neko-live2d-service/src/web/pixiLive2DAdapter.ts:423-431 | on a loaded model, installing leaves each update function wrapped exactly once |
| LayerHost.InstallKeepsInv | packages/project-neko-live2d-service/src/web/pixiLive2DAdapter.ts:423-656 | installing preserves the invariant that the update functions are wrapped at most once and only under an uninstaller that owns them |
| LayerHost.InstallTwiceIsOnce | packages/project-neko-live2d-service/src/web/pixiLive2DAdapter.ts:424-431 | installing twice is the same as installing once, because the previous layer is uninstalled first |
| LayerHost.UninstallRestores | packages/project-neko-live2d-service/src/web/pixiLive2DAdapter.ts:640-664 | after uninstalling, the original motion and core update functions are back and the getter is cleared |
| LayerHost.InstallThenUninstall | packages/project-neko-live2d-service/src/web/pixiLive2DAdapter.ts:640-664 | installing and then uninstalling gives back the model exactly as it was |
| LayerHost.AttachKeepsInv | packages/project-neko-live2d-service/src/web/pixiLive2DAdapter.ts:676-706 | attaching a freshly loaded model preserves the invariant |
| LayerHost.LoadModelInstalls | packages/project-neko-live2d-service/src/web/pixiLive2DAdapter.ts:711-717 | with a getter set, a load re-installs the layer on the new model, wrapped once |
| LayerHost.DisposeUninstallsFirst | packages/project-neko-live2d-service/src/web/pixiLive2DAdapter.ts:768-776 | dispose runs the uninstaller before the model is detached, so the destroyed model has its original update functions |
| LayerHost.OrZero | packages/project-neko-live2d-service/src/web/pixiLive2DAdapter.ts:282-293 | `Number(x) \|\| 0`: NaN reads as 0 and every other number is kept |
| LayerHost.FiniteOr1 | packages/project-neko-live2d-service/src/web/pixiLive2DAdapter.ts:282-293 | a scale component reads as itself when finite and 1 otherwise |
| LayerHost.TransformSnapshot | packages/project-neko-live2d-service/src/web/pixiLive2DAdapter.ts:282-293 | a snapshot exists exactly when a model does; a NaN position component reads as 0 and any other is kept; on each axis, a finite scale is reported as is and a non-finite one as 1 |
| LayerHost.SetParameter | packages/project-neko-live2d-service/src/web/pixiLive2DAdapter.ts:319-346 | a finite write on a loaded core sets that id; without a core or with a non-finite value nothing changes |
| LayerHost.GetParameter | packages/project-neko-live2d-service/src/web/pixiLive2DAdapter.ts:347-363 | a value is returned exactly when the core has the id, and it is that id's current value |
| LayerHost.GetParameterDefault | packages/project-neko-live2d-service/src/web/pixiLive2DAdapter.ts:364-380 | the default is returned only for an id the core has, and is that id's default |
| LayerHost.GetParameterCount | packages/project-neko-live2d-service/src/web/pixiLive2DAdapter.ts:381-394 | the count exists exactly when a core is loaded and equals its number of ids |
| LayerHost.SetThenGet | packages/project-neko-live2d-service/src/web/pixiLive2DAdapter.ts:319-380 | reading an id back after writing a finite value gives that value; other ids and the default are unaffected |
| LayerHost.SetMouthValue | packages/project-neko-live2d-service/src/web/pixiLive2DAdapter.ts:755-760 | the stored mouth value is clamp01 of the input; the mouth ids the core has take that value with their defaults kept; every other parameter, the rest of the model and the rest of the adapter are unchanged |
| LayerHost.SetTransform | packages/project-neko-live2d-service/src/web/pixiLive2DAdapter.ts:762-766 | a transform applies only with a model loaded and never changes its core |
| LayerHost.TransformRoundTrip | packages/project-neko-live2d-service/src/web/pixiLive2DAdapter.ts:79-92 | setting a finite position and uniform scale and taking a snapshot returns them |
| LayerHost.NonFinitePositionIgnored | packages/project-neko-live2d-service/src/web/pixiLive2DAdapter.ts:88-92 | a position with a non-finite x leaves the model's position as it was |
| Service.Create | packages/project-neko-live2d-service/src/service.ts:25-50 | a new service is idle with an empty event log and no adapter calls |
| Service.SetState | packages/project-neko-live2d-service/src/service.ts:30-34 | every state change logs exactly one `stateChanged` from the old state to the new one |
| Service.Emit | packages/project-neko-live2d-service/src/service.ts:33 | an emitted event is appended to the log; nothing else changes |
| Service.Call | packages/project-neko-live2d-service/src/service.ts:67 | an adapter call is appended to the call list; nothing else changes |
| Service.Sink | packages/project-neko-live2d-service/src/service.ts:36-43 | an adapter error sets the state to error and keeps the model; other events are forwarded with no state change |
| Service.LoadModel | packages/project-neko-live2d-service/src/service.ts:57-76 | an invalid ref gives error state `INVALID_MODEL_REF`, an `error` event and a TypeError, with no adapter call. Success goes loading then ready with the same model, then `modelLoaded`. A rejection gives `MODEL_LOAD_FAILED` and rethrows the cause |
| Service.UnloadModel | packages/project-neko-live2d-service/src/service.ts:78-86 | always ends idle and emits `modelUnloaded` with the previous model; an adapter rejection still propagates |
| Service.PlayMotion | packages/project-neko-live2d-service/src/service.ts:88-96 | the capability is checked before the argument; the state and log never change |
| Service.SetExpression | packages/project-neko-live2d-service/src/service.ts:98-106 | the capability is checked before the argument; the state and log never change |
| Service.SetMouthValue | packages/project-neko-live2d-service/src/service.ts:108-114 | throws Error without the capability and TypeError for a non-finite value; otherwise the adapter receives the value clamped to [0,1] |
| Service.SetTransform | packages/project-neko-live2d-service/src/service.ts:116-124 | the capability is checked before the argument; the state and log never change |
| Service.Dispose | packages/project-neko-live2d-service/src/service.ts:134-145 | dispose never throws, always ends idle and calls unload before the adapter's own dispose |
| Service.EmptyUriReachesAdapter | packages/project-neko-live2d-service/src/service.ts:58 | a ref with an empty-string uri passes validation and reaches the adapter |
| Service.ChainedExtend | packages/project-neko-live2d-service/src/service.ts:30-34 | a chain of state transitions extended by one transition from its end is still a chain |
| Service.SetStateFaithful | packages/project-neko-live2d-service/src/service.ts:30-34 | the logged transitions always chain from `idle` to the current state, and a state change preserves that |
| Service.EmitFaithful | packages/project-neko-live2d-service/src/service.ts:33 | emitting a non-state event preserves the chain |
| Service.ApplyFaithful | packages/project-neko-live2d-service/src/service.ts:36-145 | every service operation preserves the chain, unless the adapter forges a `stateChanged` event through the sink |
| Service.UnloadFaithful | packages/project-neko-live2d-service/src/service.ts:78-86 | unload preserves the chain |
| Service.RunFaithful | packages/project-neko-live2d-service/src/service.ts:28-145 | over any sequence of operations without forged transitions, the log's transitions chain from idle to the current state |
| Service.CreateFaithful | packages/project-neko-live2d-service/src/service.ts:28 | a new service satisfies the chain property |
| Service.RunWellFormed | packages/project-neko-live2d-service/src/service.ts:28-145 | `ready` and `loading` states always carry a model and `error` states an error, over any operation sequence |
| Manager.Create | packages/project-neko-live2d-service/src/manager.ts:122-133 | a new manager is in additive mode with mouth 0, no URI, no saved or persistent parameters, unlocked, and with every interaction option (drag, wheel zoom, pinch zoom, tap) true |
| Manager.EnsureLayer | packages/project-neko-live2d-service/src/manager.ts:135-145 | the layer is (re)installed exactly when the runtime offers installation; nothing else changes |
| Manager.LoadPreferences | packages/project-neko-live2d-service/src/manager.ts:152-159 | null without a repository or when `load` throws; otherwise what the repository returned |
| Manager.SavePreferences | packages/project-neko-live2d-service/src/manager.ts:161-173 | nothing without a repository or a current URI; otherwise the URI with the snapshot's position and scale is saved, and a rejecting repository makes the call reject with the same cause |
| Manager.FiniteEntries | packages/project-neko-live2d-service/src/manager.ts:175-186 | exactly the finite entries are kept, with their values |
| Manager.ApplyModelParameters | packages/project-neko-live2d-service/src/manager.ts:175-186 | throws without a runtime setter; otherwise writes exactly the finite values |
| Manager.LoadModel | packages/project-neko-live2d-service/src/manager.ts:232-270 | the URI is remembered before anything else |
| Manager.AfterLoad | packages/project-neko-live2d-service/src/manager.ts:236-269 | only the service and the effects change; a failure can only come from the transform, and then no layer or parameter write follows; otherwise the layer is installed when offered and the finite parameters written when present and a setter exists, a missing setter being swallowed |
| Manager.PreferencePrecedence | packages/project-neko-live2d-service/src/manager.ts:234 | explicit preferences win; without them the repository's answer is used, and none without a repository or after a throwing `load` |
| Manager.LoadFailureStopsEverything | packages/project-neko-live2d-service/src/manager.ts:236-254 | a failed service load is rethrown, and no transform, layer or parameters follow |
| Manager.LoadOrder | packages/project-neko-live2d-service/src/manager.ts:236-269 | a successful load with a stored transform: the adapter sees the load, then the transform; the runtime sees the layer installation, then the parameter writes |
| Manager.TransformFailureStopsLayer | packages/project-neko-live2d-service/src/manager.ts:236-251 | the layer waits for the transform: a rejected transform is rethrown after load and transform, with no installation and no parameter write |
| Manager.NoTransformWithoutPrefs | packages/project-neko-live2d-service/src/manager.ts:236-254 | without position or scale in the preferences, `setTransform` is never called |
| Manager.MissingSetterSwallowed | packages/project-neko-live2d-service/src/manager.ts:263-269 | a failing parameter write during a load is swallowed and the load still completes |
| Manager.RandomPick | packages/project-neko-live2d-service/src/manager.ts:108-112 | nothing exactly for an empty list; otherwise a member of the list |
| Manager.RandomPickCoversAll | packages/project-neko-live2d-service/src/manager.ts:108-112 | every element of the list can be picked |
| Manager.SetEmotion | packages/project-neko-live2d-service/src/manager.ts:188-217 | only the service part of the manager changes |
| Manager.EmotionNeedsModel | packages/project-neko-live2d-service/src/manager.ts:189 | without a current model `setEmotion` does nothing |
| Manager.EmotionWithoutProvider | packages/project-neko-live2d-service/src/manager.ts:190-197 | without a mapping provider, the expression `emotion` is set and then the motion group `emotion` is played |
| Manager.EmotionWithMapping | packages/project-neko-live2d-service/src/manager.ts:199-216 | with a mapping, an expression is set only from a non-empty mapped list and is a member of it; the motion group is exactly the picked entry of the mapped motion list (`mots[mi % |mots|]`) when that list is non-empty and the entry is non-empty, and `emotion` otherwise |
| Manager.ExpressionFailureBlocksMotion | packages/project-neko-live2d-service/src/manager.ts:194-196 | a throwing expression call stops the motion call |
| Manager.SetMouth | packages/project-neko-live2d-service/src/manager.ts:292-301 | stores clamp01 of the input (0 when non-finite) before forwarding it; without the capability the service throws |
| Manager.SetSavedParameters | packages/project-neko-live2d-service/src/manager.ts:304-311 | stores the parameters (or null), writes no parameter value, and refreshes the layer when installation is offered |
| Manager.SetPersistentParameters | packages/project-neko-live2d-service/src/manager.ts:312-319 | as above for the persistent parameters |
| Manager.SetOverrideMode | packages/project-neko-live2d-service/src/manager.ts:320-327 | stores the mode, nothing else, and refreshes the layer when installation is offered |
| Manager.SettersReachLayer | packages/project-neko-live2d-service/src/manager.ts:135-145 | the layer's state getter reads back exactly what the three setters stored, so a stored persistent value wins on the next layer pass and mode `off` keeps the saved values away from the core |
| Manager.SetLocked | packages/project-neko-live2d-service/src/manager.ts:329-332 | stores the lock flag and nothing else |
| Manager.SetInteractionOptions | packages/project-neko-live2d-service/src/manager.ts:333-336 | a null patch changes nothing; a key present in the patch is copied even when its value is `undefined`; a missing key keeps its value; nothing but the options changes |
| Manager.InteractionPatchIdempotent | packages/project-neko-live2d-service/src/manager.ts:333-336 | applying the same options twice equals applying them once, and a patch with no keys is the identity |
| Manager.UndefinedKeyClears | packages/project-neko-live2d-service/src/manager.ts:39-44 | `{ drag: undefined }` leaves `drag` undefined, although it defaults to true, and keeps the other keys |
| Manager.SnapToScreen | packages/project-neko-live2d-service/src/manager.ts:337-340 | always answers false |
| Manager.ResetModelPosition | packages/project-neko-live2d-service/src/manager.ts:219-222 | requests position (0, 0) and scale (1, 1) |
| Manager.UnloadModel | packages/project-neko-live2d-service/src/manager.ts:272 | the service ends idle and the remembered URI is kept |
| Manager.Dispose | packages/project-neko-live2d-service/src/manager.ts:342-345 | the service ends idle and the URI is forgotten |
| Manager.NothingAfterDispose | packages/project-neko-live2d-service/src/manager.ts:342-345 | after dispose, saving preferences and setting an emotion do nothing |
| Emitter.New | packages/project-neko-common/index.ts:48-57 | a new emitter has no handler for any event |
| Emitter.On | packages/project-neko-common/index.ts:66-69 | the handler is subscribed; a handler already present changes nothing; otherwise it is appended last; other events are untouched |
| Emitter.Remove | packages/project-neko-common/index.ts:73 | removing a handler keeps exactly the other handlers, without duplicates |
| Emitter.Unsubscribe | packages/project-neko-common/index.ts:70-75 | the handler is gone; the others stay; the event's entry is deleted exactly when no other handler was left |
| Emitter.Clear | packages/project-neko-common/index.ts:110-112 | no event has any handler afterwards |
| Emitter.CalledAppend | packages/project-neko-common/index.ts:87-104 | the handlers called by two delivery runs are those of the first, then those of the second |
| Emitter.EmitCallsAllInOrder | packages/project-neko-common/index.ts:84-105 | an emit calls every subscribed handler once, in subscription order, and does not throw; when a report to `onError` throws, emit throws and only the handlers up to the reported one were called |
| Emitter.Emit | packages/project-neko-common/index.ts:84-105 | the handlers called are those of the event up to and including the first whose report to `onError` escaped, or all of them when none did; only an emitter with `onError` can throw out of `emit` |
| Emitter.FirstEscape | packages/project-neko-common/index.ts:90-94 | the first handler whose error `onError` rethrows, if any |
| Emitter.DeliverAllCalls | packages/project-neko-common/index.ts:87-104 | a throwing handler does not stop delivery to the handlers after it; a throwing `onError` does |
| Emitter.ThrowingHandlerReported | packages/project-neko-common/index.ts:90-102 | a throwing handler reached before any throwing report has its error go to `onError` (error, handler, payload) when set, and to the console otherwise |
| Emitter.CalledOne | packages/project-neko-common/index.ts:88-93 | one handler's deliveries call that handler once |
| Emitter.EmitWithoutListeners | packages/project-neko-common/index.ts:85-86 | emitting an event nobody listens to does nothing |
| Emitter.OnThenEmitCalls | packages/project-neko-common/index.ts:66-90 | after `on(e, h)`, `emit(e, p)` calls `h`, unless a report to `onError` threw first |
| Emitter.OnTwiceStoresOnce | packages/project-neko-common/index.ts:67-68 | subscribing the same handler twice stores it once |
| Emitter.UnsubscribeIdempotent | packages/project-neko-common/index.ts:70-75 | running an unsubscribe twice is the same as running it once |
| Emitter.Apply | packages/project-neko-common/index.ts:66-112 | every emitter operation keeps the handler lists duplicate-free and drops empty entries |
| Emitter.Run | packages/project-neko-common/index.ts:66-112 | as above for any sequence of operations |
| Emitter.UnsubscribedNeverCalled | packages/project-neko-common/index.ts:70-90 | after the unsubscribe runs, the handler is never called for that event again unless it subscribes anew |
| Emitter.StaysUnsubscribed | packages/project-neko-common/index.ts:66-112 | a handler not subscribed stays unsubscribed through any operations that do not subscribe it |
| Preferences.NormalizePath | hooks/useLive2DPreferences.ts:37-43 | a normalised path contains no `#` or `?` |
| Preferences.NormalizeIdempotent | hooks/useLive2DPreferences.ts:37-43 | normalising twice is normalising once |
| Preferences.FileName | hooks/useLive2DPreferences.ts:45-49 | the last non-empty `/`-segment of the path without query and fragment, or `''` when there is none |
| Preferences.FindFirst | hooks/useLive2DPreferences.ts:85 | the first index that matches, or none exactly when nothing matches |
| Preferences.PickBest | hooks/useLive2DPreferences.ts:80-104 | the first exact match; else the first file-name match; else the first `/<parent dir>/` match; else none; none for an empty target |
| Preferences.FetchAll | hooks/useLive2DPreferences.ts:59-69 | the stored list, or empty for nothing stored, a non-array or unparsable data |
| Preferences.BothFinite | hooks/useLive2DPreferences.ts:117-118 | a position or scale is kept exactly when both components are finite |
| Preferences.Load | hooks/useLive2DPreferences.ts:107-122 | a snapshot exactly when an entry matches; its URI is the requested one and its vectors come from the matched entry when finite |
| Preferences.Upsert | hooks/useLive2DPreferences.ts:138-153 | the first entry with the same normalised path is replaced, or the entry is appended; every other entry is unchanged |
| Preferences.Save | hooks/useLive2DPreferences.ts:124-156 | nothing for a missing or non-finite vector or a scale ≤ 0; otherwise the upserted list is written; a failing write leaves storage alone and throws |
| Preferences.FindFirstAt | hooks/useLive2DPreferences.ts:138 | a matching index with no earlier match is the one found |
| Preferences.UpsertIsFirstExact | hooks/useLive2DPreferences.ts:138-153 | after an upsert, the saved entry is the first exact match for its URI |
| Preferences.SaveThenLoad | hooks/useLive2DPreferences.ts:107-155 | loading the URI just saved returns the same position, scale and parameters, when those parameters are finite and so survive the JSON text |
| Preferences.ManagerSaveThenLoad | packages/project-neko-live2d-service/src/manager.ts:161-173 | the manager's saved payload for a finite position and positive scale loads back unchanged through this repository and the manager's `loadPreferences`; otherwise `save` leaves storage alone |
| DevConnection.SanitizeString | services/DevConnectionStorage.ts:6-8 | kept exactly when it is a non-blank string, then trimmed |
| DevConnection.Sanitize | services/DevConnectionStorage.ts:14-20 | only host, port and character name survive, each only when valid; the strings are trimmed |
| DevConnection.SanitizeIdempotent | services/DevConnectionStorage.ts:14-20 | sanitising a sanitised value changes nothing |
| DevConnection.Overlay | services/DevConnectionStorage.ts:28 | the partial's fields replace the config's, the others are kept |
| DevConnection.Get | services/DevConnectionStorage.ts:22-32 | the default for nothing stored or unparsable data, otherwise the default overlaid with the sanitised stored fields |
| DevConnection.Set | services/DevConnectionStorage.ts:34-48 | the current config overlaid with the sanitised request is stored and returned; a failing write returns the last known config |
| DevConnection.InvalidFieldsKeepCurrent | services/DevConnectionStorage.ts:40 | an invalid field in the request never replaces the current value |
| DevConnection.Clear | services/DevConnectionStorage.ts:50-57 | after a successful clear every read gives the default; a failure is swallowed |
| DevConnection.FieldReadsBack | services/DevConnectionStorage.ts:6-18 | a non-empty trimmed string survives sanitising unchanged |
| DevConnection.OverlayReadsBack | services/DevConnectionStorage.ts:14-20 | overlaying a sanitised string keeps a field that reads back |
| DevConnection.GetOfStored | services/DevConnectionStorage.ts:22-32 | a config whose fields read back is what a read of its stored form returns |
| DevConnection.OverlaySanitizedReadsBack | services/DevConnectionStorage.ts:34-42 | an overlay of sanitised fields keeps every field reading back |
| DevConnection.SetThenGet | services/DevConnectionStorage.ts:22-48 | after a successful set, a read returns exactly what the set returned |
| AgentBackend.Pending | hooks/useLive2DAgentBackend.ts:436-440 | the changed toggle shows the requested value and is disabled; the other toggles and the status are kept |
| AgentBackend.Derive | hooks/useLive2DAgentBackend.ts:215-273 | a failed health or flags request: all off and disabled. Analyser off: master off but enabled, subs off and disabled. Otherwise master on, each sub on iff flag and cached availability, disabled iff unavailable |
| AgentBackend.WithAvailability | hooks/useLive2DAgentBackend.ts:287-298 | sub-toggles from flags and availability leave no sub-toggle both on and disabled |
| AgentBackend.DeriveConsistent | hooks/useLive2DAgentBackend.ts:215-273 | no refreshed state shows a sub-toggle both on and disabled |
| AgentBackend.RefreshStart | hooks/useLive2DAgentBackend.ts:203-205 | skipped while a user operation is processing; otherwise takes the next refresh number |
| AgentBackend.RefreshFinish | hooks/useLive2DAgentBackend.ts:209-273 | a result is applied only if its number is still the latest |
| AgentBackend.LatestRefreshWins | hooks/useLive2DAgentBackend.ts:205-209 | of two overlapping refreshes, only the later one's result is shown |
| AgentBackend.CommitAvailability | hooks/useLive2DAgentBackend.ts:190-198 | the fetched availability is stored only when not processing and the refresh number is still current |
| AgentBackend.CacheFreshWithinTtl | hooks/useLive2DAgentBackend.ts:177-181 | an unforced cache update within 5000 ms of the last one fetches nothing |
| AgentBackend.ShouldFetchAvailability | hooks/useLive2DAgentBackend.ts:177-182 | never fetches while a user operation is processing, never within 5000 ms unless forced, and otherwise fetches when forced or stale |
| AgentBackend.ApplyAvailability | hooks/useLive2DAgentBackend.ts:276-299 | the background re-derivation applies only when not processing and still the latest refresh |
| AgentBackend.AwaitedRefresh | hooks/useLive2DAgentBackend.ts:357 | a refresh awaited while the processing flag is set returns at once; with the flag cleared it derives the state anew |
| AgentBackend.ReleaseAndRefresh | hooks/useLive2DAgentBackend.ts:386-387 | the processing flag is cleared and a new refresh number taken |
| AgentBackend.OnAgentChangeAsWritten | hooks/useLive2DAgentBackend.ts:318-480 | every change takes a new operation number, and one that was not superseded ends with the processing flag cleared |
| AgentBackend.MasterOn | hooks/useLive2DAgentBackend.ts:341-389 | requests are a prefix of health check, all-off POST, `enable_analyzer`; an unsuperseded operation clears the processing flag, and with both POSTs accepted shows master on with every sub-toggle off |
| AgentBackend.MasterOff | hooks/useLive2DAgentBackend.ts:391-428 | requests are a prefix of `disable_analyzer`, all-off POST; an unsuperseded operation clears the processing flag, and with both POSTs accepted shows everything off |
| AgentBackend.SubChange | hooks/useLive2DAgentBackend.ts:436-469 | every request concerns that toggle alone; disabling posts at once; enabling asks for availability first and posts nothing when unavailable; an unsuperseded operation clears the processing flag |
| AgentBackend.Change | hooks/useLive2DAgentBackend.ts:318-480 | a new operation number; master on starts with the health check and master off with `disable_analyzer`; a sub-toggle change while master is off makes no request, and otherwise only requests about that toggle |
| AgentBackend.OnAgentChange | hooks/useLive2DAgentBackend.ts:318-480 | the same, for the corrected operation |
| AgentBackend.SubChangeWhileMasterOff | hooks/useLive2DAgentBackend.ts:431-434 | changing a sub-toggle while master is off makes no request of its own, only a refresh |
| AgentBackend.UnavailablePostsNothing | hooks/useLive2DAgentBackend.ts:456-464 | enabling an unavailable sub-toggle asks for its availability and posts no flags |
| AgentBackend.MasterOnOrder | hooks/useLive2DAgentBackend.ts:353-369 | turning master on checks health first, posts all sub-flags off before `enable_analyzer`, and asks nothing more when unhealthy |
| AgentBackend.UnavailableLeavesToggleOn | hooks/useLive2DAgentBackend.ts:459-462 | as written: enabling an unavailable sub-toggle starts no refresh and leaves it shown on and disabled |
| AgentBackend.UnavailableRefreshes | hooks/useLive2DAgentBackend.ts:459-462 | corrected: the same operation ends with a new refresh and a consistent derived state |
| WebApp.DropTrailing | app/webapp.tsx:12 | the result is a prefix of the input, followed in the input only by the dropped character, and does not itself end with it |
| WebApp.TrimTrailingSlash | app/webapp.tsx:12 | `''` for a missing URL; otherwise the input without its trailing `/` run |
| WebApp.Slashes | app/webapp.tsx:12 | a run of k slashes |
| WebApp.TrimTrailingSlashInverse | app/webapp.tsx:12 | trimming a URL that does not end in `/` with any number of slashes appended gives that URL back |
| WebApp.TrimTrailingSlashIdempotent | app/webapp.tsx:12 | trimming twice is trimming once |
| WebApp.WordRun | app/webapp.tsx:53 | the length of the longest leading run of word characters |
| WebApp.Interpolate | app/webapp.tsx:51-57 | without parameters the template is returned unchanged |
| WebApp.Replace | app/webapp.tsx:52-55 | a template with no `{` comes back unchanged; the placeholder case is stated by WebApp.Placeholder and the copying of literal text by WebApp.ReplaceAppend |
| WebApp.ReplaceAppend | app/webapp.tsx:53-56 | text before any `{` is copied unchanged |
| WebApp.Placeholder | app/webapp.tsx:53-56 | `{word}` is replaced by the parameter's string value, or `''` when it is missing or null |
| WebApp.WordRunOf | app/webapp.tsx:53 | a word followed by a non-word character has exactly the word's length as its run |
| WebApp.Translate | app/webapp.tsx:126-134 | a missing or empty entry gives the key itself; otherwise the interpolated entry |
| WebApp.TOrDefault | app/webapp.tsx:136-144 | a non-empty translation different from the key is returned; otherwise (also when the translator throws) the interpolated fallback |
| WebApp.TOrDefaultWithDictionary | app/webapp.tsx:126-144 | with the dictionary translator, the fallback is used exactly when the key is missing or maps to empty text or to itself |
| WebApp.OpenDialog | app/webapp.tsx:306-310 | an opened dialog is open, has its type and a pending resolver |
| WebApp.CloseDialog | app/webapp.tsx:312-321 | prompt resolves null, confirm false, alert true; the dialog ends closed |
| WebApp.HandleConfirm | app/webapp.tsx:323-331 | prompt resolves the value or `''`, the others true; the dialog ends closed |
| WebApp.HandleCancel | app/webapp.tsx:333-341 | prompt resolves null, the others false; the dialog ends closed |
| WebApp.DialogResolvesOnce | app/webapp.tsx:306-341 | each open dialog is resolved exactly once; a second close resolves nothing |
| WebApp.HideDelay | app/webapp.tsx:163-198 | the hide delay is max(300, duration), 2500 by default, never below 300 |
| WebApp.Show | app/webapp.tsx:162-199 | a blank message changes nothing; otherwise the trimmed message is shown with the hide timer set |
| WebApp.HideTimerFires | app/webapp.tsx:184-197 | a finished hide animation hides and empties the toast; an interrupted one keeps it |
| WebApp.ShowThenHide | app/webapp.tsx:162-198 | showing then firing the timer with the animation finished ends hidden |
| Toolbar.StartClose | packages/project-neko-components/src/Live2DRightToolbar/Live2DRightToolbar.tsx:105-119 | the panel is marked closing, the parent is asked to close, and the timer is restarted for that panel |
| Toolbar.TogglePanel | packages/project-neko-components/src/Live2DRightToolbar/Live2DRightToolbar.tsx:121-135 | toggling the open panel requests null and marks it closing; toggling another while one is open closes the old one first; the last request is the new panel |
| Toolbar.PointerDownOutside | packages/project-neko-components/src/Live2DRightToolbar/Live2DRightToolbar.tsx:146-157 | a press closes the open panel exactly when the toolbar's root is mounted (it is not while the toolbar is hidden, line 265), a panel is open and the target lies outside the root; any other press requests nothing and leaves the bar unchanged |
| Toolbar.TimerFires | packages/project-neko-components/src/Live2DRightToolbar/Live2DRightToolbar.tsx:113-116 | the closing mark is cleared only if it still names the panel that started the timer |
| Toolbar.InvPreserved | packages/project-neko-components/src/Live2DRightToolbar/Live2DRightToolbar.tsx:105-157 | every event keeps the pending timer matched to the closing panel, so a firing timer always ends the exit animation |
| Toolbar.CloseAnimates | packages/project-neko-components/src/Live2DRightToolbar/Live2DRightToolbar.tsx:105-127 | a closed panel stays on screen until its timer fires, then disappears |
| Toolbar.Buttons | packages/project-neko-components/src/Live2DRightToolbar/Live2DRightToolbar.tsx:159-207 | nothing when invisible; only Return in goodbye mode; otherwise mic, screen and settings, with agent and goodbye exactly when not mobile |
| Toolbar.Visible | packages/project-neko-components/src/Live2DRightToolbar/Live2DRightToolbar.tsx:205 | the filter keeps exactly the buttons not hidden on this device |
| Toolbar.ButtonOrder | packages/project-neko-components/src/Live2DRightToolbar/Live2DRightToolbar.tsx:159-207 | desktop order is mic, screen, agent, settings, goodbye; mobile is mic, screen, settings |
| Toolbar.Click | packages/project-neko-components/src/Live2DRightToolbar/Live2DRightToolbar.tsx:167-175 | clicking mic or screen requests the negation of the current flag |
| Toolbar.ClickTwiceRestores | packages/project-neko-components/src/Live2DRightToolbar/Live2DRightToolbar.tsx:167-175 | two clicks on mic (or screen) come back to the starting flag |
| Toolbar.ContainerStyle | packages/project-neko-components/src/Live2DRightToolbar/Live2DRightToolbar.tsx:91-103 | `top` when it is a number, otherwise `bottom` (320 by default); `right` defaults to 460 |
| Toolbar.ContainerStyleAnchors | packages/project-neko-components/src/Live2DRightToolbar/Live2DRightToolbar.tsx:91-103 | exactly one vertical anchor: a numeric `top` wins and makes `bottom` irrelevant, otherwise the bottom anchor; `right` never changes the vertical anchor |
| Chat.ImageMessages | packages/project-neko-components/src/chat/ChatContainer.tsx:47-54 | one user image message per pending screenshot, in order, stamped from the captured time upwards |
| Chat.NewMessages | packages/project-neko-components/src/chat/ChatContainer.tsx:44-63 | the image messages, then one untrimmed text message only when the text is not blank |
| Chat.SendText | packages/project-neko-components/src/chat/ChatContainer.tsx:41-67 | blank text with nothing pending changes nothing; otherwise the new messages are appended and nothing stays pending |
| Chat.NewMessagesStamped | packages/project-neko-components/src/chat/ChatContainer.tsx:45-61 | every new message is the user's and stamped one after the other |
| Chat.SendAppendsInOrder | packages/project-neko-components/src/chat/ChatContainer.tsx:65 | earlier messages are kept unchanged and at least one user message is appended |
| Chat.SendStampsIncrease | packages/project-neko-components/src/chat/ChatContainer.tsx:45-61 | the new messages' timestamps strictly increase |
| Chat.HandleSend | packages/project-neko-components/src/chat/ChatInput.tsx:35-41 | nothing when disabled or blank with no screenshots; otherwise the untrimmed value is sent and the box cleared |
| Chat.InputGuardMatchesContainer | packages/project-neko-components/src/chat/ChatInput.tsx:35-41 | whatever the input box sends, the container turns into at least one message |
| Chat.MayTakePhoto | packages/project-neko-components/src/chat/ChatInput.tsx:43-58 | a photo is requested exactly when enabled and fewer than 5 screenshots are pending |
| Chat.RemoveScreenshot | packages/project-neko-components/src/chat/ChatInput.tsx:128-131 | exactly the entries with another id remain |
| Chat.RemoveDistributes | packages/project-neko-components/src/chat/ChatInput.tsx:128-131 | removal acts on each part of a list separately, so the order of the rest is kept |
| Chat.RemoveIdempotent | packages/project-neko-components/src/chat/ChatInput.tsx:128-131 | removing twice is removing once, and removing an unknown id changes nothing |
| Chat.RemoveEach | packages/project-neko-components/src/chat/ChatInput.tsx:128-131 | pressing remove for each id in turn keeps exactly the screenshots whose id was not pressed, so pressing every pending id leaves none |
| Chat.ClearAllIsRemovingEach | packages/project-neko-components/src/chat/ChatInput.tsx:97-99 | clear-all is removing every pending screenshot one by one; afterwards a photo may be taken and blank text sends nothing |
| Chat.KeyDown | packages/project-neko-components/src/chat/ChatInput.tsx:192-197 | a key press sends exactly when it is Enter without Shift and the send button would send; Enter without Shift suppresses the new line |
| Chat.EnterIsSendButton | packages/project-neko-components/src/chat/ChatInput.tsx:192-197 | Enter does what the send button does, Shift+Enter never sends |
| SyncPackages.ParseFrom | scripts/sync-neko-packages.js:33-56 | the parser exits only with code 0 or 1, an unknown first argument exits 1, and a switch once set stays set |
| SyncPackages.ParseArgs | scripts/sync-neko-packages.js:22-57 | no arguments give the defaults: no source, dest or package list, not a dry run, clean and postprocess on, not verbose |
| SyncPackages.ExitCodes | scripts/sync-neko-packages.js:49-53 | an unknown argument exits 1, `--help`/`-h` exits 0 |
| SyncPackages.LaterSourceWins | scripts/sync-neko-packages.js:33-40 | a value flag takes the next argument whatever it is, and a later occurrence overrides an earlier one |
| SyncPackages.ValueFlags | scripts/sync-neko-packages.js:35-40 | each spelling of `--source`, `--dest` and `--packages` stores the next argument in its option and parsing resumes after it; as the last argument it stores `undefined` |
| SyncPackages.SwitchFlags | scripts/sync-neko-packages.js:41-48 | each spelling of `--dry-run`, `--no-clean`, `--no-postprocess` and `--verbose` sets its one option and parsing goes on |
| SyncPackages.TrimAll | scripts/sync-neko-packages.js:154 | every item is trimmed, in place |
| SyncPackages.Selected | scripts/sync-neko-packages.js:153-156 | the selection is non-empty trimmed items without commas; no list selects all four mapping keys |
| SyncPackages.FirstRefused | scripts/sync-neko-packages.js:158-164 | the refused key found is in the list and refused; none exactly when every key is accepted |
| SyncPackages.RunPackages | scripts/sync-neko-packages.js:178-209 | with only mapping keys there is no crash; every action touches a mapped destination; with every source present the exit code is 0 |
| SyncPackages.RunSelected | scripts/sync-neko-packages.js:158-176 | a refused key or a missing source base exits 1 before any action |
| SyncPackages.Run | scripts/sync-neko-packages.js:136-212 | a help or parse exit touches nothing; a refused key or a missing source root exits 1 before any action; only the destination base and mapped destinations are ever touched |
| SyncPackages.MainAsWritten | scripts/sync-neko-packages.js:136-212 | `main()` as written touches only mapped destinations and cannot crash when every selected key is a mapping key; the crash on an inherited name is RunCrashesAfterFirst |
| SyncPackages.Main | scripts/sync-neko-packages.js:136-212 | corrected main: never crashes, touches only mapped destinations, and exits 1 with no action for a key outside the mapping |
| SyncPackages.SplitPair | scripts/sync-neko-packages.js:154 | two comma-free items joined by a comma split back into the two |
| SyncPackages.MappingKeyClean | scripts/sync-neko-packages.js:146-151 | every mapping key is non-empty, trimmed and comma-free |
| SyncPackages.SelectedPair | scripts/sync-neko-packages.js:153-156 | a list of two clean items selects exactly those two |
| SyncPackages.TrimAllPair | scripts/sync-neko-packages.js:154 | trimming two trimmed items changes nothing |
| SyncPackages.NonEmptyPair | scripts/sync-neko-packages.js:154 | dropping empty items keeps two non-empty ones |
| SyncPackages.PackagesOnly | scripts/sync-neko-packages.js:35-40 | `--packages list` alone parses to the defaults with that list |
| SyncPackages.LoopCrashesAfterFirst | scripts/sync-neko-packages.js:178-190 | as written: the loop handles a valid first key, then crashes on a key with no mapping entry |
| SyncPackages.PrototypeKeyAccepted | scripts/sync-neko-packages.js:158-164 | as written: `--packages common,toString` passes validation, cleans the first destination, then crashes |
| SyncPackages.RunCrashesAfterFirst | scripts/sync-neko-packages.js:158-209 | as written: validation lets an inherited name through, and the run crashes after the first package |
| SyncPackages.PrototypeKeyRefused | scripts/sync-neko-packages.js:158-164 | corrected: the same command exits 1 before touching anything |
| SyncPackages.ToStringExample | scripts/sync-neko-packages.js:146-164 | `common` is a mapping key and `toString` an inherited name that meets the finding's conditions |
| SyncPackages.AnyIgnored | scripts/sync-neko-packages.js:100-105 | true exactly when some segment is in the ignore set |
| SyncPackages.CopyFilter | scripts/sync-neko-packages.js:94-106 | the root is accepted; any other path is accepted exactly when none of its segments is ignored |
| SyncPackages.IgnoredSubtree | scripts/sync-neko-packages.js:94-106 | everything below a rejected directory is rejected too |
| SyncPackages.PatchFileIfExists | scripts/sync-neko-packages.js:122-134 | a missing file or an unchanged replacement gives false and no write; otherwise true, with the new content written unless dry run |
| SyncPackages.PatchSettles | scripts/sync-neko-packages.js:122-134 | with an idempotent replacer, patching the patched file reports no change |
| AppConfig.IsDevLikeBuild | app.config.ts:13-17 | with a non-empty profile: dev-like exactly for `development`; otherwise exactly when NODE_ENV is not `production` |
| AppConfig.ProfileDecides | app.config.ts:13-17 | `production` and `preview` are not dev-like whatever NODE_ENV says; an empty profile counts as none |
| AppConfig.Fields | app.config.ts:59-68 | spreading a missing or non-object value contributes nothing |
| AppConfig.Spread | app.config.ts:55-70 | a spread has the keys of both sides, with the right side winning |
| AppConfig.MergeIos | app.config.ts:58-65 | config overrides base at the ios level and within `infoPlist`; base-only keys are kept |
| AppConfig.Merge | app.config.ts:55-70 | config overrides base at the top level, in ios, infoPlist and android; base-only keys are kept |
| AppConfig.DevAts | app.config.ts:19-47 | dev transport security allows local networking, lists the four dev hosts and never allows arbitrary loads |
| AppConfig.ApplyAts | app.config.ts:74-81 | dev-like builds get the dev settings; otherwise an inherited truthy entry is removed; other keys are untouched |
| AppConfig.ApplyAndroid | app.config.ts:84-89 | cleartext traffic equals dev-likeness and the network config is the dev or prod XML accordingly; other keys are kept |
| AppConfig.Build | app.config.ts:49-92 | the built config has ios, infoPlist and android objects, and other keys as merged |
| AppConfig.BuildTransportRules | app.config.ts:72-89 | in a built config the transport rules hold: dev ATS exactly for dev-like builds, cleartext equals dev-likeness, the matching XML |
| AppConfig.ApplyAtsTwice | app.config.ts:74-81 | the ATS rule applied twice is applied once |
| AppConfig.ApplyAndroidTwice | app.config.ts:84-89 | the Android rule applied twice is applied once |
| AppConfig.MergeIosNothing | app.config.ts:58-65 | merging an empty ios config changes nothing |
| AppConfig.MergeNothing | app.config.ts:55-70 | merging an empty config into a complete one changes nothing |
| AppConfig.BuildSettles | app.config.ts:49-92 | building a built config again with no overrides gives it back |

## Left out

- Pixi and DOM plumbing in the adapter are not modelled: the application, canvas and element lookup, `Live2DModel.from`, pointer events, `getBounds`, the viewport-dependent `applyDefaultLayout`/`safeInitialResize` arithmetic, and `getParameterIds`. The adapter's byId/byIndex SDK branches are one parameter table.
- The adapter's `unloadModel`, `playMotion` and `setExpression` only forward to the Pixi model (detach, `motion`, `expression`), which is not modelled; what the service does around them is in `Service`.
- `clearExpression` and `clearEmotionEffects` are not modelled, because their bodies are empty.
- Network, audio and storage: `services/wsService.ts`, the PCM stream stubs, the HTTP calls of the agent hook, AsyncStorage and the file system become reply, stored-value or existence parameters.
- Console output is not modelled: `console.error` and `console.warn`, the sync script's help text, and its `--verbose` logging.
- `process.exit` is an exit code.
- `process.env` and `getBuildProfile` (app.config.ts:7-11) are parameters of `IsDevLikeBuild`.
- React rendering, JSX, animations and the agent panel's polling interval are not modelled. Timers are explicit events. `MessageList.tsx` is not modelled.
- hooks/useDevConnectionConfig.ts is not modelled: it is a thin hook over `parseDevConnectionConfig`, which is not part of this model. The default dev-connection config lives in the same missing module, so it is a parameter.
- Type-only and re-export files (types.ts, runtime.ts, chat/types.ts, native/index.ts, the index files) only contribute datatypes.
- Concurrency is not modelled: overlapping `loadModel` calls and interleaved agent operations appear only as the sequence-number checks and the `newerAfter` reply field.
- `Math.random`, `crypto.randomUUID`/`generateId` and `Date.now` are an index, an id list and a timestamp parameter.
- The translation dictionary's contents and the dialog title lookup are not modelled; the dictionary is a parameter of `WebApp.Translate`.
- WebApp.Interpolate: parameter lookup ignores inherited object-prototype names. String conversion of a parameter value is an abstract `Val` with its text.
- Agent status texts are their translation keys. The toast texts are tags.
- The `agent_enabled` flag sent with the master toggle is recorded in the request but not otherwise modelled.
- SyncPackages.CopyFilter: the path separator is `/`, as on POSIX systems; Windows separators are not modelled.
- SyncPackages.PatchFileIfExists: the regular-expression replacer is a function parameter, and the file's presence and content are parameters.
- Emitter.EmitCallsAllInOrder: delivery runs over the handlers registered when `emit` starts. The source iterates the live `Set`, so a handler that subscribes or unsubscribes during delivery changes which later handlers run; that re-entrancy is not modelled.
- LayerHost.SetParameter: the weight is taken to be 1. The source forwards a finite `weight` to the Cubism core, which blends with it, and every caller in the repository passes 1 or nothing.
- Preferences.NormalizePath: lower-casing is ASCII only. JavaScript `toLowerCase` is full Unicode and can change the length (`İ`), so URIs with non-ASCII capitals may match differently in the source.
- Preferences.PickBest: an entry whose `model_path` is a number is matched as its decimal text by `String(...)` in the source; the model reads every non-string path as `''`. `Upsert` has the same gap.
- Service.Sink: the service's emitter gets `opts.onEventHandlerError` as its `onError` (service.ts:25-26), and a throwing hook escapes `emit`. The model takes every `emit` to complete. Handler subscriptions are not part of the service model. In the source, a subscriber that throws while the hook also throws makes the `setState` of an adapter `error` throw before the event is forwarded (lines 40-42).
- Service.LoadModel: with a throwing handler and a throwing `onEventHandlerError`, the `ready` emit (line 68) throws inside the try. A successful adapter load then ends in `error` with `MODEL_LOAD_FAILED` (lines 70-74); the model always reports `ready` and `modelLoaded`.
- Service.UnloadModel: under the same throwing hook, the `setState(idle)` of line 83 throws, and `modelUnloaded` (line 84) is never emitted; the model always emits it.
- OverrideEngine.MotionHook: the motion manager's own update (what the motion does to the parameters) is its `post` table parameter, not a model of Cubism motion playback.

## Findings

| source | as written | input that shows it | evidently intended | confidence | as-written member | corrected member |
|---|---|---|---|---|---|---|
| packages/project-neko-live2d-service/src/web/pixiLive2DAdapter.ts:610-618 | in additive mode the motion hook sets an unmoved saved id to `saved`, then calls `applyLayerOnce`, which adds `saved − default` again; the core hook adds it once more | saved `ParamAngleX` = 1, default 0, motion that leaves the value at 0: after the motion hook 2, after `core.update` 3 | the offset is applied once per frame: with the motion hook fixed and the core hook leaving the saved step to it in additive mode, an unmoved parameter ends the frame at exactly its saved value and a moved one at post + (saved − default) | not executed | OverrideEngine.MotionHookAddsOffsetTwice | OverrideEngine.FrameIntended |
| hooks/useLive2DAgentBackend.ts:459-462 | the failure paths `await refreshAgentState()` while `agentProcessingRef` is still true (set at line 322), and the refresh returns at once at line 204 | master on, enabling the keyboard toggle while its availability reply is false | the toggle is refreshed back to the server's state, as the success paths at lines 386-387 do by clearing the flag first. While master is on, the 1500 ms poll (lines 487-512) re-derives the state once the flag is cleared, so the stale toggle lasts at most one poll interval | not executed | AgentBackend.UnavailableLeavesToggleOn | AgentBackend.UnavailableRefreshes |
| scripts/sync-neko-packages.js:158-164 | validation tests `mapping[p]`, which is truthy for inherited names such as `toString`, so the key passes and the copy loop crashes after cleaning earlier packages | `--packages common,toString` | a key outside the four mapping entries exits with code 1 before anything is touched | not executed | SyncPackages.PrototypeKeyAccepted | SyncPackages.PrototypeKeyRefused |

=== FILE: agent_backend.dfy ===
/** The agent-server toggles of the Live2D screen
    (hooks/useLive2DAgentBackend.ts): the state a refresh derives from the
    health and flags replies, the sequence numbers that discard stale
    refreshes, the availability cache and its time-to-live, and the
    request sequence each user toggle change performs.

    The hook's mutable refs and its React state are one record, `Hook`;
    every network reply is a parameter; a refresh is split into its
    synchronous start (the processing guard and the sequence bump) and its
    completion, because other events can happen in between. Status texts
    are their translation keys. */
module AgentBackend {
  import opened Wrappers

  datatype Toggle = Master | Keyboard | Mcp | UserPlugin

  /** The status line, by translation key. */
  datatype StatusText = Checking | ServerOffline | ServerReady | AgentOn | AgentConnecting | AgentOff

  /** `disabled: Partial<Record<Live2DAgentToggleId, boolean>>`. */
  datatype DisabledMap = DisabledMap(master: Option<bool>, keyboard: Option<bool>, mcp: Option<bool>, userPlugin: Option<bool>)

  /** `Live2DAgentState`. */
  datatype Agent = Agent(status: StatusText, master: bool, keyboard: bool, mcp: bool, userPlugin: bool, disabled: DisabledMap)

  const NoneDisabled := DisabledMap(None, None, None, None)
  const AllDisabled := DisabledMap(Some(true), Some(true), Some(true), Some(true))
  /** Master usable, every sub-toggle disabled. */
  const SubsDisabled := DisabledMap(Some(false), Some(true), Some(true), Some(true))

  const InitialAgent := Agent(Checking, false, false, false, false, NoneDisabled)

  function On(a: Agent, t: Toggle): bool {
    match t
    case Master => a.master
    case Keyboard => a.keyboard
    case Mcp => a.mcp
    case UserPlugin => a.userPlugin
  }

  function DisabledOf(d: DisabledMap, t: Toggle): Option<bool> {
    match t
    case Master => d.master
    case Keyboard => d.keyboard
    case Mcp => d.mcp
    case UserPlugin => d.userPlugin
  }

  /** `{ ...prev, [id]: next, disabled: { ...prev.disabled, [id]: true } }`. */
  function Pending(a: Agent, t: Toggle, next: bool): (r: Agent)
    ensures On(r, t) == next && DisabledOf(r.disabled, t) == Some(true)
    ensures forall u :: u != t ==> On(r, u) == On(a, u) && DisabledOf(r.disabled, u) == DisabledOf(a.disabled, u)
    ensures r.status == a.status
  {
    match t
    case Master => a.(master := next, disabled := a.disabled.(master := Some(true)))
    case Keyboard => a.(keyboard := next, disabled := a.disabled.(keyboard := Some(true)))
    case Mcp => a.(mcp := next, disabled := a.disabled.(mcp := Some(true)))
    case UserPlugin => a.(userPlugin := next, disabled := a.disabled.(userPlugin := Some(true)))
  }

  /** A shown state in which no sub-toggle is both on and disabled. */
  predicate Consistent(a: Agent) {
    forall t :: t != Master && On(a, t) ==> DisabledOf(a.disabled, t) == Some(false)
  }

  /** The sub-flags of a flags reply; a missing flag reads as false. */
  datatype Flags = Flags(computerUse: bool, mcp: bool, userPlugin: bool)

  /** A flags reply; a failed request reads as `success == false`, and an
      absent notification as `""`. */
  datatype FlagsResponse = FlagsResponse(success: bool, flags: Flags, analyzerEnabled: bool, notification: string)

  /** The availability cache; a kind never fetched is `None`. */
  datatype Cache = Cache(updatedAt: int, keyboard: Option<bool>, mcp: Option<bool>, userPlugin: Option<bool>)

  const CacheTtlMs := 5000

  datatype ToastText = OfflineToast | UnavailableToast | NotificationToast(text: string) | ErrorToast

  /** The hook: shown state, the two sequence counters, the processing
      flag, the cache, and the toasts shown so far. */
  datatype Hook = Hook(
    agent: Agent, userOpSeq: nat, refreshSeq: nat, processing: bool,
    cache: Cache, toasts: seq<ToastText>)

  const InitialHook := Hook(InitialAgent, 0, 0, false, Cache(0, None, None, None), [])

  /** The state a completed refresh shows: everything off and disabled
      when the server is unhealthy or the flags request failed; master
      usable and every sub-toggle off and disabled when the analyser is
      off; otherwise master on and each sub-toggle on exactly when its
      flag is set and its cached availability is true, disabled exactly
      when unavailable. */
  function Derive(healthOk: bool, resp: FlagsResponse, cache: Cache): (a: Agent)
    ensures !healthOk || !resp.success ==>
      a == Agent(ServerOffline, false, false, false, false, AllDisabled)
    ensures healthOk && resp.success && !resp.analyzerEnabled ==>
      a == Agent(ServerReady, false, false, false, false, SubsDisabled)
    ensures healthOk && resp.success && resp.analyzerEnabled ==>
      && a.status == AgentOn && a.master && a.disabled.master == Some(false)
      && (a.keyboard <==> resp.flags.computerUse && cache.keyboard == Some(true))
      && (a.mcp <==> resp.flags.mcp && cache.mcp == Some(true))
      && (a.userPlugin <==> resp.flags.userPlugin && cache.userPlugin == Some(true))
      && a.disabled.keyboard == Some(cache.keyboard != Some(true))
      && a.disabled.mcp == Some(cache.mcp != Some(true))
      && a.disabled.userPlugin == Some(cache.userPlugin != Some(true))
  {
    if !healthOk || !resp.success then
      Agent(ServerOffline, false, false, false, false, AllDisabled)
    else if !resp.analyzerEnabled then
      Agent(ServerReady, false, false, false, false, SubsDisabled)
    else
      WithAvailability(Agent(AgentOn, true, false, false, false, NoneDisabled), resp.flags, cache)
  }

  /** Sub-toggles from flags and cached availability (`?? false`), master
      enabled; status and master are kept. */
  function WithAvailability(prev: Agent, flags: Flags, cache: Cache): (a: Agent)
    ensures a.status == prev.status && a.master == prev.master
    ensures Consistent(a)
  {
    var k := cache.keyboard.GetOr(false);
    var m := cache.mcp.GetOr(false);
    var u := cache.userPlugin.GetOr(false);
    prev.(keyboard := flags.computerUse && k, mcp := flags.mcp && m, userPlugin := flags.userPlugin && u,
          disabled := DisabledMap(Some(false), Some(!k), Some(!m), Some(!u)))
  }

  /** Every state a refresh can show is consistent. */
  lemma DeriveConsistent(healthOk: bool, resp: FlagsResponse, cache: Cache)
    ensures Consistent(Derive(healthOk, resp, cache))
  {
  }

  /** A refresh that has begun: the hook afterwards and its sequence
      number, or `None` when it returned at once. */
  datatype Started = Started(hook: Hook, number: Option<nat>)

  /** The synchronous part of `refreshAgentState()`: nothing while a user
      operation is processing; otherwise a fresh sequence number. */
  function RefreshStart(h: Hook): (r: Started)
    ensures h.processing ==> r == Started(h, None)
    ensures !h.processing ==> r.number == Some(h.refreshSeq + 1) && r.hook == h.(refreshSeq := h.refreshSeq + 1)
  {
    if h.processing then Started(h, None)
    else Started(h.(refreshSeq := h.refreshSeq + 1), Some(h.refreshSeq + 1))
  }

  /** The completion of refresh number `n` with its health and flags
      replies: discarded unless `n` is still the latest; otherwise a
      notification is shown and the derived state replaces the shown
      one. */
  function RefreshFinish(h: Hook, n: nat, healthOk: bool, resp: FlagsResponse): (r: Hook)
    ensures n != h.refreshSeq ==> r == h
    ensures n == h.refreshSeq ==>
      && r.agent == Derive(healthOk, resp, h.cache)
      && r.toasts == h.toasts + (if resp.notification != "" then [NotificationToast(resp.notification)] else [])
      && r.(agent := h.agent, toasts := h.toasts) == h
  {
    if n != h.refreshSeq then h
    else
      var shown := if resp.notification != "" then [NotificationToast(resp.notification)] else [];
      h.(agent := Derive(healthOk, resp, h.cache), toasts := h.toasts + shown)
  }

  /** Only the latest refresh counts: once a second refresh has begun,
      the completion of the first changes nothing. */
  lemma LatestRefreshWins(h: Hook, healthOk: bool, resp: FlagsResponse)
    requires !h.processing
    ensures var first := RefreshStart(h);
      var second := RefreshStart(first.hook);
      RefreshFinish(second.hook, first.number.value, healthOk, resp) == second.hook
  {
  }

  /** Whether `updateAvailabilityCache` goes on to fetch: when forced or
      the cache is older than the time-to-live, and never while a user
      operation is processing. */
  function ShouldFetchAvailability(h: Hook, now: int, force: bool): (r: bool)
    ensures h.processing ==> !r
    ensures !force && now - h.cache.updatedAt <= CacheTtlMs ==> !r
    ensures !h.processing && force ==> r
    ensures !h.processing && now - h.cache.updatedAt > CacheTtlMs ==> r
  {
    (force || now - h.cache.updatedAt > CacheTtlMs) && !h.processing
  }

  /** The end of `updateAvailabilityCache` once the three availability
      replies are in: dropped if a user operation started meanwhile or,
      for a refresh-driven update, if a newer refresh began; otherwise the
      cache is replaced, stamped `at`. */
  function CommitAvailability(h: Hook, refreshSeq: Option<nat>, k: bool, m: bool, u: bool, at: int): (r: Hook)
    ensures h.processing || (refreshSeq.Some? && refreshSeq.value != h.refreshSeq) ==> r == h
    ensures !(h.processing || (refreshSeq.Some? && refreshSeq.value != h.refreshSeq)) ==>
      r == h.(cache := Cache(at, Some(k), Some(m), Some(u)))
  {
    if h.processing || (refreshSeq.Some? && refreshSeq.value != h.refreshSeq) then h
    else h.(cache := Cache(at, Some(k), Some(m), Some(u)))
  }

  /** The cache is fetched again within its time-to-live only when
      forced. */
  lemma CacheFreshWithinTtl(h: Hook, now: int)
    requires now - h.cache.updatedAt <= CacheTtlMs
    ensures !ShouldFetchAvailability(h, now, false)
  {
  }

  /** The follow-up of refresh `n` after the cache update: unless a user
      operation is processing or a newer refresh began, the sub-toggles are
      recomputed from the flags of that refresh and the current cache. */
  function ApplyAvailability(h: Hook, n: nat, flags: Flags): (r: Hook)
    ensures h.processing || n != h.refreshSeq ==> r == h
    ensures !h.processing && n == h.refreshSeq ==>
      && r == h.(agent := r.agent)
      && Consistent(r.agent)
      && r.agent.status == h.agent.status && r.agent.master == h.agent.master
      && (r.agent.keyboard <==> flags.computerUse && h.cache.keyboard == Some(true))
      && (r.agent.mcp <==> flags.mcp && h.cache.mcp == Some(true))
      && (r.agent.userPlugin <==> flags.userPlugin && h.cache.userPlugin == Some(true))
  {
    if h.processing || n != h.refreshSeq then h
    else h.(agent := WithAvailability(h.agent, flags, h.cache))
  }

  /** The body of a `flags` POST. */
  datatype FlagPatch = FlagPatch(agent: Option<bool>, computerUse: Option<bool>, mcp: Option<bool>, userPlugin: Option<bool>)

  /** A request a user operation makes itself. */
  datatype Request = GetHealth | PostFlags(patch: FlagPatch) | PostAdmin(enable: bool) | GetAvailability(kind: Toggle)

  function AllSubsOff(agentOn: bool): FlagPatch {
    FlagPatch(Some(agentOn), Some(false), Some(false), Some(false))
  }

  /** `{ [flagKeyMap[id]]: next }`. */
  function SubPatch(t: Toggle, next: bool): FlagPatch {
    match t
    case Keyboard => FlagPatch(None, Some(next), None, None)
    case Mcp => FlagPatch(None, None, Some(next), None)
    case UserPlugin => FlagPatch(None, None, None, Some(next))
    case Master => FlagPatch(Some(next), None, None, None)
  }

  /** The replies one user operation meets. `newerAfter == Some(n)`: a
      newer operation began during the n-th await, so every sequence
      check from then on fails. `refreshHealth`/`refreshFlags` answer a
      refresh the operation awaits. */
  datatype Replies = Replies(
    healthOk: bool, available: bool, flagsPostOk: bool, adminPostOk: bool,
    refreshHealth: bool, refreshFlags: FlagsResponse, newerAfter: Option<nat>)

  /** Whether the operation is still the latest after its k-th await. */
  predicate Current(r: Replies, k: nat) {
    r.newerAfter.None? || k < r.newerAfter.value
  }

  /** How a user operation ends: the hook, its own requests in order, and
      whether a newer operation took over (whose effects are its own). */
  datatype OpResult = OpResult(hook: Hook, requests: seq<Request>, superseded: bool)

  /** `setProcessingState(patch, true)` with all four toggles in the
      patch. */
  function Processing(status: StatusText, master: bool): Agent {
    Agent(status, master, false, false, false, AllDisabled)
  }

  /** `await refreshAgentState()` inside a user operation. As written
      (`resetFirst == false`) the processing flag is still set, so the
      refresh returns at once; with `resetFirst` the flag is cleared first
      and the refresh runs to completion. */
  function AwaitedRefresh(h: Hook, r: Replies, resetFirst: bool): (res: Hook)
    ensures h.processing && !resetFirst ==> res == h
    ensures resetFirst ==>
      && res.refreshSeq == h.refreshSeq + 1 && !res.processing
      && res.agent == Derive(r.refreshHealth, r.refreshFlags, h.cache)
  {
    var h0 := if resetFirst then h.(processing := false) else h;
    var s := RefreshStart(h0);
    if s.number.None? then s.hook
    else RefreshFinish(s.hook, s.number.value, r.refreshHealth, r.refreshFlags)
  }

  /** `void refreshAgentState()` after clearing the processing flag. */
  function ReleaseAndRefresh(h: Hook): (r: Hook)
    ensures !r.processing && r.refreshSeq == h.refreshSeq + 1
    ensures r == h.(processing := false, refreshSeq := h.refreshSeq + 1)
  {
    RefreshStart(h.(processing := false)).hook
  }

  /** The `finally` clause after `k` awaits: clears the flag only if the
      operation is still the latest. */
  function Finally(h: Hook, r: Replies, k: nat, requests: seq<Request>): OpResult {
    if Current(r, k) then OpResult(h.(processing := false), requests, false)
    else OpResult(h, requests, true)
  }

  /** A POST rejected after the k-th await: if still the latest, the
      error is shown, the flag cleared and a refresh started. */
  function Caught(h: Hook, r: Replies, k: nat, requests: seq<Request>): OpResult {
    if Current(r, k) then Finally(ReleaseAndRefresh(h.(toasts := h.toasts + [ErrorToast])), r, k, requests)
    else OpResult(h, requests, true)
  }

  /** Turning master on: all-sub-flags-off POST, then `enable_analyzer`.
      The requests are a prefix of health check, all-off POST,
      `enable_analyzer`; an operation that stays the latest ends with the
      processing flag cleared, and when both POSTs succeed it shows master
      on with every sub-toggle off. */
  function MasterOn(h1: Hook, r: Replies, resetFirst: bool): (o: OpResult)
    ensures |o.requests| > 0 && o.requests[0] == GetHealth
    ensures o.requests <= [GetHealth, PostFlags(AllSubsOff(true)), PostAdmin(true)]
    ensures o.hook.userOpSeq == h1.userOpSeq
    ensures !o.superseded ==> !o.hook.processing
    ensures !o.superseded && PostAdmin(true) in o.requests && r.adminPostOk ==>
      o.hook.agent == Agent(AgentOn, true, false, false, false, SubsDisabled)
  {
    var reqs1 := [GetHealth];
    if !Current(r, 1) then OpResult(h1, reqs1, true)
    else if !r.healthOk then
      var h2 := AwaitedRefresh(h1.(toasts := h1.toasts + [OfflineToast]), r, resetFirst);
      Finally(h2, r, 2, reqs1)
    else
      var reqs2 := reqs1 + [PostFlags(AllSubsOff(true))];
      if !r.flagsPostOk then Caught(h1, r, 2, reqs2)
      else if !Current(r, 2) then OpResult(h1, reqs2, true)
      else
        var reqs3 := reqs2 + [PostAdmin(true)];
        if !r.adminPostOk then Caught(h1, r, 3, reqs3)
        else if !Current(r, 3) then OpResult(h1, reqs3, true)
        else
          var h3 := h1.(agent := Agent(AgentOn, true, false, false, false, SubsDisabled));
          Finally(ReleaseAndRefresh(h3), r, 3, reqs3)
  }

  /** Turning master off: `disable_analyzer`, then the all-off POST.
      The requests are a prefix of those two; an operation that stays the
      latest ends with the processing flag cleared, and when both POSTs
      succeed it shows everything off. */
  function MasterOff(h1: Hook, r: Replies): (o: OpResult)
    ensures |o.requests| > 0 && o.requests[0] == PostAdmin(false)
    ensures o.requests <= [PostAdmin(false), PostFlags(AllSubsOff(false))]
    ensures o.hook.userOpSeq == h1.userOpSeq
    ensures !o.superseded ==> !o.hook.processing
    ensures !o.superseded && r.adminPostOk && r.flagsPostOk ==>
      o.hook.agent == Agent(AgentOff, false, false, false, false, SubsDisabled)
  {
    var reqs1 := [PostAdmin(false)];
    if !r.adminPostOk then Caught(h1, r, 1, reqs1)
    else if !Current(r, 1) then OpResult(h1, reqs1, true)
    else
      var reqs2 := reqs1 + [PostFlags(AllSubsOff(false))];
      if !r.flagsPostOk then Caught(h1, r, 2, reqs2)
      else if !Current(r, 2) then OpResult(h1, reqs2, true)
      else
        var h3 := h1.(agent := Agent(AgentOff, false, false, false, false, SubsDisabled));
        Finally(ReleaseAndRefresh(h3), r, 2, reqs2)
  }

  /** A sub-toggle change while master is on. Enabling asks for the
      toggle's availability first and posts nothing when it is
      unavailable; disabling posts at once. Every request concerns `t`
      alone, and an operation that stays the latest ends with the
      processing flag cleared. */
  function SubChange(h1: Hook, t: Toggle, next: bool, r: Replies, resetFirst: bool): (o: OpResult)
    ensures forall q :: q in o.requests ==> q == GetAvailability(t) || q == PostFlags(SubPatch(t, next))
    ensures !next ==> o.requests == [PostFlags(SubPatch(t, next))]
    ensures next ==> |o.requests| > 0 && o.requests[0] == GetAvailability(t)
    ensures next && Current(r, 1) && !r.available ==> o.requests == [GetAvailability(t)]
    ensures o.hook.userOpSeq == h1.userOpSeq
    ensures !o.superseded ==> !o.hook.processing
  {
    var h2 := h1.(agent := Pending(h1.agent, t, next));
    var pre := if next then [GetAvailability(t)] else [];
    var k := if next then 1 else 0;
    if next && !Current(r, 1) then OpResult(h2, pre, true)
    else if next && !r.available then
      var h3 := AwaitedRefresh(h2.(toasts := h2.toasts + [UnavailableToast]), r, resetFirst);
      Finally(h3, r, 2, pre)
    else
      var reqs := pre + [PostFlags(SubPatch(t, next))];
      if !r.flagsPostOk then Caught(h2, r, k + 1, reqs)
      else if !Current(r, k + 1) then OpResult(h2, reqs, true)
      else Finally(ReleaseAndRefresh(h2), r, k + 1, reqs)
  }

  /** `onAgentChange(id, next)`; `resetFirst` selects whether a refresh
      the operation awaits runs with the processing flag still set (as
      written) or cleared first. Every operation takes a new operation
      number, and one that stays the latest ends with the processing flag
      cleared. Master on starts with the health check and master off with
      `disable_analyzer`; a sub-toggle change makes no request while
      master is off, and otherwise only requests about that toggle. */
  function Change(h: Hook, id: Toggle, next: bool, r: Replies, resetFirst: bool): (o: OpResult)
    ensures o.hook.userOpSeq == h.userOpSeq + 1
    ensures !o.superseded ==> !o.hook.processing
    ensures id == Master && next ==> |o.requests| > 0 && o.requests[0] == GetHealth
    ensures id == Master && !next ==> |o.requests| > 0 && o.requests[0] == PostAdmin(false)
    ensures id != Master && !h.agent.master ==> o.requests == []
    ensures id != Master && h.agent.master ==>
      forall q :: q in o.requests ==> q == GetAvailability(id) || q == PostFlags(SubPatch(id, next))
  {
    var h1 := h.(userOpSeq := h.userOpSeq + 1, processing := true);
    if id == Master then
      if next then MasterOn(h1.(agent := Processing(AgentConnecting, true)), r, resetFirst)
      else MasterOff(h1.(agent := Processing(AgentOff, false)), r)
    else if !h.agent.master then
      Finally(AwaitedRefresh(h1, r, resetFirst), r, 1, [])
    else SubChange(h1, id, next, r, resetFirst)
  }

  /** `onAgentChange` as written. */
  function OnAgentChangeAsWritten(h: Hook, id: Toggle, next: bool, r: Replies): (o: OpResult)
    ensures o.hook.userOpSeq == h.userOpSeq + 1
    ensures !o.superseded ==> !o.hook.processing
  {
    Change(h, id, next, r, false)
  }

  /** `onAgentChange` with every awaited refresh run after clearing the
      processing flag, as the success paths already do. */
  function OnAgentChange(h: Hook, id: Toggle, next: bool, r: Replies): (o: OpResult)
    ensures o.hook.userOpSeq == h.userOpSeq + 1
    ensures !o.superseded ==> !o.hook.processing
  {
    Change(h, id, next, r, true)
  }

  /** Changing a sub-toggle while master is off makes no request of its
      own: it only refreshes. */
  lemma SubChangeWhileMasterOff(h: Hook, id: Toggle, next: bool, r: Replies)
    requires id != Master && !h.agent.master
    ensures OnAgentChange(h, id, next, r).requests == []
    ensures OnAgentChangeAsWritten(h, id, next, r).requests == []
    ensures OnAgentChange(h, id, next, r).hook.agent == Derive(r.refreshHealth, r.refreshFlags, h.cache)
  {
  }

  /** Enabling an unavailable sub-toggle posts no flags. */
  lemma UnavailablePostsNothing(h: Hook, id: Toggle, r: Replies, resetFirst: bool)
    requires id != Master && h.agent.master && !r.available && Current(r, 1)
    ensures Change(h, id, true, r, resetFirst).requests == [GetAvailability(id)]
  {
  }

  /** Turning master on posts every sub-flag off before it asks for the
      analyser, and asks for nothing when the server is unhealthy. */
  lemma MasterOnOrder(h: Hook, r: Replies, resetFirst: bool)
    ensures var o := Change(h, Master, true, r, resetFirst);
      && o.requests[0] == GetHealth
      && (!r.healthOk ==> o.requests == [GetHealth])
      && (PostAdmin(true) in o.requests ==>
            o.requests == [GetHealth, PostFlags(AllSubsOff(true)), PostAdmin(true)])
  {
    var o := Change(h, Master, true, r, resetFirst);
    if PostAdmin(true) in o.requests {
      assert r.healthOk && r.flagsPostOk && Current(r, 2);
    }
  }

  /** The as-written operation: after enabling an unavailable sub-toggle,
      no refresh has started and the toggle is left shown on (and
      disabled) although the server said it is unavailable. */
  lemma UnavailableLeavesToggleOn(h: Hook, id: Toggle, r: Replies)
    requires id != Master && h.agent.master && !r.available && Current(r, 2)
    ensures var o := OnAgentChangeAsWritten(h, id, true, r);
      && o.hook.refreshSeq == h.refreshSeq
      && On(o.hook.agent, id) && DisabledOf(o.hook.agent.disabled, id) == Some(true)
      && !Consistent(o.hook.agent)
  {
    var o := OnAgentChangeAsWritten(h, id, true, r);
    assert id != Master && On(o.hook.agent, id) && DisabledOf(o.hook.agent.disabled, id) != Some(false);
  }

  /** With the flag cleared first, the same operation ends refreshed:
      a new refresh number and a consistent shown state derived from its
      replies. */
  lemma UnavailableRefreshes(h: Hook, id: Toggle, r: Replies)
    requires id != Master && h.agent.master && !r.available && Current(r, 2)
    ensures var o := OnAgentChange(h, id, true, r);
      && o.hook.refreshSeq == h.refreshSeq + 1
      && o.hook.agent == Derive(r.refreshHealth, r.refreshFlags, h.cache)
      && Consistent(o.hook.agent)
  {
    DeriveConsistent(r.refreshHealth, r.refreshFlags, h.cache);
  }
}

=== FILE: app_config.dfy ===
/** The Expo build configuration (app.config.ts): the decision whether a
    build is development-like, the layered merge of the base `app.json`
    with the config Expo passes in, and the transport-security rules
    applied on top. The environment variables `EAS_BUILD_PROFILE` and
    `NODE_ENV` are parameters; configuration objects are maps from keys
    to JSON-like values. */
module AppConfig {
  import opened Wrappers

  /** A configuration value. Scalars other than booleans and strings only
      matter through their truthiness. */
  datatype Value = Bool(b: bool) | Str(s: string) | OtherScalar(truthy: bool) | Obj(fields: map<string, Value>)

  type Object = map<string, Value>

  predicate Truthy(v: Value) {
    match v
    case Bool(b) => b
    case Str(s) => s != ""
    case OtherScalar(t) => t
    case Obj(_) => true
  }

  /** `isDevLikeBuild(profile)`: a non-empty profile decides by being
      `development`; otherwise anything but `NODE_ENV=production` is a
      development build. */
  function IsDevLikeBuild(profile: Option<string>, nodeEnv: Option<string>): (r: bool)
    ensures profile.Some? && profile.value != "" ==> (r <==> profile.value == "development")
    ensures profile.None? || profile.value == "" ==> (r <==> nodeEnv != Some("production"))
  {
    if profile.Some? && profile.value != "" then profile.value == "development"
    else nodeEnv != Some("production")
  }

  /** A production build is never development-like, whatever `NODE_ENV`
      says; a development build always is. */
  lemma ProfileDecides(nodeEnv: Option<string>)
    ensures !IsDevLikeBuild(Some("production"), nodeEnv)
    ensures !IsDevLikeBuild(Some("preview"), nodeEnv)
    ensures IsDevLikeBuild(Some("development"), nodeEnv)
    ensures IsDevLikeBuild(None, nodeEnv) == IsDevLikeBuild(Some(""), nodeEnv)
  {
    assert "production" != "development";
    assert "preview" != "development";
  }

  /** `{...v}`: the own fields of an object; nothing for a missing value
      or a scalar. */
  function Fields(v: Option<Value>): (r: Object)
    ensures v.Some? && v.value.Obj? ==> r == v.value.fields
    ensures v.None? || !v.value.Obj? ==> r == map[]
  {
    if v.Some? && v.value.Obj? then v.value.fields else map[]
  }

  function Get(m: Object, k: string): Option<Value> {
    if k in m then Some(m[k]) else None
  }

  /** The object spread `{...a, ...b}`: every key of either, the later
      object winning. */
  ghost predicate Spreads(r: Object, a: Object, b: Object) {
    && (forall k :: k in r <==> k in a || k in b)
    && (forall k :: k in b ==> r[k] == b[k])
    && (forall k :: k in a && k !in b ==> r[k] == a[k])
  }

  function Spread(a: Object, b: Object): (r: Object)
    ensures Spreads(r, a, b)
  {
    a + b
  }

  /** The `ios` part of the merge: the two `ios` objects spread, with
      `infoPlist` replaced by the spread of their two `infoPlist`s. */
  function MergeIos(baseIos: Object, configIos: Object): (r: Object)
    ensures "infoPlist" in r && r["infoPlist"].Obj?
    ensures Spreads(r["infoPlist"].fields, Fields(Get(baseIos, "infoPlist")), Fields(Get(configIos, "infoPlist")))
    ensures forall k :: k != "infoPlist" ==> (k in r <==> k in baseIos || k in configIos)
    ensures forall k :: k != "infoPlist" && k in configIos ==> r[k] == configIos[k]
    ensures forall k :: k != "infoPlist" && k !in configIos && k in baseIos ==> r[k] == baseIos[k]
  {
    var plist := Spread(Fields(Get(baseIos, "infoPlist")), Fields(Get(configIos, "infoPlist")));
    Spread(baseIos, configIos)["infoPlist" := Obj(plist)]
  }

  /** The layered merge: the passed-in config over the base at the top
      level, and again inside `ios`, `ios.infoPlist` and `android`; keys
      found only in the base are kept at every level. */
  function Merge(base: Object, config: Object): (r: Object)
    ensures forall k :: k in r <==> k in base || k in config || k == "ios" || k == "android"
    ensures forall k :: k != "ios" && k != "android" && k in config ==> r[k] == config[k]
    ensures forall k :: k != "ios" && k != "android" && k !in config && k in base ==> r[k] == base[k]
    ensures "ios" in r && r["ios"] == Obj(MergeIos(Fields(Get(base, "ios")), Fields(Get(config, "ios"))))
    ensures "android" in r && r["android"].Obj?
    ensures Spreads(r["android"].fields, Fields(Get(base, "android")), Fields(Get(config, "android")))
  {
    var ios := MergeIos(Fields(Get(base, "ios")), Fields(Get(config, "ios")));
    var android := Spread(Fields(Get(base, "android")), Fields(Get(config, "android")));
    var top := Spread(base, config);
    SetTwo(top, Obj(ios), Obj(android));
    top["ios" := Obj(ios)]["android" := Obj(android)]
  }

  /** Setting `ios` and `android` keeps every other key of `top`. */
  lemma SetTwo(top: Object, ios: Value, android: Value)
    ensures var r := top["ios" := ios]["android" := android];
      && (forall k :: k in r <==> k in top || k == "ios" || k == "android")
      && (forall k :: k != "ios" && k != "android" && k in top ==> r[k] == top[k])
      && r["ios"] == ios && r["android"] == android
  {
  }

  const AtsKey := "NSAppTransportSecurity"

  /** The exception hosts the development transport policy lets through
      over plain HTTP. */
  const DevHosts: set<string> := {"localhost", "127.0.0.1", "10.0.2.2", "dev.neko.local"}

  /** One host's exception: insecure loads allowed, subdomains not
      included. */
  const HostException := Obj(map["NSExceptionAllowsInsecureHTTPLoads" := Bool(true), "NSIncludesSubdomains" := Bool(false)])

  /** `buildIosAtsForDev()`: local networking allowed, plus the listed
      hosts; no blanket `NSAllowsArbitraryLoads`. */
  function DevAts(): (v: Value)
    ensures v.Obj? && "NSAllowsArbitraryLoads" !in v.fields
    ensures "NSAllowsLocalNetworking" in v.fields && v.fields["NSAllowsLocalNetworking"] == Bool(true)
    ensures "NSExceptionDomains" in v.fields && v.fields["NSExceptionDomains"].Obj?
    ensures var domains := v.fields["NSExceptionDomains"].fields;
      domains.Keys == DevHosts && forall h :: h in domains ==> domains[h] == HostException
  {
    Obj(map[
      "NSAllowsLocalNetworking" := Bool(true),
      "NSExceptionDomains" := Obj(map h | h in DevHosts :: HostException)])
  }

  /** The transport-security step on the merged `infoPlist`: a truthy
      inherited policy is deleted; a development build then gets the
      development policy. */
  function ApplyAts(plist: Object, devLike: bool): (r: Object)
    ensures devLike ==> AtsKey in r && r[AtsKey] == DevAts()
    ensures !devLike ==> (AtsKey in r <==> AtsKey in plist && !Truthy(plist[AtsKey]))
    ensures forall k :: k != AtsKey ==> (k in r <==> k in plist) && (k in r ==> r[k] == plist[k])
  {
    var cleaned := if AtsKey in plist && Truthy(plist[AtsKey]) then plist - {AtsKey} else plist;
    if devLike then cleaned[AtsKey := DevAts()] else cleaned
  }

  const DevNetworkConfig := "./config/android/network_security_config.dev.xml"
  const ProdNetworkConfig := "./config/android/network_security_config.prod.xml"

  /** The Android step: cleartext traffic follows the build kind, and so
      does the network-security file. */
  function ApplyAndroid(android: Object, devLike: bool): (r: Object)
    ensures "usesCleartextTraffic" in r && r["usesCleartextTraffic"] == Bool(devLike)
    ensures "networkSecurityConfig" in r
      && r["networkSecurityConfig"] == Str(if devLike then DevNetworkConfig else ProdNetworkConfig)
    ensures forall k :: k != "usesCleartextTraffic" && k != "networkSecurityConfig" ==>
      (k in r <==> k in android) && (k in r ==> r[k] == android[k])
  {
    android["usesCleartextTraffic" := Bool(devLike)]["networkSecurityConfig" := Str(if devLike then DevNetworkConfig else ProdNetworkConfig)]
  }

  /** The merged config has an `ios` object with an `infoPlist` object
      and an `android` object. */
  lemma MergeShape(base: Object, config: Object)
    ensures var merged := Merge(base, config);
      && "ios" in merged && merged["ios"].Obj?
      && "infoPlist" in merged["ios"].fields && merged["ios"].fields["infoPlist"].Obj?
      && "android" in merged && merged["android"].Obj?
  {
  }

  /** The default export: merge, then the iOS and Android rules. */
  function Build(base: Object, config: Object, devLike: bool): (r: Object)
    ensures "ios" in r && r["ios"].Obj? && "infoPlist" in r["ios"].fields && r["ios"].fields["infoPlist"].Obj?
    ensures "android" in r && r["android"].Obj?
    ensures forall k :: k != "ios" && k != "android" ==> (k in r <==> k in Merge(base, config)) && (k in r ==> r[k] == Merge(base, config)[k])
  {
    MergeShape(base, config);
    Transport(Merge(base, config), devLike)
  }

  /** The iOS and Android rules applied to a merged config: only the
      `ios` and `android` entries change. */
  function Transport(merged: Object, devLike: bool): (r: Object)
    requires "ios" in merged && merged["ios"].Obj?
    requires "infoPlist" in merged["ios"].fields && merged["ios"].fields["infoPlist"].Obj?
    requires "android" in merged && merged["android"].Obj?
    ensures "ios" in r && r["ios"].Obj? && "infoPlist" in r["ios"].fields && r["ios"].fields["infoPlist"].Obj?
    ensures "android" in r && r["android"].Obj?
    ensures forall k :: k != "ios" && k != "android" ==> (k in r <==> k in merged) && (k in r ==> r[k] == merged[k])
  {
    var ios := merged["ios"].fields;
    var plist := ApplyAts(ios["infoPlist"].fields, devLike);
    var android := ApplyAndroid(merged["android"].fields, devLike);
    merged["ios" := Obj(ios["infoPlist" := Obj(plist)])]["android" := Obj(android)]
  }

  /** The built config's transport rules: a development build carries the
      development policy; any other keeps at most a falsy leftover, so no
      inherited policy (such as a global `NSAllowsArbitraryLoads`) reaches
      a release build; the Android flags follow the build kind. */
  lemma BuildTransportRules(base: Object, config: Object, devLike: bool)
    ensures var plist := Build(base, config, devLike)["ios"].fields["infoPlist"].fields;
      && (devLike ==> AtsKey in plist && plist[AtsKey] == DevAts())
      && (!devLike ==> AtsKey !in plist || !Truthy(plist[AtsKey]))
    ensures var android := Build(base, config, devLike)["android"].fields;
      && android["usesCleartextTraffic"] == Bool(devLike)
      && android["networkSecurityConfig"] == Str(if devLike then DevNetworkConfig else ProdNetworkConfig)
  {
    var merged := Merge(base, config);
    MergeShape(base, config);
    TransportEntries(merged, devLike);
    var plist := ApplyAts(merged["ios"].fields["infoPlist"].fields, devLike);
    var android := ApplyAndroid(merged["android"].fields, devLike);
    assert Build(base, config, devLike)["ios"].fields["infoPlist"].fields == plist;
    assert Build(base, config, devLike)["android"].fields == android;
  }

  /** The two entries `Transport` rewrites are exactly the rules' results. */
  lemma TransportEntries(merged: Object, devLike: bool)
    requires "ios" in merged && merged["ios"].Obj?
    requires "infoPlist" in merged["ios"].fields && merged["ios"].fields["infoPlist"].Obj?
    requires "android" in merged && merged["android"].Obj?
    ensures Transport(merged, devLike)["ios"].fields["infoPlist"].fields == ApplyAts(merged["ios"].fields["infoPlist"].fields, devLike)
    ensures Transport(merged, devLike)["android"].fields == ApplyAndroid(merged["android"].fields, devLike)
  {
  }

  /** The transport step is idempotent. */
  lemma ApplyAtsTwice(plist: Object, devLike: bool)
    ensures ApplyAts(ApplyAts(plist, devLike), devLike) == ApplyAts(plist, devLike)
  {
    var once := ApplyAts(plist, devLike);
    var twice := ApplyAts(once, devLike);
    assert twice.Keys == once.Keys;
  }

  /** The Android step is idempotent. */
  lemma ApplyAndroidTwice(android: Object, devLike: bool)
    ensures ApplyAndroid(ApplyAndroid(android, devLike), devLike) == ApplyAndroid(android, devLike)
  {
    var once := ApplyAndroid(android, devLike);
    assert ApplyAndroid(once, devLike).Keys == once.Keys;
  }

  /** Merging nothing into an already merged `ios` object changes
      nothing. */
  lemma MergeIosNothing(ios: Object)
    requires "infoPlist" in ios && ios["infoPlist"].Obj?
    ensures MergeIos(ios, map[]) == ios
  {
    var r := MergeIos(ios, map[]);
    assert r["infoPlist"].fields.Keys == ios["infoPlist"].fields.Keys;
    assert r["infoPlist"] == ios["infoPlist"];
    assert r.Keys == ios.Keys;
  }

  /** Merging nothing into an already merged config changes nothing. */
  lemma MergeNothing(m: Object)
    requires "ios" in m && m["ios"].Obj? && "infoPlist" in m["ios"].fields && m["ios"].fields["infoPlist"].Obj?
    requires "android" in m && m["android"].Obj?
    ensures Merge(m, map[]) == m
  {
    MergeIosNothing(m["ios"].fields);
    var r := Merge(m, map[]);
    assert Fields(Get(m, "android")) == m["android"].fields;
    SpreadsNothing(r["android"].fields, m["android"].fields);
    assert r["android"] == m["android"];
    assert r.Keys == m.Keys;
  }

  /** Spreading nothing over an object gives the object back. */
  lemma SpreadsNothing(r: Object, a: Object)
    requires Spreads(r, a, map[])
    ensures r == a
  {
    assert r.Keys == a.Keys;
  }

  lemma UpdateSame(m: Object, k: string, v: Value)
    requires k in m && m[k] == v
    ensures m[k := v] == m
  {
    assert m[k := v].Keys == m.Keys;
  }

  /** Building a built config again, with nothing passed in, changes
      nothing: the rules are stable under a second application. */
  lemma BuildSettles(base: Object, config: Object, devLike: bool)
    ensures Build(Build(base, config, devLike), map[], devLike) == Build(base, config, devLike)
  {
    var merged := Merge(base, config);
    MergeShape(base, config);
    var ios := merged["ios"].fields;
    var plist := ApplyAts(ios["infoPlist"].fields, devLike);
    var android := ApplyAndroid(merged["android"].fields, devLike);
    var once := Build(base, config, devLike);
    assert once == merged["ios" := Obj(ios["infoPlist" := Obj(plist)])]["android" := Obj(android)];
    MergeNothing(once);
    ApplyAtsTwice(ios["infoPlist"].fields, devLike);
    ApplyAndroidTwice(merged["android"].fields, devLike);
    var onceIos := once["ios"].fields;
    assert onceIos["infoPlist"].fields == plist;
    assert once["android"].fields == android;
    assert ApplyAts(plist, devLike) == plist;
    UpdateSame(onceIos, "infoPlist", Obj(plist));
    assert ApplyAndroid(android, devLike) == android;
    UpdateSame(once, "ios", Obj(onceIos));
    UpdateSame(once, "android", Obj(android));
  }
}

=== FILE: chat.dfy ===
/** The chat panel's pure logic: how a send turns the typed text and the
    pending screenshots into new messages
    (packages/project-neko-components/src/chat/ChatContainer.tsx), and
    the input box's guards (packages/project-neko-components/src/chat/ChatInput.tsx).
    The clock and the id generator are parameters: `now` is the captured
    timestamp and `ids` supplies one id per new message. */
module Chat {
  import opened Wrappers
  import opened Text

  datatype Role = System | User | Assistant

  /** `ChatMessage`: a text message has `content`, an image message has
      `image`. */
  datatype Message = Message(id: string, role: Role, createdAt: int, content: Option<string>, image: Option<string>)

  datatype Screenshot = Screenshot(id: string, base64: string)

  datatype ChatState = ChatState(messages: seq<Message>, pending: seq<Screenshot>)

  /** `text.trim()` is truthy. */
  predicate HasText(text: string) {
    Trim(text) != ""
  }

  /** One image message per pending screenshot, in order, stamped
      `now`, `now + 1`, …. */
  function ImageMessages(pending: seq<Screenshot>, now: int, ids: seq<string>): (r: seq<Message>)
    requires |ids| >= |pending|
    ensures |r| == |pending|
    ensures forall i :: 0 <= i < |r| ==>
      r[i] == Message(ids[i], User, now + i, None, Some(pending[i].base64))
  {
    seq(|pending|, i requires 0 <= i < |pending| => Message(ids[i], User, now + i, None, Some(pending[i].base64)))
  }

  /** The messages one send creates: the image messages, then the text
      message (untrimmed) when the text is not blank. */
  function NewMessages(pending: seq<Screenshot>, text: string, now: int, ids: seq<string>): (r: seq<Message>)
    requires |ids| > |pending|
    ensures |r| == |pending| + (if HasText(text) then 1 else 0)
    ensures r[..|pending|] == ImageMessages(pending, now, ids)
    ensures HasText(text) ==> r[|pending|] == Message(ids[|pending|], User, now + |pending|, Some(text), None)
  {
    ImageMessages(pending, now, ids)
      + (if HasText(text) then [Message(ids[|pending|], User, now + |pending|, Some(text), None)] else [])
  }

  /** `handleSendText(text)`: nothing for blank text with no pending
      screenshot; otherwise the new messages are appended and the pending
      list is emptied. */
  function SendText(st: ChatState, text: string, now: int, ids: seq<string>): (r: ChatState)
    requires |ids| > |st.pending|
    ensures !HasText(text) && |st.pending| == 0 ==> r == st
    ensures HasText(text) || |st.pending| > 0 ==>
      && r.pending == []
      && r.messages == st.messages + NewMessages(st.pending, text, now, ids)
  {
    if !HasText(text) && |st.pending| == 0 then st
    else ChatState(st.messages + NewMessages(st.pending, text, now, ids), [])
  }

  /** Every new message is the user's, stamped one after the other from
      `now`. */
  lemma NewMessagesStamped(pending: seq<Screenshot>, text: string, now: int, ids: seq<string>)
    requires |ids| > |pending|
    ensures var added := NewMessages(pending, text, now, ids);
      forall k :: 0 <= k < |added| ==> added[k].role == User && added[k].createdAt == now + k
  {
    var added := NewMessages(pending, text, now, ids);
    forall k | 0 <= k < |added|
      ensures added[k].role == User && added[k].createdAt == now + k
    {
      if k < |pending| {
        assert added[k] == added[..|pending|][k];
      }
    }
  }

  /** A send keeps every earlier message and adds user messages whose
      timestamps rise by one from `now`; at least one is added unless the
      send is ignored. */
  lemma SendAppendsInOrder(st: ChatState, text: string, now: int, ids: seq<string>)
    requires |ids| > |st.pending|
    requires HasText(text) || |st.pending| > 0
    ensures var r := SendText(st, text, now, ids);
      && |r.messages| > |st.messages|
      && r.messages[..|st.messages|] == st.messages
      && (forall k :: |st.messages| <= k < |r.messages| ==>
            r.messages[k].role == User && r.messages[k].createdAt == now + (k - |st.messages|))
  {
    var added := NewMessages(st.pending, text, now, ids);
    NewMessagesStamped(st.pending, text, now, ids);
    var all := st.messages + added;
    assert SendText(st, text, now, ids).messages == all;
    assert all[..|st.messages|] == st.messages;
    assert forall k :: |st.messages| <= k < |all| ==> all[k] == added[k - |st.messages|];
  }

  /** Hence the new messages' timestamps strictly increase. */
  lemma SendStampsIncrease(st: ChatState, text: string, now: int, ids: seq<string>)
    requires |ids| > |st.pending|
    requires HasText(text) || |st.pending| > 0
    ensures var r := SendText(st, text, now, ids);
      forall k, l :: |st.messages| <= k < l < |r.messages| ==>
        r.messages[k].createdAt < r.messages[l].createdAt
  {
    SendAppendsInOrder(st, text, now, ids);
  }

  const MaxScreenshots := 5

  /** The input box: its text, the pending screenshots it was given (if
      any), and whether it is disabled. */
  datatype Input = Input(value: string, pending: Option<seq<Screenshot>>, disabled: bool)

  /** The effect of pressing send: the text box afterwards and what
      `onSend` received, if it was called. */
  datatype Sent = Sent(value: string, sent: Option<string>)

  predicate HasPending(p: Option<seq<Screenshot>>) {
    p.Some? && |p.value| > 0
  }

  /** `handleSend()`: nothing when disabled, or when the text is blank and
      no screenshot is pending; otherwise the untrimmed text is sent and
      the box cleared. */
  function HandleSend(inp: Input): (r: Sent)
    ensures inp.disabled || (!HasText(inp.value) && !HasPending(inp.pending)) ==> r == Sent(inp.value, None)
    ensures !inp.disabled && (HasText(inp.value) || HasPending(inp.pending)) ==> r == Sent("", Some(inp.value))
  {
    if inp.disabled then Sent(inp.value, None)
    else if !HasText(inp.value) && !HasPending(inp.pending) then Sent(inp.value, None)
    else Sent("", Some(inp.value))
  }

  /** Whatever the input box lets through, the container acts on: a send
      from a box holding the container's pending list always adds at
      least one message. */
  lemma InputGuardMatchesContainer(st: ChatState, value: string, now: int, ids: seq<string>)
    requires |ids| > |st.pending|
    ensures var s := HandleSend(Input(value, Some(st.pending), false));
      s.sent.Some? ==> |SendText(st, s.sent.value, now, ids).messages| > |st.messages|
  {
  }

  /** `handleTakePhoto()`: whether `onTakePhoto` is called — not when
      disabled and not with five or more screenshots pending. */
  function MayTakePhoto(disabled: bool, pending: Option<seq<Screenshot>>): (r: bool)
    ensures r <==> !disabled && (pending.None? || |pending.value| < MaxScreenshots)
  {
    if disabled then false
    else if pending.Some? && |pending.value| >= MaxScreenshots then false
    else true
  }

  /** The remove button: `prev.filter((x) => x.id !== id)`. */
  function RemoveScreenshot(pending: seq<Screenshot>, id: string): (r: seq<Screenshot>)
    ensures forall s :: s in r <==> s in pending && s.id != id
    ensures |r| <= |pending|
  {
    if |pending| == 0 then []
    else
      var rest := RemoveScreenshot(pending[1..], id);
      assert forall s :: s in pending <==> s == pending[0] || s in pending[1..];
      if pending[0].id == id then rest else [pending[0]] + rest
  }

  /** Removal keeps the order of what remains: it acts on each part of a
      list separately. */
  lemma {:induction false} RemoveDistributes(a: seq<Screenshot>, b: seq<Screenshot>, id: string)
    ensures RemoveScreenshot(a + b, id) == RemoveScreenshot(a, id) + RemoveScreenshot(b, id)
  {
    if |a| == 0 {
      assert a + b == b;
    } else {
      assert (a + b)[0] == a[0];
      assert (a + b)[1..] == a[1..] + b;
      RemoveDistributes(a[1..], b, id);
    }
  }

  /** Removing twice is removing once, and removing an id nobody has
      changes nothing. */
  lemma {:induction false} RemoveIdempotent(pending: seq<Screenshot>, id: string)
    ensures RemoveScreenshot(RemoveScreenshot(pending, id), id) == RemoveScreenshot(pending, id)
    ensures (forall s :: s in pending ==> s.id != id) ==> RemoveScreenshot(pending, id) == pending
  {
    if |pending| > 0 {
      RemoveIdempotent(pending[1..], id);
      assert forall s :: s in pending[1..] ==> s in pending;
    }
  }

  /** The clear-all button: `setPendingScreenshots([])`. */
  function ClearAll(pending: seq<Screenshot>): seq<Screenshot> {
    []
  }

  /** The ids of the pending screenshots, in order. */
  function Ids(pending: seq<Screenshot>): (r: seq<string>)
    ensures |r| == |pending| && forall k :: 0 <= k < |r| ==> r[k] == pending[k].id
  {
    seq(|pending|, k requires 0 <= k < |pending| => pending[k].id)
  }

  /** Every pending screenshot has its id among `ids`. */
  predicate CoveredBy(pending: seq<Screenshot>, ids: seq<string>) {
    forall s :: s in pending ==> s.id in ids
  }

  /** Pressing the remove button of each id in turn. */
  function RemoveEach(pending: seq<Screenshot>, ids: seq<string>): (r: seq<Screenshot>)
    ensures forall s :: s in r <==> s in pending && s.id !in ids
    ensures CoveredBy(pending, ids) ==> r == []
    decreases |ids|
  {
    if |ids| == 0 then
      assert |pending| > 0 ==> pending[0] in pending;
      pending
    else
      var r := RemoveEach(RemoveScreenshot(pending, ids[0]), ids[1..]);
      assert forall x :: x in ids <==> x == ids[0] || x in ids[1..];
      r
  }

  /** Clear-all is removing every pending screenshot one by one; afterwards
      the camera is available again, and blank text sends nothing. */
  lemma ClearAllIsRemovingEach(pending: seq<Screenshot>, value: string)
    ensures ClearAll(pending) == RemoveEach(pending, Ids(pending))
    ensures MayTakePhoto(false, Some(ClearAll(pending)))
    ensures HandleSend(Input(value, Some(ClearAll(pending)), false)).sent.Some? <==> HasText(value)
  {
    var ids := Ids(pending);
    forall s | s in pending ensures s.id in ids {
      var k :| 0 <= k < |pending| && pending[k] == s;
      assert ids[k] == s.id;
    }
  }

  /** The effect of a key press in the text area: the send it triggers, if
      any, and whether the browser's default (a new line) is suppressed. */
  datatype KeyPress = KeyPress(effect: Sent, prevented: bool)

  /** `onKeyDown`: Enter without Shift suppresses the new line and acts as
      the send button; any other key leaves the box to the browser. */
  function KeyDown(inp: Input, key: string, shift: bool): (r: KeyPress)
    ensures r.prevented <==> key == "Enter" && !shift
    ensures r.effect.sent.Some? <==>
      key == "Enter" && !shift && !inp.disabled && (HasText(inp.value) || HasPending(inp.pending))
    ensures r.effect.sent.Some? ==> r.effect == Sent("", Some(inp.value))
    ensures r.effect.sent.None? ==> r.effect.value == inp.value
  {
    if key == "Enter" && !shift then KeyPress(HandleSend(inp), true)
    else KeyPress(Sent(inp.value, None), false)
  }

  /** Enter is the send button, and Shift+Enter never sends, whatever the
      box holds. */
  lemma EnterIsSendButton(inp: Input)
    ensures KeyDown(inp, "Enter", false).effect == HandleSend(inp)
    ensures KeyDown(inp, "Enter", true).effect == Sent(inp.value, None)
  {
  }
}

=== FILE: dev_connection.dfy ===
/** The stored developer connection settings
    (services/DevConnectionStorage.ts): only a valid host, port and
    character name survive sanitising, reads overlay the sanitised stored
    fields on the default, and writes overlay the sanitised request on what
    was read. The default configuration lives in a module that is not part
    of this model, so it is a parameter. */
module DevConnection {
  import opened Wrappers
  import opened JsNumber
  import opened Text

  /** One property of a parsed value: absent, a string, a number, or
      anything else. */
  datatype Field = Missing | Str(s: string) | Number(n: Num) | OtherValue

  /** A parsed value: something without properties (null, a primitive)
      or an object with the three properties the storage reads. */
  datatype Input = NotAnObject | Object(host: Field, port: Field, characterName: Field)

  datatype Config = Config(host: string, port: real, characterName: string)

  /** `Partial<DevConnectionConfig>`. */
  datatype Partial = Partial(host: Option<string>, port: Option<real>, characterName: Option<string>)

  /** What the storage key holds: nothing (or the empty string), text that
      does not parse, or a parsed value. A failing read is `Unreadable`. */
  datatype Stored = NoItem | Unreadable | BadJson | Json(value: Input)

  /** `isNonEmptyString(v)`: a string that is not blank. */
  predicate IsNonEmptyString(f: Field) {
    f.Str? && Trim(f.s) != ""
  }

  /** `isValidPort(v)`: a finite number strictly between 0 and 65536. */
  predicate IsValidPort(f: Field) {
    f.Number? && f.n.IsFinite() && 0.0 < f.n.v < 65536.0
  }

  function SanitizeString(f: Field): (r: Option<string>)
    ensures r.Some? <==> IsNonEmptyString(f)
    ensures r.Some? ==> r.value == Trim(f.s) && r.value != "" && IsTrimmed(r.value)
  {
    TrimSpec(if f.Str? then f.s else "");
    if IsNonEmptyString(f) then Some(Trim(f.s)) else None
  }

  /** `sanitizePartial(input)`: the host and the character name when they
      are non-blank strings, trimmed; the port when it is valid; nothing
      else. */
  function Sanitize(input: Input): (r: Partial)
    ensures input.NotAnObject? ==> r == Partial(None, None, None)
    ensures input.Object? ==>
      && (r.host.Some? <==> IsNonEmptyString(input.host))
      && (r.host.Some? ==> r.host.value == Trim(input.host.s))
      && (r.port.Some? <==> IsValidPort(input.port))
      && (r.port.Some? ==> r.port.value == input.port.n.v)
      && (r.characterName.Some? <==> IsNonEmptyString(input.characterName))
      && (r.characterName.Some? ==> r.characterName.value == Trim(input.characterName.s))
  {
    match input
    case NotAnObject => Partial(None, None, None)
    case Object(h, p, c) =>
      Partial(SanitizeString(h), if IsValidPort(p) then Some(p.n.v) else None, SanitizeString(c))
  }

  /** A partial written back as an object. */
  function AsInput(p: Partial): Input {
    Object(
      if p.host.Some? then Str(p.host.value) else Missing,
      if p.port.Some? then Number(Finite(p.port.value)) else Missing,
      if p.characterName.Some? then Str(p.characterName.value) else Missing)
  }

  /** Sanitising a sanitised value changes nothing. */
  lemma SanitizeIdempotent(input: Input)
    ensures Sanitize(AsInput(Sanitize(input))) == Sanitize(input)
  {
    var p := Sanitize(input);
    if p.host.Some? { TrimOfTrimmed(p.host.value); }
    if p.characterName.Some? { TrimOfTrimmed(p.characterName.value); }
  }

  /** `{ ...c, ...p }`: the fields `p` has replace those of `c`. */
  function Overlay(c: Config, p: Partial): (r: Config)
    ensures r.host == p.host.GetOr(c.host)
    ensures r.port == p.port.GetOr(c.port)
    ensures r.characterName == p.characterName.GetOr(c.characterName)
  {
    Config(p.host.GetOr(c.host), p.port.GetOr(c.port), p.characterName.GetOr(c.characterName))
  }

  /** `getStoredDevConnectionConfig()`: the default when nothing is
      stored, the read fails or the text does not parse; otherwise the
      default overlaid with the sanitised stored value. */
  function Get(st: Stored, dflt: Config): (r: Config)
    ensures !st.Json? ==> r == dflt
    ensures st.Json? ==> r == Overlay(dflt, Sanitize(st.value))
  {
    match st
    case Json(v) => Overlay(dflt, Sanitize(v))
    case _ => dflt
  }

  function AsStored(c: Config): Input {
    Object(Str(c.host), Number(Finite(c.port)), Str(c.characterName))
  }

  /** The config `set` returns and what the storage holds afterwards. */
  datatype SetResult = SetResult(config: Config, stored: Stored)

  /** `setStoredDevConnectionConfig(next)`: the current config overlaid
      with the sanitised request is written and returned; if the write
      fails, the current config is returned and the storage is
      unchanged. */
  function Set(st: Stored, dflt: Config, next: Input, writeFails: bool): (r: SetResult)
    ensures writeFails ==> r == SetResult(Get(st, dflt), st)
    ensures !writeFails ==> r.config == Overlay(Get(st, dflt), Sanitize(next))
    ensures !writeFails ==> r.stored == Json(AsStored(r.config))
  {
    var current := Get(st, dflt);
    var merged := Overlay(current, Sanitize(next));
    if writeFails then SetResult(current, st) else SetResult(merged, Json(AsStored(merged)))
  }

  /** An invalid field in the request never replaces the stored one. */
  lemma InvalidFieldsKeepCurrent(st: Stored, dflt: Config, next: Input, writeFails: bool)
    requires next.Object?
    ensures var r := Set(st, dflt, next, writeFails).config;
      && (!IsNonEmptyString(next.host) ==> r.host == Get(st, dflt).host)
      && (!IsValidPort(next.port) ==> r.port == Get(st, dflt).port)
      && (!IsNonEmptyString(next.characterName) ==> r.characterName == Get(st, dflt).characterName)
  {
  }

  /** `clearStoredDevConnectionConfig()`: removes the item; a failure is
      swallowed and leaves it. */
  function Clear(st: Stored, removeFails: bool): (r: Stored)
    ensures !removeFails ==> forall d :: Get(r, d) == d
    ensures removeFails ==> r == st
  {
    if removeFails then st else NoItem
  }

  /** A string field that reads back as itself over the default `d`:
      trimmed, and empty only when the default is empty too. */
  predicate ReadsBack(s: string, d: string) {
    IsTrimmed(s) && (s == "" ==> d == "")
  }

  lemma FieldReadsBack(s: string, d: string)
    requires ReadsBack(s, d)
    ensures SanitizeString(Str(s)).GetOr(d) == s
  {
    TrimOfTrimmed(s);
  }

  /** Overlaying a sanitised string keeps a field that reads back. */
  lemma OverlayReadsBack(o: Option<string>, s: string, d: string)
    requires o.Some? ==> o.value != "" && IsTrimmed(o.value)
    requires ReadsBack(s, d)
    ensures ReadsBack(o.GetOr(s), d)
  {
  }

  /** Every field of `c` reads back as itself over `dflt`. */
  predicate ConfigReadsBack(c: Config, dflt: Config) {
    && ReadsBack(c.host, dflt.host)
    && ReadsBack(c.characterName, dflt.characterName)
    && (!IsValidPort(Number(Finite(c.port))) ==> c.port == dflt.port)
  }

  lemma GetOfStored(c: Config, dflt: Config)
    requires ConfigReadsBack(c, dflt)
    ensures Get(Json(AsStored(c)), dflt) == c
  {
    FieldReadsBack(c.host, dflt.host);
    FieldReadsBack(c.characterName, dflt.characterName);
    var back := Sanitize(AsStored(c));
    assert back == Partial(SanitizeString(Str(c.host)),
      if IsValidPort(Number(Finite(c.port))) then Some(c.port) else None,
      SanitizeString(Str(c.characterName)));
    assert Overlay(dflt, back) == c;
  }

  /** Overlaying a sanitised value keeps every field reading back. */
  lemma OverlaySanitizedReadsBack(c: Config, input: Input, dflt: Config)
    requires ConfigReadsBack(c, dflt)
    ensures ConfigReadsBack(Overlay(c, Sanitize(input)), dflt)
  {
    var p := Sanitize(input);
    OverlayReadsBack(p.host, c.host, dflt.host);
    OverlayReadsBack(p.characterName, c.characterName, dflt.characterName);
  }

  /** Round trip: after a successful `set`, `get` returns exactly what
      `set` returned, provided the default's strings are trimmed. */
  lemma SetThenGet(st: Stored, dflt: Config, next: Input)
    requires IsTrimmed(dflt.host) && IsTrimmed(dflt.characterName)
    ensures var r := Set(st, dflt, next, false);
      Get(r.stored, dflt) == r.config
  {
    assert ConfigReadsBack(dflt, dflt);
    var current := Get(st, dflt);
    if st.Json? {
      OverlaySanitizedReadsBack(dflt, st.value, dflt);
    }
    assert ConfigReadsBack(current, dflt);
    var c := Overlay(current, Sanitize(next));
    OverlaySanitizedReadsBack(current, next, dflt);
    GetOfStored(c, dflt);
    assert Set(st, dflt, next, false) == SetResult(c, Json(AsStored(c)));
  }
}

=== FILE: emitter.dfy ===
/** `TinyEmitter` (packages/project-neko-common/index.ts): a map from event
    name to an insertion-ordered set of handlers. Handlers are opaque values
    compared by identity; what a handler does when called is given by an
    `outcome` function saying whether it returns normally or throws. */
module Emitter {
  import opened Wrappers

  datatype Emitter<E, H> = Emitter(listeners: map<E, seq<H>>, hasOnError: bool)

  /** One step of an `emit`: a handler being called, and, when it throws,
      the report of that exception to `onError` or to the console. */
  datatype Delivery<H, P, X> =
    | Call(handler: H, payload: P)
    | ReportToHook(error: X, handler: H, payload: P)
    | ReportToConsole(error: X, handler: H, payload: P)

  predicate NoDup<H(==)>(s: seq<H>) {
    forall i, j :: 0 <= i < j < |s| ==> s[i] != s[j]
  }

  /** The representation invariant: every stored handler set is non-empty
      (an emptied set is deleted) and holds each handler once. */
  predicate Valid<E(==,!new), H(==,!new)>(em: Emitter<E, H>) {
    forall e :: e in em.listeners ==> em.listeners[e] != [] && NoDup(em.listeners[e])
  }

  /** The handlers registered for `e`, in registration order. */
  function Handlers<E(==,!new), H(==,!new)>(em: Emitter<E, H>, e: E): seq<H> {
    if e in em.listeners then em.listeners[e] else []
  }

  /** `new TinyEmitter({onError})`. */
  function New<E(==,!new), H(==,!new)>(hasOnError: bool): (em: Emitter<E, H>)
    ensures Valid(em)
    ensures forall e :: Handlers(em, e) == []
  {
    Emitter(map[], hasOnError)
  }

  /** `on(e, h)`: adds `h` to the set for `e`; a handler already present
      stays where it is. */
  function On<E(==,!new), H(==,!new)>(em: Emitter<E, H>, e: E, h: H): (r: Emitter<E, H>)
    requires Valid(em)
    ensures Valid(r)
    ensures h in Handlers(r, e)
    ensures h in Handlers(em, e) ==> r == em
    ensures h !in Handlers(em, e) ==> Handlers(r, e) == Handlers(em, e) + [h]
    ensures forall e' :: e' != e ==> Handlers(r, e') == Handlers(em, e')
    ensures r.listeners.Keys == em.listeners.Keys + {e}
    ensures r.hasOnError == em.hasOnError
  {
    var set0 := Handlers(em, e);
    if h in set0 then em
    else em.(listeners := em.listeners[e := set0 + [h]])
  }

  /** `s` with every occurrence of `h` deleted, the rest in order. */
  function Remove<H(==,!new)>(s: seq<H>, h: H): (r: seq<H>)
    ensures h !in r
    ensures forall x :: x in r <==> x in s && x != h
    ensures |r| <= |s|
    ensures NoDup(s) ==> NoDup(r)
    ensures h !in s ==> r == s
  {
    if |s| == 0 then []
    else if s[0] == h then Remove(s[1..], h)
    else
      var r := Remove(s[1..], h);
      assert NoDup(s) ==> s[0] !in s[1..];
      [s[0]] + r
  }

  /** The function returned by `on(e, h)`: deletes `h` from the set for `e`
      and deletes the entry once the set is empty. */
  function Unsubscribe<E(==,!new), H(==,!new)>(em: Emitter<E, H>, e: E, h: H): (r: Emitter<E, H>)
    requires Valid(em)
    ensures Valid(r)
    ensures h !in Handlers(r, e)
    ensures forall x :: x in Handlers(r, e) <==> x in Handlers(em, e) && x != h
    ensures forall e' :: e' != e ==> Handlers(r, e') == Handlers(em, e')
    ensures e !in r.listeners <==> forall x :: x in Handlers(em, e) ==> x == h
    ensures r.hasOnError == em.hasOnError
  {
    if e !in em.listeners then em
    else
      var rest := Remove(em.listeners[e], h);
      if |rest| == 0 then
        em.(listeners := map e' | e' in em.listeners && e' != e :: em.listeners[e'])
      else
        assert rest[0] in em.listeners[e];
        em.(listeners := em.listeners[e := rest])
  }

  /** The deliveries made for one handler. */
  function DeliverOne<H, P, X>(h: H, p: P, outcome: H -> Option<X>, hasOnError: bool): seq<Delivery<H, P, X>> {
    match outcome(h)
    case None => [Call(h, p)]
    case Some(x) => if hasOnError then [Call(h, p), ReportToHook(x, h, p)] else [Call(h, p), ReportToConsole(x, h, p)]
  }

  /** `onError` is called outside the `try`, so when the handler `h` throws
      and `onError` throws in turn, that exception leaves `emit`. The
      console report never throws. */
  predicate Escapes<H, X>(h: H, outcome: H -> Option<X>, hasOnError: bool, hookThrows: X -> bool) {
    hasOnError && outcome(h).Some? && hookThrows(outcome(h).value)
  }

  /** The position of the first handler whose error escapes, if any. */
  function FirstEscape<H, X>(hs: seq<H>, outcome: H -> Option<X>, hasOnError: bool, hookThrows: X -> bool): (r: Option<nat>)
    ensures r.Some? ==> r.value < |hs| && Escapes(hs[r.value], outcome, hasOnError, hookThrows)
    ensures r.Some? ==> forall j :: 0 <= j < r.value ==> !Escapes(hs[j], outcome, hasOnError, hookThrows)
    ensures r.None? <==> forall j :: 0 <= j < |hs| ==> !Escapes(hs[j], outcome, hasOnError, hookThrows)
  {
    if |hs| == 0 then None
    else if Escapes(hs[0], outcome, hasOnError, hookThrows) then Some(0)
    else
      var r := FirstEscape(hs[1..], outcome, hasOnError, hookThrows);
      assert forall j :: 1 <= j < |hs| ==> hs[j] == hs[1..][j - 1];
      if r.Some? then Some(r.value + 1) else None
  }

  /** The loop of `emit` over the handlers, which stops right after a
      report to `onError` that throws. */
  function DeliverAll<H, P, X>(hs: seq<H>, p: P, outcome: H -> Option<X>, hasOnError: bool, hookThrows: X -> bool): seq<Delivery<H, P, X>> {
    if |hs| == 0 then []
    else
      var rest := if Escapes(hs[0], outcome, hasOnError, hookThrows) then [] else DeliverAll(hs[1..], p, outcome, hasOnError, hookThrows);
      DeliverOne(hs[0], p, outcome, hasOnError) + rest
  }

  /** What an `emit` did, and whether it ended by throwing. */
  datatype Emission<H, P, X> = Emission(deliveries: seq<Delivery<H, P, X>>, threw: bool)

  /** `emit(e, p)`: calls the handlers of `e` in registration order; an
      exception is caught and reported, and delivery continues, unless the
      report to `onError` throws itself. The handlers called are those of
      `e` up to the one whose report escaped, or all of them when none
      did; only an emitter with `onError` can throw out of `emit`. */
  function Emit<E(==,!new), H(==,!new), P, X>(em: Emitter<E, H>, e: E, p: P, outcome: H -> Option<X>, hookThrows: X -> bool): (r: Emission<H, P, X>)
    ensures Called(r.deliveries) == Handlers(em, e)[..Reached(Handlers(em, e), outcome, em.hasOnError, hookThrows)]
    ensures !r.threw ==> Called(r.deliveries) == Handlers(em, e)
    ensures r.threw ==> em.hasOnError
  {
    var hs := Handlers(em, e);
    DeliverAllCalls(hs, p, outcome, em.hasOnError, hookThrows);
    Emission(DeliverAll(hs, p, outcome, em.hasOnError, hookThrows), FirstEscape(hs, outcome, em.hasOnError, hookThrows).Some?)
  }

  /** The handlers called, in call order. */
  function Called<H, P, X>(ds: seq<Delivery<H, P, X>>): seq<H> {
    if |ds| == 0 then []
    else if ds[0].Call? then [ds[0].handler] + Called(ds[1..])
    else Called(ds[1..])
  }

  /** How many handlers a delivery run reaches: all of them, or those up to
      and including the first whose error escapes. */
  function Reached<H, X>(hs: seq<H>, outcome: H -> Option<X>, hasOnError: bool, hookThrows: X -> bool): (n: nat)
    ensures n <= |hs|
  {
    match FirstEscape(hs, outcome, hasOnError, hookThrows)
    case None => |hs|
    case Some(k) => k + 1
  }

  /** `clear()`. */
  function Clear<E(==,!new), H(==,!new)>(em: Emitter<E, H>): (r: Emitter<E, H>)
    ensures Valid(r)
    ensures forall e :: Handlers(r, e) == []
    ensures r.hasOnError == em.hasOnError
  {
    em.(listeners := map[])
  }

  lemma CalledAppend<H, P, X>(a: seq<Delivery<H, P, X>>, b: seq<Delivery<H, P, X>>)
    ensures Called(a + b) == Called(a) + Called(b)
  {
    if |a| == 0 {
      assert a + b == b;
    } else {
      assert (a + b)[1..] == a[1..] + b;
      CalledAppend(a[1..], b);
    }
  }

  /** Exception isolation and ordering: every registered handler is
      called exactly once, in registration order, whatever the handlers
      throw, unless a report to `onError` throws; then `emit` throws and
      the handlers after the one being reported are not called. */
  lemma {:induction false} EmitCallsAllInOrder<E(!new), H(!new), P, X>(em: Emitter<E, H>, e: E, p: P, outcome: H -> Option<X>, hookThrows: X -> bool)
    ensures var r := Emit(em, e, p, outcome, hookThrows);
      var k := FirstEscape(Handlers(em, e), outcome, em.hasOnError, hookThrows);
      && r.threw == k.Some?
      && (k.None? ==> Called(r.deliveries) == Handlers(em, e))
      && (k.Some? ==> Called(r.deliveries) == Handlers(em, e)[..k.value + 1])
    ensures !em.hasOnError ==> !Emit(em, e, p, outcome, hookThrows).threw
  {
    DeliverAllCalls(Handlers(em, e), p, outcome, em.hasOnError, hookThrows);
  }

  /** The handlers one handler's deliveries call: just that handler. */
  lemma CalledOne<H, P, X>(h: H, p: P, outcome: H -> Option<X>, hasOnError: bool)
    ensures Called(DeliverOne(h, p, outcome, hasOnError)) == [h]
  {
    var one := DeliverOne(h, p, outcome, hasOnError);
    assert one[0].Call?;
    if |one| == 2 {
      assert one[1..][0] == one[1];
      assert Called(one[1..][1..]) == [];
    }
  }

  /** How `Reached` and `DeliverAll` unfold on a non-empty list. */
  lemma ReachedStep<H, P, X>(hs: seq<H>, p: P, outcome: H -> Option<X>, hasOnError: bool, hookThrows: X -> bool)
    requires |hs| > 0
    ensures Escapes(hs[0], outcome, hasOnError, hookThrows) ==>
      && Reached(hs, outcome, hasOnError, hookThrows) == 1
      && DeliverAll(hs, p, outcome, hasOnError, hookThrows) == DeliverOne(hs[0], p, outcome, hasOnError)
    ensures !Escapes(hs[0], outcome, hasOnError, hookThrows) ==>
      && Reached(hs, outcome, hasOnError, hookThrows) == Reached(hs[1..], outcome, hasOnError, hookThrows) + 1
      && DeliverAll(hs, p, outcome, hasOnError, hookThrows)
           == DeliverOne(hs[0], p, outcome, hasOnError) + DeliverAll(hs[1..], p, outcome, hasOnError, hookThrows)
  {
    var one := DeliverOne(hs[0], p, outcome, hasOnError);
    assert one + [] == one;
  }

  /** A delivery run calls the handlers it reaches, in order: a throwing
      handler does not stop delivery to the handlers after it, a throwing
      `onError` does. */
  lemma {:induction false} DeliverAllCalls<H, P, X>(hs: seq<H>, p: P, outcome: H -> Option<X>, hasOnError: bool, hookThrows: X -> bool)
    ensures Called(DeliverAll(hs, p, outcome, hasOnError, hookThrows)) == hs[..Reached(hs, outcome, hasOnError, hookThrows)]
    decreases |hs|
  {
    if |hs| > 0 {
      CalledOne(hs[0], p, outcome, hasOnError);
      ReachedStep(hs, p, outcome, hasOnError, hookThrows);
      if !Escapes(hs[0], outcome, hasOnError, hookThrows) {
        CalledAppend(DeliverOne(hs[0], p, outcome, hasOnError), DeliverAll(hs[1..], p, outcome, hasOnError, hookThrows));
        DeliverAllCalls(hs[1..], p, outcome, hasOnError, hookThrows);
        var n := Reached(hs[1..], outcome, hasOnError, hookThrows);
        assert [hs[0]] + hs[1..][..n] == hs[..n + 1];
      }
    }
  }

  /** A handler that throws, reached before any report to `onError` has
      thrown, is reported with the error, itself and the payload: to
      `onError` when one is set, to the console otherwise. */
  lemma {:induction false} ThrowingHandlerReported<H, P, X>(hs: seq<H>, p: P, outcome: H -> Option<X>, hasOnError: bool,
                                                            hookThrows: X -> bool, k: nat)
    requires k < |hs| && outcome(hs[k]).Some?
    requires forall j :: 0 <= j < k ==> !Escapes(hs[j], outcome, hasOnError, hookThrows)
    ensures hasOnError ==> ReportToHook(outcome(hs[k]).value, hs[k], p) in DeliverAll(hs, p, outcome, hasOnError, hookThrows)
    ensures !hasOnError ==> ReportToConsole(outcome(hs[k]).value, hs[k], p) in DeliverAll(hs, p, outcome, hasOnError, hookThrows)
    decreases k
  {
    if k > 0 {
      assert !Escapes(hs[0], outcome, hasOnError, hookThrows);
      assert forall j :: 0 <= j < k - 1 ==> hs[1..][j] == hs[j + 1];
      ThrowingHandlerReported(hs[1..], p, outcome, hasOnError, hookThrows, k - 1);
    }
  }

  /** Emitting an event nobody listens to does nothing. */
  lemma EmitWithoutListeners<E(!new), H(!new), P, X>(em: Emitter<E, H>, e: E, p: P, outcome: H -> Option<X>, hookThrows: X -> bool)
    requires e !in em.listeners
    ensures Emit(em, e, p, outcome, hookThrows) == Emission([], false)
  {
  }

  /** After `on(e, h)`, `emit(e, p)` calls `h(p)`, unless the report of an
      earlier handler's error to `onError` threw. */
  lemma OnThenEmitCalls<E(!new), H(!new), P, X>(em: Emitter<E, H>, e: E, h: H, p: P, outcome: H -> Option<X>, hookThrows: X -> bool)
    requires Valid(em)
    ensures var r := Emit(On(em, e, h), e, p, outcome, hookThrows);
      h in Called(r.deliveries) || r.threw
    ensures FirstEscape(Handlers(On(em, e, h), e), outcome, em.hasOnError, hookThrows).None? ==>
      h in Called(Emit(On(em, e, h), e, p, outcome, hookThrows).deliveries)
  {
    EmitCallsAllInOrder(On(em, e, h), e, p, outcome, hookThrows);
  }

  /** Registering a handler twice stores it once, so one emit calls it once. */
  lemma {:induction false} OnTwiceStoresOnce<E(!new), H(!new)>(em: Emitter<E, H>, e: E, h: H)
    requires Valid(em)
    ensures On(On(em, e, h), e, h) == On(em, e, h)
    ensures forall i, j :: 0 <= i < j < |Handlers(On(em, e, h), e)| ==>
      Handlers(On(em, e, h), e)[i] != Handlers(On(em, e, h), e)[j]
  {
    var r := On(em, e, h);
    assert h in Handlers(r, e);
    assert e in r.listeners;
  }

  /** Unsubscribing is idempotent. */
  lemma UnsubscribeIdempotent<E(!new), H(!new)>(em: Emitter<E, H>, e: E, h: H)
    requires Valid(em)
    ensures Unsubscribe(Unsubscribe(em, e, h), e, h) == Unsubscribe(em, e, h)
  {
    var r := Unsubscribe(em, e, h);
    if e in r.listeners {
      assert Remove(r.listeners[e], h) == r.listeners[e];
      assert r.listeners[e := r.listeners[e]] == r.listeners;
    }
  }

  /** The operations a client can perform on an emitter. */
  datatype Op<E, H> = Subscribe(e: E, h: H) | Unsub(e: E, h: H) | ClearAll

  function Apply<E(==,!new), H(==,!new)>(em: Emitter<E, H>, op: Op<E, H>): (r: Emitter<E, H>)
    requires Valid(em)
    ensures Valid(r)
  {
    match op
    case Subscribe(e, h) => On(em, e, h)
    case Unsub(e, h) => Unsubscribe(em, e, h)
    case ClearAll => Clear(em)
  }

  function Run<E(==,!new), H(==,!new)>(em: Emitter<E, H>, ops: seq<Op<E, H>>): (r: Emitter<E, H>)
    requires Valid(em)
    ensures Valid(r)
    decreases |ops|
  {
    if |ops| == 0 then em else Run(Apply(em, ops[0]), ops[1..])
  }

  /** Once the unsubscribe function of `on(e, h)` has run, `h` is never
      called for `e` again, whatever else happens, until `h` is subscribed to
      `e` anew. */
  lemma {:induction false} UnsubscribedNeverCalled<E(!new), H(!new), P, X>(em: Emitter<E, H>, e: E, h: H, ops: seq<Op<E, H>>, p: P,
                                                                          outcome: H -> Option<X>, hookThrows: X -> bool)
    requires Valid(em)
    requires Subscribe(e, h) !in ops
    ensures h !in Called(Emit(Run(Unsubscribe(em, e, h), ops), e, p, outcome, hookThrows).deliveries)
  {
    var r := Run(Unsubscribe(em, e, h), ops);
    StaysUnsubscribed(Unsubscribe(em, e, h), e, h, ops);
    EmitCallsAllInOrder(r, e, p, outcome, hookThrows);
    var hs := Handlers(r, e);
    assert forall n :: 0 <= n <= |hs| ==> forall x :: x in hs[..n] ==> x in hs;
  }

  lemma {:induction false} StaysUnsubscribed<E(!new), H(!new)>(em: Emitter<E, H>, e: E, h: H, ops: seq<Op<E, H>>)
    requires Valid(em)
    requires h !in Handlers(em, e)
    requires Subscribe(e, h) !in ops
    ensures h !in Handlers(Run(em, ops), e)
    decreases |ops|
  {
    if |ops| > 0 {
      assert ops[0] != Subscribe(e, h);
      assert forall o :: o in ops[1..] ==> o in ops;
      StaysUnsubscribed(Apply(em, ops[0]), e, h, ops[1..]);
    }
  }
}

=== FILE: js_number.dfy ===
/** JavaScript numbers as the components see them: a finite value or one of
    the three non-finite values. `Number.isFinite` and the `[0,1]` clamp used
    for the lip-sync scalar are defined once here. */
module JsNumber {

  datatype Num = Finite(v: real) | NaN | PosInf | NegInf {

    /** `Number.isFinite(n)`. */
    predicate IsFinite() {
      Finite?
    }
  }

  function Min(a: real, b: real): real { if a <= b then a else b }
  function Max(a: real, b: real): real { if a >= b then a else b }

  /** `clamp01`: 0 for a non-finite input, otherwise `max(0, min(1, v))`. */
  function Clamp01(n: Num): (r: real)
    ensures 0.0 <= r <= 1.0
    ensures !n.IsFinite() ==> r == 0.0
    ensures n.IsFinite() && 0.0 <= n.v <= 1.0 ==> r == n.v
    ensures n.IsFinite() && n.v < 0.0 ==> r == 0.0
    ensures n.IsFinite() && n.v > 1.0 ==> r == 1.0
  {
    if !n.IsFinite() then 0.0 else Max(0.0, Min(1.0, n.v))
  }

}

=== FILE: layer_host.dfy ===
/** The web adapter around the override layer
    (packages/project-neko-live2d-service/src/web/pixiLive2DAdapter.ts):
    which `update` callbacks are wrapped, who restores them, the runtime
    parameter accessors, the transform snapshot, and the order of `dispose`.
    A loaded model is identified by a token the adapter hands out, so that
    an uninstaller can tell whether the model it captured is still the
    current one. */
module LayerHost {
  import opened Wrappers
  import opened JsNumber
  import opened OverrideEngine
  import opened Live2DTypes

  /** An `update` callback: the SDK's own, or a wrapper the layer installed
      around another callback. */
  datatype Hook = Native | Layered(inner: Hook)

  /** Wrapping depth of a callback. */
  function Depth(h: Hook): nat {
    match h
    case Native => 0
    case Layered(inner) => 1 + Depth(inner)
  }

  /** The state getter handed over by the manager, identified by a token. */
  type Getter = nat

  datatype LoadedModel = LoadedModel(
    token: nat,
    core: Option<Core>,
    motionUpdate: Option<Hook>,
    coreUpdate: Option<Hook>,
    x: Num, y: Num, scaleX: Num, scaleY: Num)

  /** The closure `install` leaves behind: the model it patched and the
      callbacks it found there. */
  datatype Uninstaller = Uninstaller(token: nat, origMotion: Option<Hook>, origCore: Option<Hook>)

  datatype Adapter = Adapter(
    model: Option<LoadedModel>,
    getter: Option<Getter>,
    uninstaller: Option<Uninstaller>,
    hasApp: bool,
    hasSink: bool,
    mouth: real,
    nextToken: nat)

  /** The adapter as `createPixiLive2DAdapter` returns it. */
  function NewAdapter(): (a: Adapter)
    ensures a.model.None? && a.getter.None? && a.uninstaller.None?
    ensures Inv(a)
  {
    Adapter(None, None, None, false, false, 0.0, 0)
  }

  predicate Plain(h: Option<Hook>) { h.None? || h == Some(Native) }
  predicate WrappedOnce(h: Option<Hook>) { h.None? || h == Some(Layered(Native)) }

  function Wrap(h: Option<Hook>): (r: Option<Hook>)
    ensures r.Some? <==> h.Some?
    ensures h.Some? ==> Depth(r.value) == Depth(h.value) + 1
  {
    if h.Some? then Some(Layered(h.value)) else None
  }

  /** True when `u` was left by installing on model `m`. */
  predicate Owns(u: Uninstaller, m: LoadedModel) { u.token == m.token }

  /** Well-formedness kept by every operation: tokens are fresh, and the
      current model carries layer wrappers exactly when an uninstaller for
      it exists, in which case they wrap the callbacks it will restore, one
      level deep. */
  predicate Inv(a: Adapter) {
    && (a.model.Some? ==> a.hasApp && a.model.value.token < a.nextToken)
    && (a.uninstaller.Some? ==> a.uninstaller.value.token < a.nextToken)
    && (a.model.Some? ==>
          var m := a.model.value;
          if a.uninstaller.Some? && Owns(a.uninstaller.value, m) then
            && WrappedOnce(m.motionUpdate) && WrappedOnce(m.coreUpdate)
            && Wrap(a.uninstaller.value.origMotion) == m.motionUpdate
            && Wrap(a.uninstaller.value.origCore) == m.coreUpdate
          else Plain(m.motionUpdate) && Plain(m.coreUpdate))
  }

  /** Runs the pending uninstaller, if any: the callbacks it captured are
      put back, which matters only when its model is still the current
      one. The uninstaller itself is left for the caller to drop. */
  function RunUninstaller(a: Adapter): (r: Adapter)
    ensures r.getter == a.getter && r.uninstaller == a.uninstaller
    ensures r.model.Some? <==> a.model.Some?
  {
    if a.uninstaller.Some? && a.model.Some? && Owns(a.uninstaller.value, a.model.value) then
      var u := a.uninstaller.value;
      var m := a.model.value;
      a.(model := Some(m.(
        motionUpdate := if u.origMotion.Some? then u.origMotion else m.motionUpdate,
        coreUpdate := if u.origCore.Some? then u.origCore else m.coreUpdate)))
    else a
  }

  /** `installOverrideLayer(getter)`: any previous layer is uninstalled,
      the getter replaced, and, when a model with a core is loaded, both
      callbacks that exist are wrapped and an uninstaller recorded. */
  function Install(a: Adapter, g: Option<Getter>): (r: Adapter)
    ensures r.getter == g
    ensures r.model.Some? <==> a.model.Some?
  {
    var a1 := RunUninstaller(a).(uninstaller := None, getter := g);
    match a1.model
    case None => a1
    case Some(m) =>
      if m.core.None? then a1
      else a1.(model := Some(m.(motionUpdate := Wrap(m.motionUpdate), coreUpdate := Wrap(m.coreUpdate))),
               uninstaller := Some(Uninstaller(m.token, m.motionUpdate, m.coreUpdate)))
  }

  /** The runtime `uninstallOverrideLayer()`: restores, then always drops
      the uninstaller and the getter. */
  function Uninstall(a: Adapter): (r: Adapter)
    ensures r.getter.None? && r.uninstaller.None?
  {
    RunUninstaller(a).(uninstaller := None, getter := None)
  }

  /** The adapter's `loadModel` for a model the SDK produced: the old model
      is detached (without restoring its callbacks), the new one becomes
      current, and the layer is re-installed with the current getter. The
      default layout is not modelled: the initial transform is given. */
  function LoadModel(a: Adapter, core: Option<Core>, hasMotionUpdate: bool, hasCoreUpdate: bool,
                     x: Num, y: Num, scaleX: Num, scaleY: Num): (r: Adapter)
    ensures r.hasApp
    ensures r.model.Some? && r.model.value.core == core
    ensures r.getter == a.getter
  {
    Install(Attach(a, core, hasMotionUpdate, hasCoreUpdate, x, y, scaleX, scaleY), a.getter)
  }

  /** What `dispose` leaves and the model it hands to `destroy`. */
  datatype Disposed = Disposed(adapter: Adapter, destroyed: Option<LoadedModel>)

  /** `dispose()`: uninstall, drop the getter, detach and destroy the
      model (which `detachModel` does only while an app exists), destroy
      the app, drop the sink. */
  function Dispose(a: Adapter): (r: Disposed)
    ensures r.adapter.getter.None? && r.adapter.uninstaller.None?
    ensures !r.adapter.hasApp && !r.adapter.hasSink
    ensures a.hasApp || a.model.None? ==> r.adapter.model.None?
    ensures r.destroyed.Some? <==> a.hasApp && a.model.Some?
  {
    var u := Uninstall(a);
    if u.hasApp && u.model.Some? then
      Disposed(u.(model := None, hasApp := false, hasSink := false), u.model)
    else
      Disposed(u.(hasApp := false, hasSink := false), None)
  }

  // ---------------------------------------------------------------------
  // Lifecycle properties

  /** Installing on a model with a core wraps every existing callback
      exactly once, whatever was installed before: there is never a wrapper
      around a wrapper. */
  lemma InstallWrapsOnce(a: Adapter, g: Option<Getter>)
    requires Inv(a)
    requires a.model.Some? && a.model.value.core.Some?
    ensures var r := Install(a, g);
      && WrappedOnce(r.model.value.motionUpdate) && WrappedOnce(r.model.value.coreUpdate)
      && (r.model.value.motionUpdate.Some? <==> a.model.value.motionUpdate.Some?)
      && (r.model.value.coreUpdate.Some? <==> a.model.value.coreUpdate.Some?)
      && Inv(r)
  {
    var m := a.model.value;
    var restored := RunUninstaller(a).model.value;
    if a.uninstaller.Some? && Owns(a.uninstaller.value, m) {
      assert Plain(restored.motionUpdate) && Plain(restored.coreUpdate);
    } else {
      assert restored == m;
    }
  }

  /** Every reachable adapter state satisfies `Inv` after `Install`. */
  lemma InstallKeepsInv(a: Adapter, g: Option<Getter>)
    requires Inv(a)
    ensures Inv(Install(a, g))
  {
    if a.model.Some? && a.model.value.core.Some? {
      InstallWrapsOnce(a, g);
    } else if a.model.Some? {
      var m := a.model.value;
      var restored := RunUninstaller(a).model.value;
      if a.uninstaller.Some? && Owns(a.uninstaller.value, m) {
        assert Plain(restored.motionUpdate) && Plain(restored.coreUpdate);
      }
    }
  }

  /** Installing twice is the same as installing once. */
  lemma InstallTwiceIsOnce(a: Adapter, g: Option<Getter>)
    requires Inv(a)
    ensures Install(Install(a, g), g) == Install(a, g)
  {
    InstallKeepsInv(a, g);
    if a.model.Some? && a.model.value.core.Some? {
      var m := a.model.value;
      var restored := RunUninstaller(a).model.value;
      if a.uninstaller.Some? && Owns(a.uninstaller.value, m) {
        assert Plain(restored.motionUpdate) && Plain(restored.coreUpdate);
      } else {
        assert restored == m;
      }
    } else if a.model.Some? {
      var m := a.model.value;
      var restored := RunUninstaller(a).model.value;
      if a.uninstaller.Some? && Owns(a.uninstaller.value, m) {
        assert Plain(restored.motionUpdate) && Plain(restored.coreUpdate);
      }
    }
  }

  /** Uninstalling puts the SDK's own callbacks back and clears the
      getter. */
  lemma UninstallRestores(a: Adapter)
    requires Inv(a) && a.model.Some?
    ensures var r := Uninstall(a);
      && r.model.Some? && Plain(r.model.value.motionUpdate) && Plain(r.model.value.coreUpdate)
      && (r.model.value.motionUpdate.Some? <==> a.model.value.motionUpdate.Some?)
      && (r.model.value.coreUpdate.Some? <==> a.model.value.coreUpdate.Some?)
      && r.getter.None?
      && Inv(r)
  {
    var m := a.model.value;
    if a.uninstaller.Some? && Owns(a.uninstaller.value, m) {
      assert Plain(RunUninstaller(a).model.value.motionUpdate);
    }
  }

  /** Installing and then uninstalling gives back the model the SDK
      loaded: the layer leaves no trace on it. */
  lemma InstallThenUninstall(a: Adapter, g: Option<Getter>)
    requires Inv(a) && a.model.Some? && a.uninstaller.None?
    ensures Uninstall(Install(a, g)).model == a.model
  {
    var m := a.model.value;
    assert Plain(m.motionUpdate) && Plain(m.coreUpdate);
  }

  /** The adapter right after the SDK produced a model, before the layer
      is re-installed: the app exists, and the new model, with a token no
      earlier model or uninstaller carries, holds the SDK's core and its
      own unwrapped update functions. The getter and any uninstaller are
      kept, and that uninstaller does not own the new model. */
  function Attach(a: Adapter, core: Option<Core>, hm: bool, hc: bool, x: Num, y: Num, sx: Num, sy: Num): (r: Adapter)
    ensures r.hasApp && r.model.Some? && r.model.value.core == core
    ensures Plain(r.model.value.motionUpdate) && Plain(r.model.value.coreUpdate)
    ensures r.model.value.motionUpdate.Some? <==> hm
    ensures r.model.value.coreUpdate.Some? <==> hc
    ensures r.getter == a.getter && r.uninstaller == a.uninstaller && r.mouth == a.mouth
    ensures Inv(a) && a.uninstaller.Some? ==> !Owns(a.uninstaller.value, r.model.value)
  {
    var m := LoadedModel(a.nextToken, core,
      if hm then Some(Native) else None, if hc then Some(Native) else None, x, y, sx, sy);
    a.(hasApp := true, model := Some(m), nextToken := a.nextToken + 1)
  }

  lemma AttachKeepsInv(a: Adapter, core: Option<Core>, hm: bool, hc: bool, x: Num, y: Num, sx: Num, sy: Num)
    requires Inv(a)
    ensures Inv(Attach(a, core, hm, hc, x, y, sx, sy))
  {
    var a1 := Attach(a, core, hm, hc, x, y, sx, sy);
    assert a.uninstaller.Some? ==> !Owns(a.uninstaller.value, a1.model.value);
  }

  /** `loadModel` keeps the invariant and leaves the new model wrapped once
      when it has a core. */
  lemma LoadModelInstalls(a: Adapter, core: Option<Core>, hm: bool, hc: bool, x: Num, y: Num, sx: Num, sy: Num)
    requires Inv(a)
    ensures var r := LoadModel(a, core, hm, hc, x, y, sx, sy);
      && Inv(r)
      && (core.Some? ==> r.uninstaller.Some? && Owns(r.uninstaller.value, r.model.value)
                         && (hm ==> r.model.value.motionUpdate == Some(Layered(Native)))
                         && (hc ==> r.model.value.coreUpdate == Some(Layered(Native))))
  {
    var a1 := Attach(a, core, hm, hc, x, y, sx, sy);
    assert LoadModel(a, core, hm, hc, x, y, sx, sy) == Install(a1, a.getter);
    AttachKeepsInv(a, core, hm, hc, x, y, sx, sy);
    InstallKeepsInv(a1, a.getter);
  }

  /** `dispose` uninstalls before it detaches: the model handed to
      `destroy` carries no layer wrapper. */
  lemma DisposeUninstallsFirst(a: Adapter)
    requires Inv(a)
    ensures Dispose(a).adapter.model.None?
    ensures var d := Dispose(a);
      d.destroyed.Some? ==> Plain(d.destroyed.value.motionUpdate) && Plain(d.destroyed.value.coreUpdate)
  {
    if a.model.Some? {
      UninstallRestores(a);
    }
  }

  // ---------------------------------------------------------------------
  // Runtime accessors

  /** `getTransformSnapshot()` result. */
  datatype Snapshot = Snapshot(x: Num, y: Num, scaleX: real, scaleY: real)

  /** `Number(v) || 0`: NaN and 0 become 0; infinities survive. */
  function OrZero(n: Num): (r: Num)
    ensures !r.NaN?
    ensures n.Finite? ==> r == n
    ensures n.PosInf? || n.NegInf? ==> r == n
  {
    if n.NaN? then Finite(0.0) else n
  }

  function FiniteOr1(n: Num): (r: real)
    ensures n.IsFinite() ==> r == n.v
    ensures !n.IsFinite() ==> r == 1.0
  {
    if n.IsFinite() then n.v else 1.0
  }

  /** No model gives no snapshot; otherwise the position is never NaN and
      the scale is always finite, 1 standing in for a non-finite factor. */
  function TransformSnapshot(a: Adapter): (r: Option<Snapshot>)
    ensures r.Some? <==> a.model.Some?
    ensures r.Some? ==> !r.value.x.NaN? && !r.value.y.NaN?
    ensures r.Some? && a.model.value.scaleX.IsFinite() ==> r.value.scaleX == a.model.value.scaleX.v
    ensures r.Some? && !a.model.value.scaleX.IsFinite() ==> r.value.scaleX == 1.0
    ensures r.Some? && !a.model.value.scaleY.IsFinite() ==> r.value.scaleY == 1.0
    ensures r.Some? && a.model.value.scaleY.IsFinite() ==> r.value.scaleY == a.model.value.scaleY.v
    ensures r.Some? ==> r.value.x == (if a.model.value.x.NaN? then Finite(0.0) else a.model.value.x)
    ensures r.Some? ==> r.value.y == (if a.model.value.y.NaN? then Finite(0.0) else a.model.value.y)
  {
    match a.model
    case None => None
    case Some(m) => Some(Snapshot(OrZero(m.x), OrZero(m.y), FiniteOr1(m.scaleX), FiniteOr1(m.scaleY)))
  }

  /** The table of the loaded model, when there is one. */
  function CoreOf(a: Adapter): Option<Core> {
    if a.model.Some? then a.model.value.core else None
  }

  function WithCore(a: Adapter, c: Core): Adapter
    requires a.model.Some?
  {
    a.(model := Some(a.model.value.(core := Some(c))))
  }

  /** Runtime `setParameterValueById(id, value, weight)`: no model, no core
      or a non-finite value changes nothing; otherwise the value is written
      (a missing id is ignored). */
  function SetParameter(a: Adapter, id: string, value: Num): (r: Adapter)
    ensures CoreOf(a).None? || !value.IsFinite() ==> r == a
    ensures CoreOf(a).Some? && value.IsFinite() ==>
      CoreOf(r) == Some(Write(CoreOf(a).value, id, value.v))
  {
    if CoreOf(a).None? || !value.IsFinite() then a
    else WithCore(a, Write(CoreOf(a).value, id, value.v))
  }

  /** Runtime `getParameterValueById(id)`. */
  function GetParameter(a: Adapter, id: string): (r: Option<real>)
    ensures r.Some? <==> CoreOf(a).Some? && id in CoreOf(a).value
    ensures r.Some? ==> r.value == CoreOf(a).value[id].value
  {
    if CoreOf(a).Some? && id in CoreOf(a).value then Some(CoreOf(a).value[id].value) else None
  }

  /** Runtime `getParameterDefaultValueById(id)`. */
  function GetParameterDefault(a: Adapter, id: string): (r: Option<real>)
    ensures r.Some? ==> CoreOf(a).Some? && id in CoreOf(a).value && CoreOf(a).value[id].dflt == r
    ensures CoreOf(a).Some? && id in CoreOf(a).value ==> r == CoreOf(a).value[id].dflt
  {
    if CoreOf(a).Some? && id in CoreOf(a).value then CoreOf(a).value[id].dflt else None
  }

  /** Runtime `getParameterCount()`. */
  function GetParameterCount(a: Adapter): (r: Option<nat>)
    ensures r.Some? <==> CoreOf(a).Some?
    ensures r.Some? ==> r.value == |CoreOf(a).value.Keys|
  {
    if CoreOf(a).Some? then Some(|CoreOf(a).value.Keys|) else None
  }

  /** A finite write is read back unchanged, and leaves every other
      parameter and every default as it was. */
  lemma SetThenGet(a: Adapter, id: string, v: real, other: string)
    requires CoreOf(a).Some? && id in CoreOf(a).value && other != id
    ensures GetParameter(SetParameter(a, id, Finite(v)), id) == Some(v)
    ensures GetParameter(SetParameter(a, id, Finite(v)), other) == GetParameter(a, other)
    ensures GetParameterDefault(SetParameter(a, id, Finite(v)), id) == GetParameterDefault(a, id)
  {
  }

  /** The adapter's `setMouthValue(v)`: stores the clamped value and writes
      it to the two mouth parameters the model has. Every other parameter,
      the mouth parameters' defaults, the rest of the model and the rest of
      the adapter are left as they were. */
  function SetMouthValue(a: Adapter, v: Num): (r: Adapter)
    ensures r.mouth == Clamp01(v)
    ensures r.(mouth := a.mouth, model := a.model) == a
    ensures r.model.Some? <==> a.model.Some?
    ensures r.model.Some? ==> r.model.value.(core := a.model.value.core) == a.model.value
    ensures CoreOf(a).None? ==> CoreOf(r).None?
    ensures CoreOf(a).Some? ==> CoreOf(r).Some? && CoreOf(r).value.Keys == CoreOf(a).value.Keys
    ensures CoreOf(a).Some? ==> forall id :: id in MouthParams && id in CoreOf(a).value ==>
      CoreOf(r).value[id] == CoreOf(a).value[id].(value := Clamp01(v))
    ensures CoreOf(a).Some? ==> forall id :: id in CoreOf(a).value && id !in MouthParams ==>
      CoreOf(r).value[id] == CoreOf(a).value[id]
  {
    var a1 := a.(mouth := Clamp01(v));
    if CoreOf(a1).None? then a1
    else WithCore(a1, Write(Write(CoreOf(a1).value, "ParamMouthOpenY", Clamp01(v)), "ParamO", Clamp01(v)))
  }

  /** The adapter's `setTransform`: `None` when no model is loaded (the
      call throws). Only finite position components are written; scale
      factors are written as given, a number to both axes. */
  function SetTransform(a: Adapter, t: Transform): (r: Option<Adapter>)
    ensures r.Some? <==> a.model.Some?
    ensures r.Some? ==> r.value.model.Some? && r.value.model.value.core == a.model.value.core
  {
    match a.model
    case None => None
    case Some(m) =>
      var m1 := if t.position.Some? then
        m.(x := if t.position.value.x.IsFinite() then t.position.value.x else m.x,
           y := if t.position.value.y.IsFinite() then t.position.value.y else m.y)
      else m;
      var m2 := match t.scale
        case None => m1
        case Some(Uniform(s)) => m1.(scaleX := s, scaleY := s)
        case Some(PerAxis(v)) => m1.(scaleX := v.x, scaleY := v.y);
      Some(a.(model := Some(m2)))
  }

  /** Setting a finite position and a finite uniform scale and then taking
      the snapshot gives them back. */
  lemma TransformRoundTrip(a: Adapter, x: real, y: real, s: real)
    requires a.model.Some?
    ensures var r := SetTransform(a, Transform(Some(Vec2(Finite(x), Finite(y))), Some(Uniform(Finite(s)))));
      r.Some? && TransformSnapshot(r.value) == Some(Snapshot(Finite(x), Finite(y), s, s))
  {
  }

  /** A non-finite position component leaves that coordinate as it was. */
  lemma NonFinitePositionIgnored(a: Adapter, x: Num, y: Num)
    requires a.model.Some? && !x.IsFinite()
    ensures var r := SetTransform(a, Transform(Some(Vec2(x, y)), None));
      r.Some? && r.value.model.value.x == a.model.value.x
  {
  }
}

=== FILE: manager.dfy ===
/** The manager façade (packages/project-neko-live2d-service/src/manager.ts)
    over the service: it remembers the current model URI, the override
    settings the layer getter reads, and drives load / transform / layer /
    parameters in that order. The host's optional pieces (preferences
    repository, emotion-mapping provider, runtime parameter API) are
    flags in `Env`; their replies, and the index `Math.random` would pick,
    are parameters. Effects on the runtime and the repository are listed in
    `effects`; calls into the adapter are the service's `calls`. */
module Manager {
  import opened Wrappers
  import opened JsNumber
  import opened Live2DTypes
  import opened OverrideEngine
  import S = Service
  import LayerHost

  datatype Env = Env(hasRepository: bool, hasMappingProvider: bool, hasInstallLayer: bool, hasSetParameter: bool)

  /** `Live2DPreferencesSnapshot`. */
  datatype Prefs = Prefs(
    modelUri: string, position: Option<Vec2>, scale: Option<Vec2>, parameters: Option<map<string, Num>>)

  /** The stored `Live2DInteractionOptions`. Every key is optional, so a
      stored value may be `undefined` (`None`), which the host reads as
      falsy. */
  datatype Interaction = Interaction(
    drag: Option<bool>, wheelZoom: Option<bool>, pinchZoom: Option<bool>, tap: Option<bool>)

  /** One key of the object passed to `setInteractionOptions`: missing,
      present with the value `undefined`, or present with a boolean. */
  datatype PatchField = Absent | Undefined | Given(value: bool)

  datatype InteractionPatch = InteractionPatch(
    drag: PatchField, wheelZoom: PatchField, pinchZoom: PatchField, tap: PatchField)

  /** The object spread for one key: a key present in the patch is copied,
      even when its value is `undefined`; a missing key keeps the old
      value. */
  function SpreadField(cur: Option<bool>, f: PatchField): (r: Option<bool>)
    ensures f.Absent? ==> r == cur
    ensures f.Undefined? ==> r.None?
    ensures f.Given? ==> r == Some(f.value)
  {
    match f
    case Absent => cur
    case Undefined => None
    case Given(b) => Some(b)
  }

  datatype Effect =
    | InstallLayer
    | WriteParams(writes: map<string, real>)
    | SavePrefs(prefs: Prefs)

  datatype Mgr = Mgr(
    svc: S.Svc,
    uri: Option<string>,
    mouth: real,
    mode: Mode,
    saved: Option<map<string, Num>>,
    persistent: Option<map<string, Num>>,
    locked: bool,
    interaction: Interaction,
    effects: seq<Effect>)

  datatype Step = Step(mgr: Mgr, outcome: S.Outcome)

  /** `createLive2DManager`: mode `additive`, mouth 0, no saved or
      persistent parameters, unlocked, every interaction enabled. */
  function Create(caps: S.Caps): (m: Mgr)
    ensures m.mode == Additive && m.mouth == 0.0 && m.uri.None?
    ensures m.saved.None? && m.persistent.None? && !m.locked
    ensures m.svc == S.Create(caps) && m.effects == []
    ensures m.interaction == Interaction(Some(true), Some(true), Some(true), Some(true))
  {
    Mgr(S.Create(caps), None, 0.0, Additive, None, None, false,
        Interaction(Some(true), Some(true), Some(true), Some(true)), [])
  }

  /** What the getter installed by `ensureOverrideLayer` returns when the
      layer asks: always the manager's current settings. */
  function LayerView(m: Mgr): LayerState {
    LayerState(Finite(m.mouth), m.mode, m.saved, m.persistent)
  }

  /** `ensureOverrideLayer()`: (re)installs the getter when the runtime
      offers `installOverrideLayer`. */
  function EnsureLayer(m: Mgr, env: Env): (r: Mgr)
    ensures r.effects == m.effects + (if env.hasInstallLayer then [InstallLayer] else [])
    ensures r.(effects := m.effects) == m
  {
    if env.hasInstallLayer then m.(effects := m.effects + [InstallLayer]) else m
  }

  // ---------------------------------------------------------------------
  // Preferences

  /** How the repository's `load` settles. */
  datatype LoadReply = Loaded(prefs: Option<Prefs>) | LoadThrows

  /** `loadPreferences(uri)`: null without a repository or when `load`
      throws. */
  function LoadPreferences(env: Env, reply: LoadReply): (r: Option<Prefs>)
    ensures !env.hasRepository ==> r.None?
    ensures reply.LoadThrows? ==> r.None?
    ensures env.hasRepository && reply.Loaded? ==> r == reply.prefs
  {
    if !env.hasRepository then None
    else match reply
      case Loaded(p) => p
      case LoadThrows => None
  }

  /** The payload `savePreferences` hands to the repository: the
      snapshot's position and scale, or none of them when there is no
      snapshot. */
  function SavePayload(uri: string, snap: Option<LayerHost.Snapshot>): Prefs {
    match snap
    case None => Prefs(uri, None, None, None)
    case Some(s) => Prefs(uri, Some(Vec2(s.x, s.y)), Some(Vec2(Finite(s.scaleX), Finite(s.scaleY))), None)
  }

  /** `savePreferences()`: nothing without a repository or without a
      current URI (the empty URI counts as none); otherwise the payload is
      saved, and a rejecting `save` is not caught, so its failure leaves
      `savePreferences` too. */
  function SavePreferences(m: Mgr, env: Env, snap: Option<LayerHost.Snapshot>, reply: S.Reply): (r: Step)
    ensures !env.hasRepository || m.uri.None? || m.uri == Some("") ==> r == Step(m, S.Done)
    ensures env.hasRepository && m.uri.Some? && m.uri.value != "" ==>
      && |r.mgr.effects| == |m.effects| + 1 && r.mgr.effects[..|m.effects|] == m.effects
      && r.mgr.(effects := m.effects) == m
      && r.mgr.effects[|m.effects|].SavePrefs?
      && (reply.Resolves? ==> r.outcome == S.Done)
      && (reply.Rejects? ==> r.outcome == S.Rethrew(reply.cause))
      && (var p := r.mgr.effects[|m.effects|].prefs;
          && p.modelUri == m.uri.value && p.parameters.None?
          && (snap.None? ==> p.position.None? && p.scale.None?)
          && (snap.Some? ==>
                (p.position == Some(Vec2(snap.value.x, snap.value.y))
                 && p.scale == Some(Vec2(Finite(snap.value.scaleX), Finite(snap.value.scaleY))))))
  {
    if !env.hasRepository || m.uri.None? || m.uri.value == "" then Step(m, S.Done)
    else
      var m1 := m.(effects := m.effects + [SavePrefs(SavePayload(m.uri.value, snap))]);
      match reply
      case Resolves => Step(m1, S.Done)
      case Rejects(c) => Step(m1, S.Rethrew(c))
  }

  /** The entries `applyModelParameters` writes: the finite ones. */
  function FiniteEntries(params: map<string, Num>): (w: map<string, real>)
    ensures forall id :: id in w <==> id in params && params[id].IsFinite()
    ensures forall id :: id in w ==> Finite(w[id]) == params[id]
  {
    map id | id in params && params[id].IsFinite() :: params[id].v
  }

  /** `applyModelParameters(params)`: throws without a runtime parameter
      setter; otherwise writes every finite entry (with weight 1) and
      skips the rest. */
  function ApplyModelParameters(m: Mgr, env: Env, params: map<string, Num>): (r: Step)
    ensures !env.hasSetParameter ==> r == Step(m, S.ThrewError)
    ensures env.hasSetParameter ==>
      r.outcome == S.Done && r.mgr == m.(effects := m.effects + [WriteParams(FiniteEntries(params))])
  {
    if !env.hasSetParameter then Step(m, S.ThrewError)
    else Step(m.(effects := m.effects + [WriteParams(FiniteEntries(params))]), S.Done)
  }

  // ---------------------------------------------------------------------
  // Model loading

  /** `prefs.position || prefs.scale`. */
  predicate HasTransform(p: Option<Prefs>) {
    p.Some? && (p.value.position.Some? || p.value.scale.Some?)
  }

  function PrefTransform(p: Prefs): Transform {
    Transform(p.position, if p.scale.Some? then Some(PerAxis(p.scale.value)) else None)
  }

  /** The part of `loadModel` after the service load succeeded: the
      stored transform (if any), then the layer, then the stored
      parameters. A failing transform is rethrown and stops the rest. Only
      the service and the recorded effects change; the call can fail only
      through the transform, and then neither the layer nor a parameter
      write happens; otherwise the layer is installed when the runtime
      offers it, and the parameters are written when there are some and a
      setter exists, a missing setter being swallowed. */
  function AfterLoad(m: Mgr, env: Env, pref: Option<Prefs>, transformReply: S.Reply): (r: Step)
    ensures r.mgr.(svc := m.svc, effects := m.effects) == m
    ensures !HasTransform(pref) ==> r.outcome == S.Done && r.mgr.svc == m.svc
    ensures r.outcome != S.Done ==> HasTransform(pref) && r.mgr.effects == m.effects
    ensures r.outcome == S.Done ==>
      r.mgr.effects == m.effects + (if env.hasInstallLayer then [InstallLayer] else [])
        + (if pref.Some? && pref.value.parameters.Some? && env.hasSetParameter
           then [WriteParams(FiniteEntries(pref.value.parameters.value))] else [])
  {
    var t := if HasTransform(pref) then S.SetTransform(m.svc, Some(PrefTransform(pref.value)), transformReply)
             else S.Step(m.svc, S.Done);
    if t.outcome != S.Done then Step(m.(svc := t.svc), t.outcome)
    else
      var m1 := EnsureLayer(m.(svc := t.svc), env);
      if pref.Some? && pref.value.parameters.Some? then
        var a := ApplyModelParameters(m1, env, pref.value.parameters.value);
        Step(a.mgr, S.Done)
      else Step(m1, S.Done)
  }

  /** `loadModel(uri, opts)`. The URI is remembered first. Explicit
      preferences win over the repository's. The service load comes first;
      its failure is rethrown before any transform, layer or parameter
      write. */
  function LoadModel(m: Mgr, env: Env, uri: string, explicit: Option<Prefs>, repoReply: LoadReply,
                     loadReply: S.Reply, transformReply: S.Reply): (r: Step)
    ensures r.mgr.uri == Some(uri)
  {
    var pref := if explicit.Some? then explicit else LoadPreferences(env, repoReply);
    var m0 := m.(uri := Some(uri));
    var l := S.LoadModel(m0.svc, Valid(ModelRef(uri)), loadReply);
    if l.outcome != S.Done then Step(m0.(svc := l.svc), l.outcome)
    else AfterLoad(m0.(svc := l.svc), env, pref, transformReply)
  }

  /** The preferences `loadModel` goes by. */
  function EffectivePrefs(env: Env, explicit: Option<Prefs>, repoReply: LoadReply): Option<Prefs> {
    if explicit.Some? then explicit else LoadPreferences(env, repoReply)
  }

  /** Explicit preferences take precedence; without them the repository's
      answer is used, and no repository or a throwing `load` means none. */
  lemma PreferencePrecedence(env: Env, explicit: Option<Prefs>, repoReply: LoadReply)
    ensures explicit.Some? ==> EffectivePrefs(env, explicit, repoReply) == explicit
    ensures explicit.None? && (!env.hasRepository || repoReply.LoadThrows?) ==>
      EffectivePrefs(env, explicit, repoReply).None?
    ensures explicit.None? && env.hasRepository && repoReply.Loaded? ==>
      EffectivePrefs(env, explicit, repoReply) == repoReply.prefs
  {
  }

  /** A failed service load is rethrown, and neither a transform, nor the
      layer, nor any parameter reaches the runtime. */
  lemma LoadFailureStopsEverything(m: Mgr, env: Env, uri: string, explicit: Option<Prefs>, repoReply: LoadReply,
                                   c: Cause, transformReply: S.Reply)
    ensures var r := LoadModel(m, env, uri, explicit, repoReply, S.Rejects(c), transformReply);
      && r.outcome == S.Rethrew(c)
      && r.mgr.svc.calls == m.svc.calls + [S.CallLoad(ModelRef(uri))]
      && r.mgr.effects == m.effects
  {
  }

  /** A successful load with a stored transform: the adapter sees the load
      and then the transform, and only after that is the layer installed
      and are the stored parameters written. */
  lemma LoadOrder(m: Mgr, env: Env, uri: string, explicit: Option<Prefs>, repoReply: LoadReply)
    requires env.hasInstallLayer && env.hasSetParameter
    requires m.svc.caps.setTransform
    requires var p := EffectivePrefs(env, explicit, repoReply);
      HasTransform(p) && p.value.parameters.Some?
    ensures var p := EffectivePrefs(env, explicit, repoReply).value;
      var r := LoadModel(m, env, uri, explicit, repoReply, S.Resolves, S.Resolves);
      && r.outcome == S.Done
      && r.mgr.svc.calls == m.svc.calls + [S.CallLoad(ModelRef(uri)), S.CallSetTransform(PrefTransform(p))]
      && r.mgr.effects == m.effects + [InstallLayer, WriteParams(FiniteEntries(p.parameters.value))]
  {
    var l := S.LoadModel(m.svc, Valid(ModelRef(uri)), S.Resolves);
    assert l.svc.caps == m.svc.caps;
  }

  /** The layer waits for the transform: when the stored transform is
      rejected, the failure is rethrown after the load and the transform
      call, and neither the layer nor any parameter reaches the runtime. */
  lemma TransformFailureStopsLayer(m: Mgr, env: Env, uri: string, explicit: Option<Prefs>, repoReply: LoadReply, c: Cause)
    requires m.svc.caps.setTransform
    requires HasTransform(EffectivePrefs(env, explicit, repoReply))
    ensures var p := EffectivePrefs(env, explicit, repoReply).value;
      var r := LoadModel(m, env, uri, explicit, repoReply, S.Resolves, S.Rejects(c));
      && r.outcome == S.Rethrew(c)
      && r.mgr.svc.calls == m.svc.calls + [S.CallLoad(ModelRef(uri)), S.CallSetTransform(PrefTransform(p))]
      && r.mgr.effects == m.effects
  {
    var l := S.LoadModel(m.svc, Valid(ModelRef(uri)), S.Resolves);
    assert l.svc.caps == m.svc.caps;
  }

  /** Without a stored transform, `setTransform` is never called. */
  lemma NoTransformWithoutPrefs(m: Mgr, env: Env, uri: string, explicit: Option<Prefs>, repoReply: LoadReply,
                                transformReply: S.Reply)
    requires !HasTransform(EffectivePrefs(env, explicit, repoReply))
    ensures var r := LoadModel(m, env, uri, explicit, repoReply, S.Resolves, transformReply);
      r.mgr.svc.calls == m.svc.calls + [S.CallLoad(ModelRef(uri))]
  {
  }

  /** A failing parameter write during `loadModel` is swallowed. */
  lemma MissingSetterSwallowed(m: Mgr, env: Env, uri: string, p: Prefs, repoReply: LoadReply)
    requires !env.hasSetParameter && !HasTransform(Some(p)) && p.parameters.Some?
    ensures LoadModel(m, env, uri, Some(p), repoReply, S.Resolves, S.Resolves).outcome == S.Done
  {
  }

  // ---------------------------------------------------------------------
  // Emotions

  /** `randomPick(arr)` with the random index given: nothing for an empty
      list, otherwise the element at the index taken modulo the length. */
  function RandomPick(arr: seq<string>, idx: nat): (r: Option<string>)
    ensures r.None? <==> |arr| == 0
    ensures r.Some? ==> r.value in arr
  {
    if |arr| == 0 then None else Some(arr[idx % |arr|])
  }

  /** Every element can be picked by some index. */
  lemma RandomPickCoversAll(arr: seq<string>, k: nat)
    requires k < |arr|
    ensures RandomPick(arr, k) == Some(arr[k])
  {
  }

  /** `EmotionMapping`: each table maps an emotion to candidate names. */
  datatype EmotionMapping = EmotionMapping(
    motions: Option<map<string, seq<string>>>, expressions: Option<map<string, seq<string>>>)

  datatype MappingReply = MappingIs(mapping: Option<EmotionMapping>) | MappingThrows(cause: Cause)

  /** `mapping?.<table>?.[emotion] ?? []`. */
  function Candidates(table: Option<map<string, seq<string>>>, emotion: string): seq<string> {
    if table.Some? && emotion in table.value then table.value[emotion] else []
  }

  /** `setEmotion(emotion)`. Nothing without a current URI. Without a
      mapping provider: the expression named `emotion`, then the motion
      group named `emotion`. With one: a picked expression, if any and
      non-empty, then a picked motion group, or `emotion` when none was
      picked or the pick is empty. A throwing expression call stops before
      the motion call. */
  function SetEmotion(m: Mgr, env: Env, emotion: string, mapping: MappingReply,
                      expIdx: nat, motionIdx: nat, expReply: S.Reply, motionReply: S.Reply): (r: Step)
    ensures r.mgr.(svc := m.svc) == m
  {
    if m.uri.None? || m.uri.value == "" then Step(m, S.Done)
    else if !env.hasMappingProvider then
      var e := S.SetExpression(m.svc, Valid(ExpressionRef(emotion)), expReply);
      if e.outcome != S.Done then Step(m.(svc := e.svc), e.outcome)
      else
        var p := S.PlayMotion(e.svc, Valid(MotionRef(emotion)), motionReply);
        Step(m.(svc := p.svc), p.outcome)
    else match mapping
      case MappingThrows(c) => Step(m, S.Rethrew(c))
      case MappingIs(mp) =>
        var exps := if mp.Some? then Candidates(mp.value.expressions, emotion) else [];
        var mots := if mp.Some? then Candidates(mp.value.motions, emotion) else [];
        var exp := RandomPick(exps, expIdx);
        var e := if exp.Some? && exp.value != "" then S.SetExpression(m.svc, Valid(ExpressionRef(exp.value)), expReply)
                 else S.Step(m.svc, S.Done);
        if e.outcome != S.Done then Step(m.(svc := e.svc), e.outcome)
        else
          var mot := RandomPick(mots, motionIdx);
          var group := if mot.Some? && mot.value != "" then mot.value else emotion;
          var p := S.PlayMotion(e.svc, Valid(MotionRef(group)), motionReply);
          Step(m.(svc := p.svc), p.outcome)
  }

  /** The adapter calls `setEmotion` added. */
  function EmotionCalls(m: Mgr, r: Step): seq<S.AdapterCall>
    requires |m.svc.calls| <= |r.mgr.svc.calls|
  {
    r.mgr.svc.calls[|m.svc.calls|..]
  }

  /** Without a current URI `setEmotion` does nothing at all. */
  lemma EmotionNeedsModel(m: Mgr, env: Env, emotion: string, mapping: MappingReply,
                          ei: nat, mi: nat, r1: S.Reply, r2: S.Reply)
    requires m.uri.None? || m.uri == Some("")
    ensures SetEmotion(m, env, emotion, mapping, ei, mi, r1, r2) == Step(m, S.Done)
  {
  }

  /** Without a provider, with both capabilities: the expression and then
      the motion group named after the emotion. */
  lemma EmotionWithoutProvider(m: Mgr, env: Env, emotion: string, mapping: MappingReply, ei: nat, mi: nat, r2: S.Reply)
    requires m.uri.Some? && m.uri.value != "" && !env.hasMappingProvider
    requires m.svc.caps.setExpression && m.svc.caps.playMotion
    ensures var r := SetEmotion(m, env, emotion, mapping, ei, mi, S.Resolves, r2);
      r.mgr.svc.calls == m.svc.calls + [S.CallSetExpression(ExpressionRef(emotion)), S.CallPlayMotion(MotionRef(emotion))]
  {
  }

  /** With a mapping: the expression set, if any, is a non-empty member of
      the mapped expressions; the motion group played is a member of the
      mapped motions, or the emotion itself; and it is the emotion itself
      whenever the mapped motion list is empty. Exactly: the group is the
      picked entry `mots[mi % |mots|]` when that is non-empty, and the
      emotion otherwise. */
  lemma EmotionWithMapping(m: Mgr, env: Env, emotion: string, mp: Option<EmotionMapping>,
                           ei: nat, mi: nat, r2: S.Reply)
    requires m.uri.Some? && m.uri.value != "" && env.hasMappingProvider
    requires m.svc.caps.setExpression && m.svc.caps.playMotion
    ensures var r := SetEmotion(m, env, emotion, MappingIs(mp), ei, mi, S.Resolves, r2);
      var exps := if mp.Some? then Candidates(mp.value.expressions, emotion) else [];
      var mots := if mp.Some? then Candidates(mp.value.motions, emotion) else [];
      var added := r.mgr.svc.calls[|m.svc.calls|..];
      && |m.svc.calls| < |r.mgr.svc.calls|
      && (|added| == 1 || |added| == 2)
      && (|added| == 2 <==> exists k :: 0 <= k < |exps| && exps[k] != "" && exps[k] == exps[ei % |exps|])
      && (|added| == 2 ==> added[0].CallSetExpression? && added[0].expression.id in exps
                            && added[0].expression.id != "")
      && (|exps| == 0 ==> |added| == 1)
      && added[|added| - 1].CallPlayMotion?
      && (added[|added| - 1].motion.group in mots || added[|added| - 1].motion.group == emotion)
      && (|mots| == 0 ==> added[|added| - 1].motion.group == emotion)
      && added[|added| - 1].motion.group
         == (if |mots| > 0 && mots[mi % |mots|] != "" then mots[mi % |mots|] else emotion)
  {
    var exps := if mp.Some? then Candidates(mp.value.expressions, emotion) else [];
    if |exps| > 0 && exps[ei % |exps|] != "" {
      var k := ei % |exps|;
      assert 0 <= k < |exps| && exps[k] != "" && exps[k] == exps[ei % |exps|];
    }
  }

  /** A throwing expression call blocks the motion call. */
  lemma ExpressionFailureBlocksMotion(m: Mgr, env: Env, emotion: string, mapping: MappingReply,
                                      ei: nat, mi: nat, c: Cause, r2: S.Reply)
    requires m.uri.Some? && m.uri.value != "" && !env.hasMappingProvider
    requires m.svc.caps.setExpression
    ensures var r := SetEmotion(m, env, emotion, mapping, ei, mi, S.Rejects(c), r2);
      r.outcome == S.Rethrew(c) && r.mgr.svc.calls == m.svc.calls + [S.CallSetExpression(ExpressionRef(emotion))]
  {
  }

  // ---------------------------------------------------------------------
  // Mouth, setters, lifecycle

  /** `setMouth(v)`: the clamped value (0 for non-finite input) is stored
      before the service is told; a service that cannot take it throws,
      and then the layer is not re-installed. */
  function SetMouth(m: Mgr, env: Env, v: Num): (r: Step)
    ensures r.mgr.mouth == Clamp01(v)
    ensures !v.IsFinite() ==> r.mgr.mouth == 0.0
    ensures m.svc.caps.setMouthValue ==>
      && r.outcome == S.Done
      && r.mgr.svc.calls == m.svc.calls + [S.CallSetMouth(Clamp01(v))]
      && r.mgr.effects == m.effects + (if env.hasInstallLayer then [InstallLayer] else [])
    ensures !m.svc.caps.setMouthValue ==> r.outcome == S.ThrewError && r.mgr.effects == m.effects
  {
    var m1 := m.(mouth := Clamp01(v));
    var s := S.SetMouthValue(m1.svc, Finite(m1.mouth));
    if s.outcome != S.Done then Step(m1.(svc := s.svc), s.outcome)
    else Step(EnsureLayer(m1.(svc := s.svc), env), S.Done)
  }

  /** `setSavedModelParameters(params)`: stores a copy (or null) and
      re-installs the layer; no parameter is written. */
  function SetSavedParameters(m: Mgr, env: Env, params: Option<map<string, Num>>): (r: Mgr)
    ensures r.saved == params
    ensures r.(saved := m.saved, effects := m.effects) == m
    ensures r.effects == m.effects + (if env.hasInstallLayer then [InstallLayer] else [])
  {
    EnsureLayer(m.(saved := params), env)
  }

  /** `setPersistentParameters(params)`: as above for the persistent
      table. */
  function SetPersistentParameters(m: Mgr, env: Env, params: Option<map<string, Num>>): (r: Mgr)
    ensures r.persistent == params
    ensures r.(persistent := m.persistent, effects := m.effects) == m
    ensures r.effects == m.effects + (if env.hasInstallLayer then [InstallLayer] else [])
  {
    EnsureLayer(m.(persistent := params), env)
  }

  /** `setParameterOverrideMode(mode)`. */
  function SetOverrideMode(m: Mgr, env: Env, mode: Mode): (r: Mgr)
    ensures r.mode == mode
    ensures r.(mode := m.mode, effects := m.effects) == m
    ensures r.effects == m.effects + (if env.hasInstallLayer then [InstallLayer] else [])
  {
    EnsureLayer(m.(mode := mode), env)
  }

  /** The layer reads what the setters stored, so the next frame applies
      it: a persistent value wins in every mode, and after switching to
      `off` the saved parameters no longer reach the core. */
  lemma SettersReachLayer(m: Mgr, env: Env, saved: Option<map<string, Num>>,
                          persistent: Option<map<string, Num>>, mode: Mode, core: Core, id: string)
    ensures var r := SetOverrideMode(SetPersistentParameters(SetSavedParameters(m, env, saved), env, persistent), env, mode);
      && LayerView(r) == LayerState(Finite(m.mouth), mode, saved, persistent)
      && (id in core && PersistentApplies(id, LayerView(r)) ==>
            ApplyLayerOnce(core, Some(LayerView(r)))[id].value == persistent.value[id].v)
      && (mode == Off ==>
            ApplyLayerOnce(core, Some(LayerView(r))) == PersistentStep(MouthStep(core, Clamp01(Finite(m.mouth))), LayerView(r)))
  {
    var r := SetOverrideMode(SetPersistentParameters(SetSavedParameters(m, env, saved), env, persistent), env, mode);
    if id in core && PersistentApplies(id, LayerView(r)) {
      PersistentAlwaysWins(core, LayerView(r), id);
    }
    if mode == Off {
      OffModeIgnoresSaved(core, LayerView(r));
    }
  }

  function SetLocked(m: Mgr, locked: bool): (r: Mgr)
    ensures r.locked == locked && r.(locked := m.locked) == m
  {
    m.(locked := locked)
  }

  /** `setInteractionOptions(next)`: `{ ...interaction, ...(next || {}) }`.
      A null or undefined `next` (`None`) changes nothing; otherwise every
      key present in `next` is copied, `undefined` included, and every
      missing key keeps its value. Nothing but the options changes. */
  function SetInteractionOptions(m: Mgr, next: Option<InteractionPatch>): (r: Mgr)
    ensures r.(interaction := m.interaction) == m
    ensures next.None? ==> r == m
    ensures next.Some? ==>
      var p := next.value;
      var i := m.interaction;
      && (p.drag.Absent? ==> r.interaction.drag == i.drag)
      && (p.drag.Undefined? ==> r.interaction.drag.None?)
      && (p.drag.Given? ==> r.interaction.drag == Some(p.drag.value))
      && (p.wheelZoom.Absent? ==> r.interaction.wheelZoom == i.wheelZoom)
      && (p.wheelZoom.Undefined? ==> r.interaction.wheelZoom.None?)
      && (p.wheelZoom.Given? ==> r.interaction.wheelZoom == Some(p.wheelZoom.value))
      && (p.pinchZoom.Absent? ==> r.interaction.pinchZoom == i.pinchZoom)
      && (p.pinchZoom.Undefined? ==> r.interaction.pinchZoom.None?)
      && (p.pinchZoom.Given? ==> r.interaction.pinchZoom == Some(p.pinchZoom.value))
      && (p.tap.Absent? ==> r.interaction.tap == i.tap)
      && (p.tap.Undefined? ==> r.interaction.tap.None?)
      && (p.tap.Given? ==> r.interaction.tap == Some(p.tap.value))
  {
    match next
    case None => m
    case Some(p) =>
      var i := m.interaction;
      m.(interaction := Interaction(
        SpreadField(i.drag, p.drag), SpreadField(i.wheelZoom, p.wheelZoom),
        SpreadField(i.pinchZoom, p.pinchZoom), SpreadField(i.tap, p.tap)))
  }

  /** Applying the same options twice is applying them once, and a patch
      with every key missing changes nothing. */
  lemma InteractionPatchIdempotent(m: Mgr, next: Option<InteractionPatch>)
    ensures SetInteractionOptions(SetInteractionOptions(m, next), next) == SetInteractionOptions(m, next)
    ensures SetInteractionOptions(m, Some(InteractionPatch(Absent, Absent, Absent, Absent))) == m
  {
  }

  /** `setInteractionOptions({ drag: undefined })` leaves dragging
      undefined, hence falsy for the host, although `drag` defaults to
      true; the other keys keep their values. */
  lemma UndefinedKeyClears(caps: S.Caps)
    ensures var r := SetInteractionOptions(Create(caps), Some(InteractionPatch(Undefined, Absent, Absent, Absent)));
      r.interaction == Interaction(None, Some(true), Some(true), Some(true))
  {
  }

  /** `snapToScreen()` is a placeholder that always answers false. */
  function SnapToScreen(m: Mgr): (r: bool)
    ensures !r
  {
    false
  }

  /** `resetModelPosition()`: position (0, 0) and scale (1, 1). */
  function ResetModelPosition(m: Mgr, reply: S.Reply): (r: Step)
    ensures m.svc.caps.setTransform ==>
      (r.mgr.svc.calls == m.svc.calls +
        [S.CallSetTransform(Transform(Some(Vec2(Finite(0.0), Finite(0.0))), Some(PerAxis(Vec2(Finite(1.0), Finite(1.0))))))])
  {
    var t := S.SetTransform(m.svc, Some(Transform(Some(Vec2(Finite(0.0), Finite(0.0))), Some(PerAxis(Vec2(Finite(1.0), Finite(1.0)))))), reply);
    Step(m.(svc := t.svc), t.outcome)
  }

  /** `unloadModel()` delegates to the service; the URI is kept. */
  function UnloadModel(m: Mgr, reply: S.Reply): (r: Step)
    ensures r.mgr.uri == m.uri && r.mgr.svc.state == S.IdleState
  {
    var u := S.UnloadModel(m.svc, reply);
    Step(m.(svc := u.svc), u.outcome)
  }

  /** `dispose()`: the service is disposed, then the URI forgotten, so
      `savePreferences` and `setEmotion` do nothing afterwards. */
  function Dispose(m: Mgr, r1: S.Reply, r2: S.Reply): (r: Mgr)
    ensures r.uri.None? && r.svc.state == S.IdleState
  {
    m.(svc := S.Dispose(m.svc, r1, r2).svc, uri := None)
  }

  lemma NothingAfterDispose(m: Mgr, env: Env, r1: S.Reply, r2: S.Reply, snap: Option<LayerHost.Snapshot>, saveReply: S.Reply,
                            emotion: string, mapping: MappingReply, ei: nat, mi: nat, e1: S.Reply, e2: S.Reply)
    ensures var d := Dispose(m, r1, r2);
      && SavePreferences(d, env, snap, saveReply) == Step(d, S.Done)
      && SetEmotion(d, env, emotion, mapping, ei, mi, e1, e2) == Step(d, S.Done)
  {
  }
}

=== FILE: override_engine.dfy ===
/** The parameter override layer of the web adapter
    (packages/project-neko-live2d-service/src/web/pixiLive2DAdapter.ts,
    `installOverrideLayer`). The Cubism core model is a table from parameter
    id to its current value and its default; the id-based and index-based
    SDK calls are collapsed into reads and writes of that table, and a write
    to an id the model does not have is a no-op. Each hook is a function
    from the table it finds to the table it leaves. */
module OverrideEngine {
  import opened Wrappers
  import opened JsNumber

  /** One model parameter: its current value and the default the SDK
      reports for it (`None` when it reports none). */
  datatype Param = Param(value: real, dflt: Option<real>)

  type Core = map<string, Param>

  datatype Mode = Off | Override | Additive

  /** What the state getter installed by the manager returns each time. */
  datatype LayerState = LayerState(
    mouthValue: Num,
    mode: Mode,
    saved: Option<map<string, Num>>,
    persistent: Option<map<string, Num>>)

  /** `LIP_SYNC_PARAMS`: the ids excluded from the saved and persistent
      steps. */
  const LipSyncParams: seq<string> :=
    ["ParamMouthOpenY", "ParamMouthForm", "ParamMouthOpen", "ParamA", "ParamI", "ParamU", "ParamE", "ParamO"]

  /** `VISIBILITY_PARAMS`: excluded from the saved step only. */
  const VisibilityParams: seq<string> := ["ParamOpacity", "ParamVisibility"]

  /** The only ids the mouth step writes. */
  const MouthParams: seq<string> := ["ParamMouthOpenY", "ParamO"]

  /** The motion-detection threshold of the additive motion step. */
  const MotionEpsilon: real := 0.001

  /** `Number(def || 0)`: a missing default counts as 0. */
  function DefaultOr0(p: Param): real {
    p.dflt.GetOr(0.0)
  }

  function Abs(x: real): real { if x < 0.0 then -x else x }

  /** True when the saved step writes `id`: the mode is `override` or
      `additive`, `id` is a non-empty saved id that is neither a lip-sync
      nor a visibility id nor a key of the persistent parameters, and its
      saved value is finite. */
  predicate SavedApplies(id: string, st: LayerState) {
    && st.mode != Off
    && st.saved.Some? && id in st.saved.value
    && id != ""
    && id !in LipSyncParams
    && id !in VisibilityParams
    && !(st.persistent.Some? && id in st.persistent.value)
    && st.saved.value[id].IsFinite()
  }

  /** True when the persistent step writes `id`: a non-empty, non-lip-sync
      persistent id with a finite value. Visibility ids are not excluded. */
  predicate PersistentApplies(id: string, st: LayerState) {
    && st.persistent.Some? && id in st.persistent.value
    && id != ""
    && id !in LipSyncParams
    && st.persistent.value[id].IsFinite()
  }

  function SavedOf(id: string, st: LayerState): real
    requires SavedApplies(id, st)
  {
    st.saved.value[id].v
  }

  function PersistentOf(id: string, st: LayerState): real
    requires PersistentApplies(id, st)
  {
    st.persistent.value[id].v
  }

  /** Writes `v` to `id` when the model has that parameter. */
  function Write(core: Core, id: string, v: real): (r: Core)
    ensures r.Keys == core.Keys
    ensures id in core ==> r[id] == core[id].(value := v)
    ensures forall k :: k in core && k != id ==> r[k] == core[k]
  {
    if id in core then core[id := core[id].(value := v)] else core
  }

  /** Step 1 of `applyLayerOnce`: the saved parameters. In override mode an
      eligible id is set to its saved value; in additive mode the offset
      `saved - default` is added to the value current at the call. */
  function SavedStep(core: Core, st: LayerState): (r: Core)
    ensures r.Keys == core.Keys
    ensures forall id :: id in core ==> r[id].dflt == core[id].dflt
    ensures forall id :: id in core && !SavedApplies(id, st) ==> r[id] == core[id]
    ensures forall id :: id in core && SavedApplies(id, st) && st.mode == Override ==>
      r[id].value == SavedOf(id, st)
    ensures forall id :: id in core && SavedApplies(id, st) && st.mode == Additive ==>
      r[id].value == core[id].value + (SavedOf(id, st) - DefaultOr0(core[id]))
  {
    map id | id in core ::
      if SavedApplies(id, st) then
        var u := SavedOf(id, st);
        core[id].(value := if st.mode == Override then u else core[id].value + (u - DefaultOr0(core[id])))
      else core[id]
  }

  /** Step 2: the clamped mouth scalar goes to `ParamMouthOpenY` and
      `ParamO`, whatever the mode. */
  function MouthStep(core: Core, mouth: real): (r: Core)
    ensures r.Keys == core.Keys
    ensures forall id :: id in core ==> r[id].dflt == core[id].dflt
    ensures forall id :: id in core && id in MouthParams ==> r[id].value == mouth
    ensures forall id :: id in core && id !in MouthParams ==> r[id] == core[id]
  {
    map id | id in core :: if id in MouthParams then core[id].(value := mouth) else core[id]
  }

  /** Step 3: every eligible persistent value is written. */
  function PersistentStep(core: Core, st: LayerState): (r: Core)
    ensures r.Keys == core.Keys
    ensures forall id :: id in core ==> r[id].dflt == core[id].dflt
    ensures forall id :: id in core && PersistentApplies(id, st) ==> r[id].value == PersistentOf(id, st)
    ensures forall id :: id in core && !PersistentApplies(id, st) ==> r[id] == core[id]
  {
    map id | id in core :: if PersistentApplies(id, st) then core[id].(value := PersistentOf(id, st)) else core[id]
  }

  /** `applyLayerOnce(core)`: nothing when no state getter is installed,
      otherwise the three steps in priority order. */
  function ApplyLayerOnce(core: Core, getter: Option<LayerState>): (r: Core)
    ensures r.Keys == core.Keys
    ensures forall id :: id in core ==> r[id].dflt == core[id].dflt
    ensures getter.None? ==> r == core
  {
    match getter
    case None => core
    case Some(st) => PersistentStep(MouthStep(SavedStep(core, st), Clamp01(st.mouthValue)), st)
  }

  /** The values captured before the motion pass: in additive mode with
      saved parameters, the current value of every non-empty saved id the
      model has. */
  function CapturePre(pre: Core, getter: Option<LayerState>): (captured: map<string, real>)
    ensures forall id :: id in captured <==>
      getter.Some? && getter.value.mode == Additive && getter.value.saved.Some?
      && id in getter.value.saved.value && id != "" && id in pre
    ensures forall id :: id in captured ==> captured[id] == pre[id].value
  {
    if getter.Some? && getter.value.mode == Additive && getter.value.saved.Some? then
      map id | id in getter.value.saved.value && id != "" && id in pre :: pre[id].value
    else map[]
  }

  /** The additive rule applied right after the motion pass: a parameter
      that moved by more than the threshold since the capture gets the
      offset on top of its new value, one that did not move is set to the
      saved value. An id with no captured value counts as not moved. Outside
      additive mode, and for ids the saved step does not apply to, the
      motion's values stand. The values of the ids it does apply to are
      stated by `AdditiveMotionRule`. */
  function AdditiveMotionStep(post: Core, captured: map<string, real>, st: LayerState): (r: Core)
    ensures r.Keys == post.Keys
    ensures forall id :: id in post ==> r[id].dflt == post[id].dflt
    ensures st.mode != Additive ==> r == post
    ensures forall id :: id in post && !SavedApplies(id, st) ==> r[id] == post[id]
  {
    if st.mode != Additive then post
    else
      map id | id in post ::
        if SavedApplies(id, st) then
          var cur := post[id].value;
          var prev := if id in captured then captured[id] else cur;
          var offset := SavedOf(id, st) - DefaultOr0(post[id]);
          post[id].(value := if Abs(cur - prev) > MotionEpsilon then cur + offset else SavedOf(id, st))
        else post[id]
  }

  /** The wrapped `motionManager.update`: capture, let the original pass
      turn `pre` into `post`, apply the additive rule, then `applyLayerOnce`
      once more. Without a getter the motion's values stand. The values in
      additive mode, with the offset applied twice, are stated by
      `MotionHookAddsOffsetTwice`; the mouth and persistent values, set by
      the final `ApplyLayerOnce`, by `MouthAlwaysWins` and
      `PersistentAlwaysWins`. */
  function MotionHook(pre: Core, post: Core, getter: Option<LayerState>): (r: Core)
    ensures r.Keys == post.Keys
    ensures getter.None? ==> r == post
  {
    var captured := CapturePre(pre, getter);
    var afterRule := if getter.Some? then AdditiveMotionStep(post, captured, getter.value) else post;
    ApplyLayerOnce(afterRule, getter)
  }

  /** The wrapped `core.update`: `applyLayerOnce`, then the original update
      receives the resulting table. */
  function CoreUpdateHook(core: Core, getter: Option<LayerState>): (r: Core)
    ensures r.Keys == core.Keys
  {
    ApplyLayerOnce(core, getter)
  }

  // ---------------------------------------------------------------------
  // Properties of `applyLayerOnce`

  /** Lip-sync has the final say: in every mode both mouth ids end at the
      clamped mouth value, since neither the saved nor the persistent step
      may write a lip-sync id. */
  lemma MouthAlwaysWins(core: Core, st: LayerState, id: string)
    requires id in core && id in MouthParams
    ensures ApplyLayerOnce(core, Some(st))[id].value == Clamp01(st.mouthValue)
  {
    assert id in LipSyncParams;
    assert !PersistentApplies(id, st);
  }

  /** The persistent step runs last, so an eligible persistent id ends at
      exactly its persistent value, in every mode. */
  lemma PersistentAlwaysWins(core: Core, st: LayerState, id: string)
    requires id in core && PersistentApplies(id, st)
    ensures ApplyLayerOnce(core, Some(st))[id].value == PersistentOf(id, st)
  {
  }

  /** Persistent values never reach the lip-sync ids: the six lip-sync ids
      the mouth step does not write keep the value they had. */
  lemma LipSyncUntouchedBySavedAndPersistent(core: Core, st: LayerState, id: string)
    requires id in core && id in LipSyncParams && id !in MouthParams
    ensures ApplyLayerOnce(core, Some(st))[id] == core[id]
  {
    assert !SavedApplies(id, st) && !PersistentApplies(id, st);
  }

  /** In `off` mode the saved parameters are ignored: the layer is the
      mouth and persistent steps alone. */
  lemma OffModeIgnoresSaved(core: Core, st: LayerState)
    requires st.mode == Off
    ensures ApplyLayerOnce(core, Some(st)) == PersistentStep(MouthStep(core, Clamp01(st.mouthValue)), st)
  {
    assert SavedStep(core, st) == core;
  }

  /** Ids the saved step skips (empty, lip-sync, visibility, shadowed by a
      persistent key, non-finite) are left to the later steps: when neither
      of those writes them either, they keep their value. */
  lemma NothingElseChanges(core: Core, st: LayerState, id: string)
    requires id in core
    requires !SavedApplies(id, st) && id !in MouthParams && !PersistentApplies(id, st)
    ensures ApplyLayerOnce(core, Some(st))[id] == core[id]
  {
  }

  /** In additive mode `applyLayerOnce` adds `saved - default` to the value
      it finds, a missing default counting as 0. */
  lemma AdditiveLayerAddsOffset(core: Core, st: LayerState, id: string)
    requires id in core && st.mode == Additive && SavedApplies(id, st)
    ensures ApplyLayerOnce(core, Some(st))[id].value == core[id].value + (SavedOf(id, st) - DefaultOr0(core[id]))
  {
    assert id !in MouthParams;
    assert !PersistentApplies(id, st);
  }

  /** In override mode every eligible saved id is set to its saved value. */
  lemma OverrideSetsSaved(core: Core, st: LayerState, id: string)
    requires id in core && st.mode == Override && SavedApplies(id, st)
    ensures ApplyLayerOnce(core, Some(st))[id].value == SavedOf(id, st)
  {
    assert id !in MouthParams;
    assert !PersistentApplies(id, st);
  }

  /** Outside additive mode every write is of a fixed value, so applying
      the layer twice gives the same table as applying it once. */
  lemma NonAdditiveLayerIdempotent(core: Core, st: LayerState)
    requires st.mode != Additive
    ensures ApplyLayerOnce(ApplyLayerOnce(core, Some(st)), Some(st)) == ApplyLayerOnce(core, Some(st))
  {
    var once := ApplyLayerOnce(core, Some(st));
    var twice := ApplyLayerOnce(once, Some(st));
    forall id | id in core
      ensures twice[id] == once[id]
    {
      if PersistentApplies(id, st) {
      } else if id in MouthParams {
      } else if SavedApplies(id, st) {
        assert id !in MouthParams;
      }
    }
  }

  // ---------------------------------------------------------------------
  // Properties of the motion hook

  /** The additive rule right after the motion pass: a parameter that
      moved by more than 0.001 since the capture becomes `post + (saved -
      default)`, otherwise exactly `saved`; an id whose value was not
      captured counts as not moved. */
  lemma AdditiveMotionRule(pre: Core, post: Core, st: LayerState, id: string)
    requires st.mode == Additive && id in post && SavedApplies(id, st)
    ensures var r := AdditiveMotionStep(post, CapturePre(pre, Some(st)), st);
      && (id in pre && Abs(post[id].value - pre[id].value) > MotionEpsilon ==>
            r[id].value == post[id].value + (SavedOf(id, st) - DefaultOr0(post[id])))
      && (id in pre && Abs(post[id].value - pre[id].value) <= MotionEpsilon ==>
            r[id].value == SavedOf(id, st))
      && (id !in pre ==> r[id].value == SavedOf(id, st))
  {
    var captured := CapturePre(pre, Some(st));
    assert id in pre ==> id in captured && captured[id] == pre[id].value;
  }

  /** As written, the motion hook calls `applyLayerOnce` after the additive
      rule, and in additive mode that adds the offset a second time: a saved
      parameter the motion pass did not move ends at `saved + (saved -
      default)`, not at `saved`. */
  lemma MotionHookAddsOffsetTwice(pre: Core, post: Core, st: LayerState, id: string)
    requires st.mode == Additive && id in post && id in pre && SavedApplies(id, st)
    requires post[id].value == pre[id].value
    ensures MotionHook(pre, post, Some(st))[id].value == SavedOf(id, st) + (SavedOf(id, st) - DefaultOr0(post[id]))
  {
    AdditiveMotionRule(pre, post, st, id);
    var afterRule := AdditiveMotionStep(post, CapturePre(pre, Some(st)), st);
    AdditiveLayerAddsOffset(afterRule, st, id);
  }

  /** A concrete instance: saved 1, default 0, motion idle. After the
      motion hook the parameter reads 2, and after the core-update hook of
      the same frame it reads 3. */
  lemma AdditiveDriftExample()
    ensures var core: Core := map["ParamAngleX" := Param(0.0, Some(0.0))];
      var st := LayerState(Finite(0.0), Additive, Some(map["ParamAngleX" := Finite(1.0)]), None);
      var afterMotion := MotionHook(core, core, Some(st));
      && afterMotion["ParamAngleX"].value == 2.0
      && CoreUpdateHook(afterMotion, Some(st))["ParamAngleX"].value == 3.0
  {
    var core: Core := map["ParamAngleX" := Param(0.0, Some(0.0))];
    var st := LayerState(Finite(0.0), Additive, Some(map["ParamAngleX" := Finite(1.0)]), None);
    assert SavedApplies("ParamAngleX", st);
    MotionHookAddsOffsetTwice(core, core, st, "ParamAngleX");
    var afterMotion := MotionHook(core, core, Some(st));
    AdditiveLayerAddsOffset(afterMotion, st, "ParamAngleX");
  }

  /** The motion hook as the additive design describes it: the additive
      rule decides the saved parameters, and the layer that follows only
      re-asserts the mouth and persistent steps. */
  function MotionHookIntended(pre: Core, post: Core, getter: Option<LayerState>): (r: Core)
    ensures r.Keys == post.Keys
  {
    match getter
    case None => post
    case Some(st) =>
      if st.mode == Additive then
        var afterRule := AdditiveMotionStep(post, CapturePre(pre, getter), st);
        PersistentStep(MouthStep(afterRule, Clamp01(st.mouthValue)), st)
      else ApplyLayerOnce(post, getter)
  }

  /** The intended additive property: a parameter untouched by motion ends
      at exactly its saved value, one moved by motion at `post + (saved -
      default)`. */
  lemma MotionHookIntendedAdditive(pre: Core, post: Core, st: LayerState, id: string)
    requires st.mode == Additive && id in post && id in pre && SavedApplies(id, st)
    ensures Abs(post[id].value - pre[id].value) <= MotionEpsilon ==>
      MotionHookIntended(pre, post, Some(st))[id].value == SavedOf(id, st)
    ensures Abs(post[id].value - pre[id].value) > MotionEpsilon ==>
      MotionHookIntended(pre, post, Some(st))[id].value == post[id].value + (SavedOf(id, st) - DefaultOr0(post[id]))
  {
    AdditiveMotionRule(pre, post, st, id);
    assert id !in MouthParams;
    assert !PersistentApplies(id, st);
  }

  /** Both hooks still give lip-sync and persistent values the last word. */
  lemma MotionHookIntendedKeepsPriorities(pre: Core, post: Core, st: LayerState, id: string)
    requires id in post
    ensures id in MouthParams ==> MotionHookIntended(pre, post, Some(st))[id].value == Clamp01(st.mouthValue)
    ensures PersistentApplies(id, st) ==> MotionHookIntended(pre, post, Some(st))[id].value == PersistentOf(id, st)
  {
    if id in MouthParams {
      assert id in LipSyncParams;
      assert !PersistentApplies(id, st);
      if st.mode != Additive {
        MouthAlwaysWins(post, st, id);
      }
    }
  }

  /** The core-update hook to go with the corrected motion hook: in
      additive mode the saved parameters are the motion hook's business,
      so this hook re-asserts only the mouth and persistent steps; in the
      other modes it applies the layer as before. */
  function CoreUpdateHookIntended(core: Core, getter: Option<LayerState>): (r: Core)
    ensures r.Keys == core.Keys
    ensures getter.Some? && getter.value.mode != Additive ==> r == CoreUpdateHook(core, getter)
  {
    match getter
    case None => core
    case Some(st) =>
      if st.mode == Additive then PersistentStep(MouthStep(core, Clamp01(st.mouthValue)), st)
      else ApplyLayerOnce(core, getter)
  }

  /** One whole frame with both corrected hooks, the motion hook and then
      the core-update hook: in additive mode a saved parameter the motion
      left alone ends the frame at exactly its saved value, one the motion
      moved at `post + (saved - default)`; in override mode at its saved
      value; and the mouth ids end at the clamped mouth value. */
  lemma FrameIntended(pre: Core, post: Core, st: LayerState, id: string)
    requires id in post
    ensures var frame := CoreUpdateHookIntended(MotionHookIntended(pre, post, Some(st)), Some(st));
      && (st.mode == Additive && id in pre && SavedApplies(id, st) && Abs(post[id].value - pre[id].value) <= MotionEpsilon ==>
            frame[id].value == SavedOf(id, st))
      && (st.mode == Additive && id in pre && SavedApplies(id, st) && Abs(post[id].value - pre[id].value) > MotionEpsilon ==>
            frame[id].value == post[id].value + (SavedOf(id, st) - DefaultOr0(post[id])))
      && (st.mode == Override && SavedApplies(id, st) ==> frame[id].value == SavedOf(id, st))
      && (id in MouthParams ==> frame[id].value == Clamp01(st.mouthValue))
  {
    var afterMotion := MotionHookIntended(pre, post, Some(st));
    if st.mode == Additive && id in pre && SavedApplies(id, st) {
      MotionHookIntendedAdditive(pre, post, st, id);
      assert id !in MouthParams;
      assert !PersistentApplies(id, st);
    }
    if st.mode == Override && SavedApplies(id, st) {
      OverrideSetsSaved(post, st, id);
      OverrideSetsSaved(afterMotion, st, id);
    }
    if id in MouthParams {
      assert id in LipSyncParams;
      assert !PersistentApplies(id, st);
      if st.mode != Additive {
        MouthAlwaysWins(afterMotion, st, id);
      }
    }
  }
}

=== FILE: preferences.dfy ===
/** The on-device preferences repository (hooks/useLive2DPreferences.ts):
    a list of raw entries kept under one storage key, looked up by model
    path in three tiers and upserted on save. The storage is the value
    `Stored`; the JSON text round trip is taken to be the identity on the
    entries (they only hold strings and finite numbers). */
module Preferences {
  import opened Wrappers
  import opened JsNumber
  import opened Text
  import opened Live2DTypes
  import Manager
  import LayerHost
  import S = Service

  type Prefs = Manager.Prefs

  /** A coordinate pair as stored: either component may be missing or not
      a number (`None`). */
  datatype RawXY = RawXY(x: Option<Num>, y: Option<Num>)

  /** One stored entry (`RawPref`); `modelPath` is `None` when it is
      missing or not a string. */
  datatype RawPref = RawPref(
    modelPath: Option<string>, position: Option<RawXY>, scale: Option<RawXY>,
    parameters: Option<map<string, Num>>)

  /** What the storage key holds. */
  datatype Stored = Nothing | Unparsable | NotAnArray | Entries(all: seq<RawPref>)

  /** `normalizePath(p)`: cut at the first `#`, then at the first `?`,
      trim, lower-case. */
  function NormalizePath(p: string): (r: string)
    ensures '#' !in r && '?' !in r
  {
    var cut := BeforeFirst(BeforeFirst(p, '#'), '?');
    TrimSpec(cut);
    ToLowerKeeps(Trim(cut));
    ToLower(Trim(cut))
  }

  /** Normalising is idempotent. */
  lemma NormalizeIdempotent(p: string)
    ensures NormalizePath(NormalizePath(p)) == NormalizePath(p)
  {
    var cut := BeforeFirst(BeforeFirst(p, '#'), '?');
    var n := NormalizePath(p);
    TrimSpec(cut);
    ToLowerKeeps(Trim(cut));
    assert BeforeFirst(BeforeFirst(n, '#'), '?') == n;
    TrimOfTrimmed(n);
    ToLowerIdempotent(Trim(cut));
  }

  /** `p || ''` then normalised: the path an entry is matched by. */
  function PathOf(e: RawPref): string {
    e.modelPath.GetOr("")
  }

  /** `fileName(p)`: the last non-empty `/`-segment of the path with query
      and fragment removed, or `''`. */
  function FileName(p: string): (r: string)
    ensures '/' !in r && '#' !in r && '?' !in r
    ensures r == "" <==> |Segments(BeforeFirst(BeforeFirst(p, '#'), '?'), '/')| == 0
    ensures r != "" ==> r == Last(Segments(BeforeFirst(BeforeFirst(p, '#'), '?'), '/'))
  {
    var clean := BeforeFirst(BeforeFirst(p, '#'), '?');
    var parts := Segments(clean, '/');
    if |parts| == 0 then "" else Last(parts)
  }

  function Last(parts: seq<string>): string
    requires |parts| > 0
  {
    parts[|parts| - 1]
  }

  /** Index of the first entry satisfying `P`. */
  function FindFirst(all: seq<RawPref>, P: RawPref -> bool): (r: Option<nat>)
    ensures r.Some? ==> r.value < |all| && P(all[r.value])
    ensures r.Some? ==> forall j :: 0 <= j < r.value ==> !P(all[j])
    ensures r.None? ==> forall j :: 0 <= j < |all| ==> !P(all[j])
  {
    if |all| == 0 then None
    else if P(all[0]) then Some(0)
    else
      var r := FindFirst(all[1..], P);
      if r.Some? then Some(r.value + 1) else None
  }

  predicate ExactMatch(target: string, e: RawPref) { NormalizePath(PathOf(e)) == target }
  predicate NameMatch(name: string, e: RawPref) { FileName(PathOf(e)) == name }
  predicate DirMatch(dir: string, e: RawPref) { Contains(NormalizePath(PathOf(e)), "/" + dir + "/") }

  /** The parent directory name of a normalised target: the second-to-last
      non-empty segment, or `''`. */
  function ModelDir(target: string): string {
    var parts := Segments(target, '/');
    if |parts| >= 2 then parts[|parts| - 2] else ""
  }

  /** `pickBest(all, uri)`: the first exact match on the normalised path;
      failing that, the first entry with the same file name; failing that,
      the first whose normalised path contains `/<parent dir>/`; an empty
      normalised target matches nothing. */
  function PickBest(all: seq<RawPref>, uri: string): (r: Option<nat>)
    ensures r.Some? ==> r.value < |all|
    ensures NormalizePath(uri) == "" ==> r.None?
    ensures var target := NormalizePath(uri);
      var name := FileName(uri);
      var dir := ModelDir(target);
      && (r.Some? && ExactMatch(target, all[r.value]) ==>
            forall j :: 0 <= j < r.value ==> !ExactMatch(target, all[j]))
      && (r.Some? && !ExactMatch(target, all[r.value]) ==>
            && (forall j :: 0 <= j < |all| ==> !ExactMatch(target, all[j]))
            && ((name != "" && NameMatch(name, all[r.value])
                 && forall j :: 0 <= j < r.value ==> !NameMatch(name, all[j]))
                || (dir != "" && DirMatch(dir, all[r.value])
                    && (name == "" || forall j :: 0 <= j < |all| ==> !NameMatch(name, all[j]))
                    && forall j :: 0 <= j < r.value ==> !DirMatch(dir, all[j]))))
      && (r.None? && target != "" ==>
            && (forall j :: 0 <= j < |all| ==> !ExactMatch(target, all[j]))
            && (name != "" ==> forall j :: 0 <= j < |all| ==> !NameMatch(name, all[j]))
            && (dir != "" ==> forall j :: 0 <= j < |all| ==> !DirMatch(dir, all[j])))
  {
    var target := NormalizePath(uri);
    if target == "" then None
    else
      var exact := FindFirst(all, e => ExactMatch(target, e));
      if exact.Some? then exact
      else
        var name := FileName(uri);
        var byName := if name != "" then FindFirst(all, e => NameMatch(name, e)) else None;
        if byName.Some? then byName
        else
          var dir := ModelDir(target);
          if dir != "" then FindFirst(all, e => DirMatch(dir, e)) else None
  }

  /** `fetchAll()`: nothing stored, unparsable text or a non-array all
      read as the empty list. */
  function FetchAll(st: Stored): (all: seq<RawPref>)
    ensures !st.Entries? ==> all == []
    ensures st.Entries? ==> all == st.all
  {
    if st.Entries? then st.all else []
  }

  /** `isFiniteNumber` on an optional stored component. */
  predicate IsFiniteNumber(n: Option<Num>) { n.Some? && n.value.IsFinite() }

  function BothFinite(p: Option<RawXY>): (r: Option<Vec2>)
    ensures r.Some? <==> p.Some? && IsFiniteNumber(p.value.x) && IsFiniteNumber(p.value.y)
    ensures r.Some? ==> r.value == Vec2(p.value.x.value, p.value.y.value)
  {
    if p.Some? && IsFiniteNumber(p.value.x) && IsFiniteNumber(p.value.y)
    then Some(Vec2(p.value.x.value, p.value.y.value)) else None
  }

  /** `load(uri)`: the best entry, reported under the requested URI, with
      position and scale only when both of their components are finite. */
  function Load(st: Stored, uri: string): (r: Option<Prefs>)
    ensures r.Some? <==> PickBest(FetchAll(st), uri).Some?
    ensures r.Some? ==> r.value.modelUri == uri
    ensures r.Some? ==> var e := FetchAll(st)[PickBest(FetchAll(st), uri).value];
      && r.value.position == BothFinite(e.position)
      && r.value.scale == BothFinite(e.scale)
      && r.value.parameters == e.parameters
  {
    var all := FetchAll(st);
    match PickBest(all, uri)
    case None => None
    case Some(i) =>
      var e := all[i];
      Some(Manager.Prefs(uri, BothFinite(e.position), BothFinite(e.scale), e.parameters))
  }

  /** What `save` accepts: position and scale present, all four numbers
      finite, and both scale factors positive. */
  predicate Savable(s: Prefs) {
    && s.position.Some? && s.scale.Some?
    && s.position.value.x.IsFinite() && s.position.value.y.IsFinite()
    && s.scale.value.x.IsFinite() && s.scale.value.y.IsFinite()
    && s.scale.value.x.v > 0.0 && s.scale.value.y.v > 0.0
  }

  /** The entry `save` writes for a snapshot. */
  function EntryOf(s: Prefs): RawPref
    requires Savable(s)
  {
    RawPref(Some(s.modelUri),
      Some(RawXY(Some(s.position.value.x), Some(s.position.value.y))),
      Some(RawXY(Some(s.scale.value.x), Some(s.scale.value.y))),
      s.parameters)
  }

  /** Replace the first entry with the same normalised path, or append. */
  function Upsert(all: seq<RawPref>, s: Prefs): (r: seq<RawPref>)
    requires Savable(s)
    ensures var i := FindFirst(all, e => ExactMatch(NormalizePath(s.modelUri), e));
      && (i.Some? ==> |r| == |all| && r[i.value] == EntryOf(s)
                      && forall j :: 0 <= j < |all| && j != i.value ==> r[j] == all[j])
      && (i.None? ==> r == all + [EntryOf(s)])
  {
    var i := FindFirst(all, e => ExactMatch(NormalizePath(s.modelUri), e));
    if i.Some? then all[i.value := EntryOf(s)] else all + [EntryOf(s)]
  }

  /** How a `save` call ends. */
  datatype SaveResult = SaveResult(stored: Stored, threw: bool)

  /** `save(snapshot)`: nothing at all for an unsavable snapshot; otherwise
      the upserted list is written, and a failing write leaves the storage
      as it was and rethrows. */
  function Save(st: Stored, s: Prefs, writeFails: bool): (r: SaveResult)
    ensures !Savable(s) ==> r == SaveResult(st, false)
    ensures Savable(s) && writeFails ==> r == SaveResult(st, true)
    ensures Savable(s) && !writeFails ==> !r.threw && r.stored == Entries(Upsert(FetchAll(st), s))
  {
    if !Savable(s) then SaveResult(st, false)
    else if writeFails then SaveResult(st, true)
    else SaveResult(Entries(Upsert(FetchAll(st), s)), false)
  }

  /** An index satisfying `P` with no earlier one is what `FindFirst`
      returns. */
  lemma {:induction false} FindFirstAt(all: seq<RawPref>, P: RawPref -> bool, i: nat)
    requires i < |all| && P(all[i])
    requires forall j :: 0 <= j < i ==> !P(all[j])
    ensures FindFirst(all, P) == Some(i)
  {
    if i > 0 {
      assert forall j :: 0 <= j < i - 1 ==> all[1..][j] == all[j + 1];
      FindFirstAt(all[1..], P, i - 1);
    }
  }

  /** After an upsert, the entry for the saved URI is the first exact match
      for it. */
  lemma UpsertIsFirstExact(all: seq<RawPref>, s: Prefs)
    requires Savable(s)
    ensures var r := Upsert(all, s);
      var i := FindFirst(r, e => ExactMatch(NormalizePath(s.modelUri), e));
      i.Some? && r[i.value] == EntryOf(s)
  {
    var target := NormalizePath(s.modelUri);
    var P: RawPref -> bool := e => ExactMatch(target, e);
    var r := Upsert(all, s);
    var prior := FindFirst(all, P);
    assert P(EntryOf(s));
    if prior.Some? {
      FindFirstAt(r, P, prior.value);
    } else {
      FindFirstAt(r, P, |all|);
    }
  }

  /** The parameters survive the JSON text: none, or finite values only. */
  predicate FiniteParameters(s: Prefs) {
    s.parameters.None? || forall k :: k in s.parameters.value ==> s.parameters.value[k].IsFinite()
  }

  /** Round trip: a savable snapshot whose URI normalises to something
      non-empty and whose parameters are finite, once written, is what
      `load` of the same URI returns: the same position, scale and
      parameters. */
  lemma SaveThenLoad(st: Stored, s: Prefs)
    requires Savable(s) && NormalizePath(s.modelUri) != "" && FiniteParameters(s)
    ensures var after := Save(st, s, false).stored;
      Load(after, s.modelUri) == Some(s)
  {
    var r := Upsert(FetchAll(st), s);
    UpsertIsFirstExact(FetchAll(st), s);
    var i := FindFirst(r, e => ExactMatch(NormalizePath(s.modelUri), e));
    assert PickBest(r, s.modelUri) == i;
  }

  /** The manager's `savePreferences` through this repository: the payload
      for a loaded model with a finite position and a positive scale loads
      back unchanged through the manager's `loadPreferences`; without a
      transform snapshot, or with one `save` refuses, the storage is left
      alone. */
  lemma ManagerSaveThenLoad(m: Manager.Mgr, env: Manager.Env, snap: Option<LayerHost.Snapshot>, st: Stored)
    requires env.hasRepository && m.uri.Some? && m.uri.value != "" && NormalizePath(m.uri.value) != ""
    ensures var r := Manager.SavePreferences(m, env, snap, S.Resolves);
      var p := r.mgr.effects[|m.effects|].prefs;
      && p == Manager.SavePayload(m.uri.value, snap)
      && (snap.Some? && snap.value.x.IsFinite() && snap.value.y.IsFinite()
          && snap.value.scaleX > 0.0 && snap.value.scaleY > 0.0 ==>
            Manager.LoadPreferences(env, Manager.Loaded(Load(Save(st, p, false).stored, m.uri.value))) == Some(p))
      && (snap.None? || !snap.value.x.IsFinite() || !snap.value.y.IsFinite()
          || snap.value.scaleX <= 0.0 || snap.value.scaleY <= 0.0 ==>
            Save(st, p, false) == SaveResult(st, false))
  {
    var p := Manager.SavePayload(m.uri.value, snap);
    if snap.Some? && snap.value.x.IsFinite() && snap.value.y.IsFinite()
       && snap.value.scaleX > 0.0 && snap.value.scaleY > 0.0 {
      SaveThenLoad(st, p);
    }
  }
}

=== FILE: service.dfy ===
/** The Live2D service (packages/project-neko-live2d-service/src/service.ts):
    a state machine over idle / loading / ready / error that validates its
    arguments, checks which optional adapter methods exist, forwards calls
    to the adapter and emits events. Each entry point is a function from
    the service and the adapter's reply to the next service and the way the
    call ended. `log` lists every `emit` in order (delivery to handlers is
    the emitter's business, see module Emitter) and `calls` lists every
    adapter call in order. Every `emit` is taken to complete: a handler
    error that escapes through a throwing `onEventHandlerError` is not
    modelled here. */
module Service {
  import opened Wrappers
  import opened JsNumber
  import opened Live2DTypes

  /** Which optional adapter methods exist. */
  datatype Caps = Caps(
    unloadModel: bool, playMotion: bool, setExpression: bool,
    setMouthValue: bool, setTransform: bool, dispose: bool)

  datatype AdapterCall =
    | CallLoad(model: ModelRef)
    | CallUnload
    | CallPlayMotion(motion: MotionRef)
    | CallSetExpression(expression: ExpressionRef)
    | CallSetMouth(value: real)
    | CallSetTransform(transform: Transform)
    | CallDispose

  /** How an awaited adapter call settles. */
  datatype Reply = Resolves | Rejects(cause: Cause)

  /** How a service call ends: normally, with a `TypeError` (bad
      argument), with an `Error` (missing adapter method) or by rethrowing
      the adapter's own failure. */
  datatype Outcome = Done | ThrewTypeError | ThrewError | Rethrew(cause: Cause)

  datatype Svc = Svc(state: State, log: seq<Event>, calls: seq<AdapterCall>, caps: Caps)

  datatype Step = Step(svc: Svc, outcome: Outcome)

  const IdleState: State := State(Idle, None, None)

  const InvalidModelRef: string := "INVALID_MODEL_REF"
  const ModelLoadFailed: string := "MODEL_LOAD_FAILED"

  /** `createLive2DService(adapter)`. */
  function Create(caps: Caps): (s: Svc)
    ensures s.state == IdleState && s.log == [] && s.calls == [] && s.caps == caps
  {
    Svc(IdleState, [], [], caps)
  }

  /** `setState(next)`: one `stateChanged` carrying the old and the new
      state. */
  function SetState(s: Svc, next: State): (r: Svc)
    ensures r.state == next
    ensures r.log == s.log + [StateChanged(s.state, next)]
    ensures r.calls == s.calls && r.caps == s.caps
  {
    s.(state := next, log := s.log + [StateChanged(s.state, next)])
  }

  function Emit(s: Svc, e: Event): (r: Svc)
    ensures r.log == s.log + [e] && r.state == s.state && r.calls == s.calls && r.caps == s.caps
  {
    s.(log := s.log + [e])
  }

  function Call(s: Svc, c: AdapterCall): (r: Svc)
    ensures r.calls == s.calls + [c] && r.state == s.state && r.log == s.log && r.caps == s.caps
  {
    s.(calls := s.calls + [c])
  }

  /** The sink handed to the adapter: an adapter `error` moves the service
      to `error`, keeping the current model; every event is then
      re-emitted as received. */
  function Sink(s: Svc, e: Event): (r: Svc)
    ensures e.ErrorRaised? ==>
      (r.state == State(Error, s.state.model, Some(e.err)) && r.log == s.log + [StateChanged(s.state, r.state), e])
    ensures !e.ErrorRaised? ==> r.state == s.state && r.log == s.log + [e]
    ensures r.calls == s.calls
  {
    var s1 := if e.ErrorRaised? then SetState(s, State(Error, s.state.model, Some(e.err))) else s;
    Emit(s1, e)
  }

  /** `loadModel(ref)`. A ref that is not an object or has no string `uri`
      moves the service to `error` with no model and throws a `TypeError`
      without calling the adapter. Otherwise: `loading`, the adapter's
      load, then `ready` and `modelLoaded`, or on rejection `error` and a
      rethrow of the cause. An empty `uri` is a string and so passes. */
  function LoadModel(s: Svc, arg: Arg<ModelRef>, reply: Reply): (r: Step)
    ensures !arg.Valid? ==>
      && r.outcome == ThrewTypeError
      && r.svc.state == State(Error, None, Some(LiveError(InvalidModelRef, None)))
      && r.svc.log == s.log + [StateChanged(s.state, r.svc.state), ErrorRaised(r.svc.state.error.value)]
      && r.svc.calls == s.calls
    ensures arg.Valid? ==> r.svc.calls == s.calls + [CallLoad(arg.value)]
    ensures arg.Valid? && reply.Resolves? ==>
      var loading := State(Loading, Some(arg.value), None);
      var ready := State(Ready, Some(arg.value), None);
      && r.outcome == Done && r.svc.state == ready
      && r.svc.log == s.log + [StateChanged(s.state, loading), StateChanged(loading, ready), ModelLoaded(arg.value)]
    ensures arg.Valid? && reply.Rejects? ==>
      var loading := State(Loading, Some(arg.value), None);
      var err := LiveError(ModelLoadFailed, Some(reply.cause));
      && r.outcome == Rethrew(reply.cause)
      && r.svc.state == State(Error, Some(arg.value), Some(err))
      && r.svc.log == s.log + [StateChanged(s.state, loading), StateChanged(loading, r.svc.state), ErrorRaised(err)]
  {
    if !arg.Valid? then
      var err := LiveError(InvalidModelRef, None);
      var s1 := SetState(s, State(Error, None, Some(err)));
      Step(Emit(s1, ErrorRaised(err)), ThrewTypeError)
    else
      var m := arg.value;
      var s1 := Call(SetState(s, State(Loading, Some(m), None)), CallLoad(m));
      match reply
      case Resolves =>
        Step(Emit(SetState(s1, State(Ready, Some(m), None)), ModelLoaded(m)), Done)
      case Rejects(c) =>
        var err := LiveError(ModelLoadFailed, Some(c));
        Step(Emit(SetState(s1, State(Error, Some(m), Some(err))), ErrorRaised(err)), Rethrew(c))
  }

  /** `unloadModel()`: the adapter's unload if it has one; whatever it
      does, the service then goes `idle` and emits `modelUnloaded` with the
      model it had; a rejection still propagates. */
  function UnloadModel(s: Svc, reply: Reply): (r: Step)
    ensures r.svc.state == IdleState
    ensures r.svc.log == s.log + [StateChanged(s.state, IdleState), ModelUnloaded(s.state.model)]
    ensures s.caps.unloadModel && reply.Rejects? ==> r.outcome == Rethrew(reply.cause)
    ensures !(s.caps.unloadModel && reply.Rejects?) ==> r.outcome == Done
    ensures r.svc.calls == s.calls + (if s.caps.unloadModel then [CallUnload] else [])
  {
    var prevModel := s.state.model;
    var s1 := if s.caps.unloadModel then Call(s, CallUnload) else s;
    var s2 := Emit(SetState(s1, IdleState), ModelUnloaded(prevModel));
    if s.caps.unloadModel && reply.Rejects? then Step(s2, Rethrew(reply.cause)) else Step(s2, Done)
  }

  /** Outcome of forwarding an awaited call. */
  function Forwarded(reply: Reply): Outcome {
    if reply.Rejects? then Rethrew(reply.cause) else Done
  }

  /** `playMotion(motion)`: capability first, then the argument's shape,
      then the adapter. The state never changes. */
  function PlayMotion(s: Svc, arg: Arg<MotionRef>, reply: Reply): (r: Step)
    ensures r.svc.state == s.state && r.svc.log == s.log
    ensures !s.caps.playMotion ==> r == Step(s, ThrewError)
    ensures s.caps.playMotion && !arg.Valid? ==> r == Step(s, ThrewTypeError)
    ensures s.caps.playMotion && arg.Valid? ==>
      r.svc.calls == s.calls + [CallPlayMotion(arg.value)] && (r.outcome == Done <==> reply.Resolves?)
  {
    if !s.caps.playMotion then Step(s, ThrewError)
    else if !arg.Valid? then Step(s, ThrewTypeError)
    else Step(Call(s, CallPlayMotion(arg.value)), Forwarded(reply))
  }

  /** `setExpression(expression)`: as `playMotion`. */
  function SetExpression(s: Svc, arg: Arg<ExpressionRef>, reply: Reply): (r: Step)
    ensures r.svc.state == s.state && r.svc.log == s.log
    ensures !s.caps.setExpression ==> r == Step(s, ThrewError)
    ensures s.caps.setExpression && !arg.Valid? ==> r == Step(s, ThrewTypeError)
    ensures s.caps.setExpression && arg.Valid? ==>
      r.svc.calls == s.calls + [CallSetExpression(arg.value)] && (r.outcome == Done <==> reply.Resolves?)
  {
    if !s.caps.setExpression then Step(s, ThrewError)
    else if !arg.Valid? then Step(s, ThrewTypeError)
    else Step(Call(s, CallSetExpression(arg.value)), Forwarded(reply))
  }

  /** `setMouthValue(v)`: capability, then finiteness, then the adapter
      receives `v` clamped to `[0, 1]`. */
  function SetMouthValue(s: Svc, v: Num): (r: Step)
    ensures r.svc.state == s.state && r.svc.log == s.log
    ensures !s.caps.setMouthValue ==> r == Step(s, ThrewError)
    ensures s.caps.setMouthValue && !v.IsFinite() ==> r == Step(s, ThrewTypeError)
    ensures s.caps.setMouthValue && v.IsFinite() ==>
      && r.outcome == Done
      && r.svc.calls == s.calls + [CallSetMouth(Clamp01(v))]
      && (0.0 <= v.v <= 1.0 ==> r.svc.calls[|s.calls|].value == v.v)
  {
    if !s.caps.setMouthValue then Step(s, ThrewError)
    else if !v.IsFinite() then Step(s, ThrewTypeError)
    else Step(Call(s, CallSetMouth(Max(0.0, Min(1.0, v.v)))), Done)
  }

  /** `setTransform(t)`: capability, then "is an object" (`None` is not),
      then the adapter. */
  function SetTransform(s: Svc, arg: Option<Transform>, reply: Reply): (r: Step)
    ensures r.svc.state == s.state && r.svc.log == s.log
    ensures !s.caps.setTransform ==> r == Step(s, ThrewError)
    ensures s.caps.setTransform && arg.None? ==> r == Step(s, ThrewTypeError)
    ensures s.caps.setTransform && arg.Some? ==>
      r.svc.calls == s.calls + [CallSetTransform(arg.value)] && (r.outcome == Done <==> reply.Resolves?)
  {
    if !s.caps.setTransform then Step(s, ThrewError)
    else if arg.None? then Step(s, ThrewTypeError)
    else Step(Call(s, CallSetTransform(arg.value)), Forwarded(reply))
  }

  /** `dispose()`: `unloadModel` and then the adapter's `dispose`, each
      failure swallowed. */
  function Dispose(s: Svc, unloadReply: Reply, disposeReply: Reply): (r: Step)
    ensures r.outcome == Done && r.svc.state == IdleState
    ensures r.svc.calls == s.calls + (if s.caps.unloadModel then [CallUnload] else [])
                                   + (if s.caps.dispose then [CallDispose] else [])
    ensures r.svc.log == s.log + [StateChanged(s.state, IdleState), ModelUnloaded(s.state.model)]
  {
    var s1 := UnloadModel(s, unloadReply).svc;
    Step(if s.caps.dispose then Call(s1, CallDispose) else s1, Done)
  }

  /** Any string `uri`, the empty one included, reaches the adapter. */
  lemma EmptyUriReachesAdapter(s: Svc, reply: Reply)
    ensures LoadModel(s, Valid(ModelRef("")), reply).svc.calls == s.calls + [CallLoad(ModelRef(""))]
  {
  }

  // ---------------------------------------------------------------------
  // The log tells the whole story

  /** The `stateChanged` events of a log, as (prev, next) pairs. */
  function Transitions(log: seq<Event>): (ts: seq<(State, State)>)
    ensures |ts| <= |log|
  {
    if |log| == 0 then []
    else
      var rest := Transitions(log[..|log| - 1]);
      var e := log[|log| - 1];
      if e.StateChanged? then rest + [(e.prev, e.next)] else rest
  }

  /** Every transition starts where the previous one ended, the first
      from `from`, and the last ends in `to`. */
  predicate Chained(from: State, ts: seq<(State, State)>, to: State)
    decreases |ts|
  {
    if |ts| == 0 then from == to
    else ts[0].0 == from && Chained(ts[0].1, ts[1..], to)
  }

  lemma {:induction false} ChainedExtend(from: State, ts: seq<(State, State)>, to: State, next: State)
    requires Chained(from, ts, to)
    ensures Chained(from, ts + [(to, next)], next)
    decreases |ts|
  {
    if |ts| == 0 {
      assert ts + [(to, next)] == [(to, next)];
      assert Chained(next, [], next);
    } else {
      ChainedExtend(ts[0].1, ts[1..], to, next);
      assert (ts + [(to, next)])[1..] == ts[1..] + [(to, next)];
    }
  }

  /** The service is faithful to its listeners when its `stateChanged`
      events, read in order from the initial `idle`, end at the current
      state. */
  predicate Faithful(s: Svc) {
    Chained(IdleState, Transitions(s.log), s.state)
  }

  lemma SetStateFaithful(s: Svc, next: State)
    requires Faithful(s)
    ensures Faithful(SetState(s, next))
  {
    var r := SetState(s, next);
    assert r.log[..|r.log| - 1] == s.log;
    ChainedExtend(IdleState, Transitions(s.log), s.state, next);
  }

  lemma EmitFaithful(s: Svc, e: Event)
    requires Faithful(s) && !e.StateChanged?
    ensures Faithful(Emit(s, e))
  {
    assert Emit(s, e).log[..|s.log|] == s.log;
  }

  /** The entry points of the service, and an event the adapter reports. */
  datatype Command =
    | DoLoad(arg: Arg<ModelRef>, reply: Reply)
    | DoUnload(reply: Reply)
    | DoPlayMotion(motion: Arg<MotionRef>, reply: Reply)
    | DoSetExpression(expression: Arg<ExpressionRef>, reply: Reply)
    | DoSetMouth(v: Num)
    | DoSetTransform(t: Option<Transform>, reply: Reply)
    | DoDispose(unloadReply: Reply, disposeReply: Reply)
    | AdapterReports(e: Event)

  function Apply(s: Svc, c: Command): Svc {
    match c
    case DoLoad(arg, reply) => LoadModel(s, arg, reply).svc
    case DoUnload(reply) => UnloadModel(s, reply).svc
    case DoPlayMotion(m, reply) => PlayMotion(s, m, reply).svc
    case DoSetExpression(x, reply) => SetExpression(s, x, reply).svc
    case DoSetMouth(v) => SetMouthValue(s, v).svc
    case DoSetTransform(t, reply) => SetTransform(s, t, reply).svc
    case DoDispose(r1, r2) => Dispose(s, r1, r2).svc
    case AdapterReports(e) => Sink(s, e)
  }

  function Run(s: Svc, cs: seq<Command>): Svc
    decreases |cs|
  {
    if |cs| == 0 then s else Run(Apply(s, cs[0]), cs[1..])
  }

  /** No adapter report is itself a `stateChanged` (the adapter could send
      one, and it would be forwarded without a state change). */
  predicate NoForgedTransitions(cs: seq<Command>) {
    forall k :: 0 <= k < |cs| ==> !(cs[k].AdapterReports? && cs[k].e.StateChanged?)
  }

  lemma ApplyFaithful(s: Svc, c: Command)
    requires Faithful(s)
    requires !(c.AdapterReports? && c.e.StateChanged?)
    ensures Faithful(Apply(s, c))
  {
    match c
    case DoLoad(arg, reply) =>
      if !arg.Valid? {
        var err := LiveError(InvalidModelRef, None);
        SetStateFaithful(s, State(Error, None, Some(err)));
        EmitFaithful(SetState(s, State(Error, None, Some(err))), ErrorRaised(err));
      } else {
        var m := arg.value;
        var s0 := SetState(s, State(Loading, Some(m), None));
        SetStateFaithful(s, State(Loading, Some(m), None));
        var s1 := Call(s0, CallLoad(m));
        assert Faithful(s1);
        if reply.Resolves? {
          SetStateFaithful(s1, State(Ready, Some(m), None));
          EmitFaithful(SetState(s1, State(Ready, Some(m), None)), ModelLoaded(m));
        } else {
          var err := LiveError(ModelLoadFailed, Some(reply.cause));
          SetStateFaithful(s1, State(Error, Some(m), Some(err)));
          EmitFaithful(SetState(s1, State(Error, Some(m), Some(err))), ErrorRaised(err));
        }
      }
    case DoUnload(reply) =>
      UnloadFaithful(s, reply);
    case DoPlayMotion(_, _) =>
    case DoSetExpression(_, _) =>
    case DoSetMouth(_) =>
    case DoSetTransform(_, _) =>
    case DoDispose(r1, _) =>
      UnloadFaithful(s, r1);
    case AdapterReports(e) =>
      if e.ErrorRaised? {
        SetStateFaithful(s, State(Error, s.state.model, Some(e.err)));
        EmitFaithful(SetState(s, State(Error, s.state.model, Some(e.err))), e);
      } else {
        EmitFaithful(s, e);
      }
  }

  lemma UnloadFaithful(s: Svc, reply: Reply)
    requires Faithful(s)
    ensures Faithful(UnloadModel(s, reply).svc)
  {
    var s1 := if s.caps.unloadModel then Call(s, CallUnload) else s;
    assert Faithful(s1);
    SetStateFaithful(s1, IdleState);
    EmitFaithful(SetState(s1, IdleState), ModelUnloaded(s.state.model));
  }

  /** From creation, through any sequence of calls and adapter reports
      other than forged `stateChanged` events, a listener that follows
      `stateChanged` knows the current state: each event's `prev` is the
      previous event's `next`, starting at `idle`, and the last `next` is
      what `getState()` returns. */
  lemma {:induction false} RunFaithful(s: Svc, cs: seq<Command>)
    requires Faithful(s) && NoForgedTransitions(cs)
    ensures Faithful(Run(s, cs))
    decreases |cs|
  {
    if |cs| > 0 {
      ApplyFaithful(s, cs[0]);
      assert NoForgedTransitions(cs[1..]) by {
        forall k | 0 <= k < |cs[1..]|
          ensures !(cs[1..][k].AdapterReports? && cs[1..][k].e.StateChanged?)
        {
          assert cs[1..][k] == cs[k + 1];
        }
      }
      RunFaithful(Apply(s, cs[0]), cs[1..]);
    }
  }

  lemma CreateFaithful(caps: Caps)
    ensures Faithful(Create(caps))
  {
  }

  /** States are well formed: `idle` has neither model nor error,
      `loading` and `ready` carry a model and no error, `error` carries an
      error. */
  predicate WellFormed(st: State) {
    match st.status
    case Idle => st.model.None? && st.error.None?
    case Loading => st.model.Some? && st.error.None?
    case Ready => st.model.Some? && st.error.None?
    case Error => st.error.Some?
  }

  lemma {:induction false} RunWellFormed(s: Svc, cs: seq<Command>)
    requires WellFormed(s.state)
    ensures WellFormed(Run(s, cs).state)
    decreases |cs|
  {
    if |cs| > 0 {
      assert WellFormed(Apply(s, cs[0]).state);
      RunWellFormed(Apply(s, cs[0]), cs[1..]);
    }
  }
}

=== FILE: sync_packages.dfy ===
/** The package sync script (scripts/sync-neko-packages.js): its argument
    parser, the package selection and its validation against the package
    mapping, the per-package plan of file-system actions, the copy filter,
    and the change-detecting patch. The file system is replaced by
    parameters (which directories exist, the file's content) and by the
    list of actions a run performs; a dry run performs none. */
module SyncPackages {
  import opened Wrappers
  import opened Text

  /** The parsed options; `None` is `null` (or `undefined` when a value
      flag is the last argument). */
  datatype Options = Options(
    source: Option<string>, dest: Option<string>, packages: Option<string>,
    dryRun: bool, clean: bool, postprocess: bool, verbose: bool)

  const Defaults := Options(None, None, None, false, true, true, false)

  /** `parseArgs` either returns options or ends the process with a code. */
  datatype Parsed = Parsed(options: Options) | Exit(code: nat)

  predicate IsValueFlag(a: string) {
    a in ["--source", "-s", "--dest", "-d", "--packages", "-p"]
  }

  predicate IsKnown(a: string) {
    || IsValueFlag(a)
    || a in ["--dry-run", "--dry", "--no-clean", "--no-postprocess", "--verbose", "-v", "--help", "-h"]
  }

  /** The loop of `parseArgs` from some point on: a value flag consumes
      the next argument whatever it is; `--help` exits with 0 and an
      unknown argument with 1, at the point they are met. */
  function ParseFrom(argv: seq<string>, out: Options): (r: Parsed)
    ensures r.Exit? ==> r.code == 0 || r.code == 1
    ensures |argv| > 0 && !IsKnown(argv[0]) ==> r == Exit(1)
    ensures r.Parsed? ==>
      && (out.dryRun ==> r.options.dryRun) && (!out.clean ==> !r.options.clean)
      && (!out.postprocess ==> !r.options.postprocess) && (out.verbose ==> r.options.verbose)
    decreases |argv|
  {
    if |argv| == 0 then Parsed(out)
    else
      var a := argv[0];
      var v := if |argv| > 1 then Some(argv[1]) else None;
      var after := if |argv| > 1 then argv[2..] else [];
      if a == "--source" || a == "-s" then ParseFrom(after, out.(source := v))
      else if a == "--dest" || a == "-d" then ParseFrom(after, out.(dest := v))
      else if a == "--packages" || a == "-p" then ParseFrom(after, out.(packages := v))
      else if a == "--dry-run" || a == "--dry" then ParseFrom(argv[1..], out.(dryRun := true))
      else if a == "--no-clean" then ParseFrom(argv[1..], out.(clean := false))
      else if a == "--no-postprocess" then ParseFrom(argv[1..], out.(postprocess := false))
      else if a == "--verbose" || a == "-v" then ParseFrom(argv[1..], out.(verbose := true))
      else if a == "--help" || a == "-h" then Exit(0)
      else Exit(1)
  }

  /** `parseArgs(argv)`. */
  function ParseArgs(argv: seq<string>): (r: Parsed)
    ensures argv == [] ==> r == Parsed(Defaults)
  {
    ParseFrom(argv, Defaults)
  }

  /** An unknown argument ends the parse with code 1, `--help` with 0. */
  lemma ExitCodes(a: string, rest: seq<string>, out: Options)
    ensures !IsKnown(a) ==> ParseFrom([a] + rest, out) == Exit(1)
    ensures (a == "--help" || a == "-h") ==> ParseFrom([a] + rest, out) == Exit(0)
  {
    assert ([a] + rest)[0] == a;
  }

  /** A value flag takes the next argument even when it looks like a
      flag, and a later occurrence overrides an earlier one. */
  lemma LaterSourceWins(x: string, y: string, rest: seq<string>, out: Options)
    ensures ParseFrom(["-s", x, "--source", y] + rest, out) == ParseFrom(rest, out.(source := Some(y)))
    ensures ParseFrom(["-p", "--help"] + rest, out) == ParseFrom(rest, out.(packages := Some("--help")))
  {
    var argv := ["-s", x, "--source", y] + rest;
    assert argv[2..] == ["--source", y] + rest;
    assert (["--source", y] + rest)[2..] == rest;
    assert (["-p", "--help"] + rest)[2..] == rest;
  }

  /** Every spelling of every value flag stores the argument after it in
      its own option and parsing resumes after that argument; as the last
      argument it stores `undefined`. */
  lemma ValueFlags(f: string, x: string, rest: seq<string>, out: Options)
    ensures (f == "--source" || f == "-s") ==> ParseFrom([f, x] + rest, out) == ParseFrom(rest, out.(source := Some(x)))
    ensures (f == "--dest" || f == "-d") ==> ParseFrom([f, x] + rest, out) == ParseFrom(rest, out.(dest := Some(x)))
    ensures (f == "--packages" || f == "-p") ==> ParseFrom([f, x] + rest, out) == ParseFrom(rest, out.(packages := Some(x)))
    ensures (f == "--source" || f == "-s") ==> ParseFrom([f], out) == Parsed(out.(source := None))
    ensures (f == "--dest" || f == "-d") ==> ParseFrom([f], out) == Parsed(out.(dest := None))
    ensures (f == "--packages" || f == "-p") ==> ParseFrom([f], out) == Parsed(out.(packages := None))
  {
    assert ([f, x] + rest)[0] == f && ([f, x] + rest)[1] == x;
    assert ([f, x] + rest)[2..] == rest;
  }

  /** Every spelling of every switch sets its own option and parsing goes
      on with the next argument. */
  lemma SwitchFlags(f: string, rest: seq<string>, out: Options)
    ensures (f == "--dry-run" || f == "--dry") ==> ParseFrom([f] + rest, out) == ParseFrom(rest, out.(dryRun := true))
    ensures f == "--no-clean" ==> ParseFrom([f] + rest, out) == ParseFrom(rest, out.(clean := false))
    ensures f == "--no-postprocess" ==> ParseFrom([f] + rest, out) == ParseFrom(rest, out.(postprocess := false))
    ensures (f == "--verbose" || f == "-v") ==> ParseFrom([f] + rest, out) == ParseFrom(rest, out.(verbose := true))
  {
    assert ([f] + rest)[0] == f;
    assert ([f] + rest)[1..] == rest;
  }

  /** The keys of `mapping`. */
  const MappingKeys: seq<string> := ["common", "components", "request", "realtime"]

  function DestOf(key: string): string { "project-neko-" + key }

  function TrimAll(xs: seq<string>): (r: seq<string>)
    ensures |r| == |xs| && forall k :: 0 <= k < |r| ==> r[k] == Trim(xs[k])
  {
    seq(|xs|, k requires 0 <= k < |xs| => Trim(xs[k]))
  }

  /** The selected package keys: the comma list, trimmed, without empty
      items; every mapping key when no (or an empty) list was given. */
  function Selected(packages: Option<string>): (r: seq<string>)
    ensures forall k :: 0 <= k < |r| ==> r[k] != "" && ',' !in r[k] && IsTrimmed(r[k])
    ensures packages.None? || packages.value == "" ==> r == MappingKeys
  {
    if packages.Some? && packages.value != "" then
      var parts := TrimAll(Split(packages.value, ','));
      forall k | 0 <= k < |parts| ensures ',' !in parts[k] && IsTrimmed(parts[k]) {
        TrimSpec(Split(packages.value, ',')[k]);
      }
      NonEmpty(parts)
    else MappingKeys
  }

  /** The inherited property names of a plain object. `mapping[p]` is
      truthy for each of them. */
  const ObjectPrototypeNames: set<string> := {
    "constructor", "hasOwnProperty", "isPrototypeOf", "propertyIsEnumerable",
    "toString", "toLocaleString", "valueOf", "__proto__",
    "__defineGetter__", "__defineSetter__", "__lookupGetter__", "__lookupSetter__"}

  /** The validation as written: `mapping[p]` is truthy. */
  predicate AcceptedAsWritten(p: string) {
    p in MappingKeys || p in ObjectPrototypeNames
  }

  /** The validation as intended: `p` is one of the mapping's own keys. */
  predicate Accepted(p: string) {
    p in MappingKeys
  }

  /** The first selected key the check refuses. */
  function FirstRefused(keys: seq<string>, accepts: string -> bool): (r: Option<string>)
    ensures r.Some? ==> r.value in keys && !accepts(r.value)
    ensures r.None? ==> forall k :: k in keys ==> accepts(k)
  {
    if |keys| == 0 then None
    else if !accepts(keys[0]) then Some(keys[0])
    else
      var rest := FirstRefused(keys[1..], accepts);
      assert forall k :: k in keys ==> k == keys[0] || k in keys[1..];
      rest
  }

  /** What a run does to the destination tree. `PatchVite(dir)` is a call
      of `patchFileIfExists` on the package's `vite.config.ts`; whether that
      call writes (only when the file exists and the replacer changes it)
      is stated by `PatchFileIfExists`. */
  datatype Action = MakeDestBase | CleanDir(dir: string) | MakeDir(dir: string) | Copy(src: string, dir: string) | PatchVite(dir: string)

  /** How a run ends: its actions, its exit code, and whether it died of
      an uncaught exception. */
  datatype Outcome = Outcome(actions: seq<Action>, code: nat, crashed: bool)

  function Do(a: Action, dryRun: bool): seq<Action> {
    if dryRun then [] else [a]
  }

  /** Only destinations of mapped packages are touched. */
  predicate TouchesMapped(a: Action) {
    a.MakeDestBase? || (exists k :: k in MappingKeys && a.dir == DestOf(k))
  }

  /** The per-package loop: a key with no own mapping entry crashes. For
      an inherited name such as `toString`, `mapping[key].src` is
      `undefined` and `path.join(sourceBase, undefined)` throws; a missing
      source directory exits with 1;
      otherwise the destination is cleaned (or created), the package
      copied, and the Vite config patched. */
  function RunPackages(keys: seq<string>, o: Options, srcExists: string -> bool): (r: Outcome)
    ensures (forall k :: k in keys ==> k in MappingKeys) ==> !r.crashed
    ensures forall a :: a in r.actions ==> TouchesMapped(a)
    ensures !r.crashed && (forall k :: k in keys ==> srcExists(k)) ==> r.code == 0
  {
    if |keys| == 0 then Outcome([], 0, false)
    else
      var key := keys[0];
      if key !in MappingKeys then Outcome([], 1, true)
      else if !srcExists(key) then Outcome([], 1, false)
      else
        var dest := DestOf(key);
        var here := (if o.clean then Do(CleanDir(dest), o.dryRun) else Do(MakeDir(dest), o.dryRun))
          + Do(Copy(key, dest), o.dryRun)
          + (if o.postprocess then Do(PatchVite(dest), o.dryRun) else []);
        assert forall a :: a in here ==> TouchesMapped(a);
        var rest := RunPackages(keys[1..], o, srcExists);
        assert forall k :: k in keys[1..] ==> k in keys;
        Outcome(here + rest.actions, rest.code, rest.crashed)
  }

  /** `main()` after parsing, given the selection, what exists on disk,
      and the key check `accepts`: a refused key or a missing source root
      exits with 1 before anything is touched. */
  function RunSelected(sel: seq<string>, o: Options, sourceExists: bool, srcExists: string -> bool, accepts: string -> bool): (r: Outcome)
    ensures FirstRefused(sel, accepts).Some? || !sourceExists ==> r == Outcome([], 1, false)
  {
    if FirstRefused(sel, accepts).Some? then Outcome([], 1, false)
    else if !sourceExists then Outcome([], 1, false)
    else
      var rest := RunPackages(sel, o, srcExists);
      Outcome(Do(MakeDestBase, o.dryRun) + rest.actions, rest.code, rest.crashed)
  }

  /** `main()` given what exists on disk, with the key check `accepts`:
      a help or parse exit touches nothing; a refused key or a missing
      source root exits with 1 before anything is touched; and whatever
      happens, only the destination base and mapped destinations are
      touched. */
  function Run(argv: seq<string>, sourceExists: bool, srcExists: string -> bool, accepts: string -> bool): (r: Outcome)
    ensures ParseArgs(argv).Exit? ==> r == Outcome([], ParseArgs(argv).code, false)
    ensures ParseArgs(argv).Parsed? ==>
      FirstRefused(Selected(ParseArgs(argv).options.packages), accepts).Some? || !sourceExists ==>
      r == Outcome([], 1, false)
    ensures forall a :: a in r.actions ==> TouchesMapped(a)
  {
    match ParseArgs(argv)
    case Exit(c) => Outcome([], c, false)
    case Parsed(o) => RunSelected(Selected(o.packages), o, sourceExists, srcExists, accepts)
  }

  /** `main()` as written: it touches only mapped destinations, and it
      cannot crash when every selected key is a mapping key; it can
      crash otherwise, see `RunCrashesAfterFirst`. */
  function MainAsWritten(argv: seq<string>, sourceExists: bool, srcExists: string -> bool): (r: Outcome)
    ensures forall a :: a in r.actions ==> TouchesMapped(a)
    ensures ParseArgs(argv).Parsed? ==>
      (forall k :: k in Selected(ParseArgs(argv).options.packages) ==> k in MappingKeys) ==>
      !r.crashed
  {
    Run(argv, sourceExists, srcExists, AcceptedAsWritten)
  }

  /** `main()` with the own-key check: an unknown key exits with 1 before
      anything is touched, no run crashes, and only mapped packages are
      touched. */
  function Main(argv: seq<string>, sourceExists: bool, srcExists: string -> bool): (r: Outcome)
    ensures !r.crashed
    ensures forall a :: a in r.actions ==> TouchesMapped(a)
    ensures ParseArgs(argv).Parsed? && FirstRefused(Selected(ParseArgs(argv).options.packages), Accepted).Some? ==>
      r == Outcome([], 1, false)
  {
    Run(argv, sourceExists, srcExists, Accepted)
  }

  /** A disk on which every package's source directory exists. */
  predicate EveryDirExists(key: string) {
    true
  }

  lemma SplitPair(p: string, q: string, c: char)
    requires c !in p && c !in q
    ensures Split(p + [c] + q, c) == [p, q]
  {
    SplitJoin(p, q, c);
    SplitNoSep(p, c);
    SplitNoSep(q, c);
  }

  /** Every mapping key is a clean name. */
  lemma MappingKeyClean(p: string)
    requires Accepted(p)
    ensures p != "" && IsTrimmed(p) && ',' !in p
  {
    var keys := Selected(None);
    assert keys == MappingKeys;
    var k :| 0 <= k < |keys| && keys[k] == p;
  }

  /** A list of two clean names selects exactly those two. */
  lemma SelectedPair(p: string, q: string)
    requires p != "" && IsTrimmed(p) && ',' !in p
    requires q != "" && IsTrimmed(q) && ',' !in q
    ensures Selected(Some(p + [','] + q)) == [p, q]
  {
    SplitPair(p, q, ',');
    TrimAllPair(p, q);
    NonEmptyPair(p, q);
  }

  lemma TrimAllPair(p: string, q: string)
    requires IsTrimmed(p) && IsTrimmed(q)
    ensures TrimAll([p, q]) == [p, q]
  {
    TrimOfTrimmed(p);
    TrimOfTrimmed(q);
    var parts := TrimAll([p, q]);
    assert |parts| == 2 && parts[0] == p && parts[1] == q;
  }

  lemma NonEmptyPair(p: string, q: string)
    requires p != "" && q != ""
    ensures NonEmpty([p, q]) == [p, q]
  {
    var parts := [p, q];
    assert parts[1..] == [q];
    assert parts[1..][1..] == [];
    assert NonEmpty(parts[1..]) == [q];
  }

  /** `--packages <list>` leaves every other option at its default. */
  lemma PackagesOnly(list: string)
    ensures ParseArgs(["--packages", list]) == Parsed(Defaults.(packages := Some(list)))
  {
    var argv := ["--packages", list];
    assert argv[0] == "--packages" && argv[1] == list && argv[2..] == [];
    assert ParseFrom(argv, Defaults) == ParseFrom([], Defaults.(packages := Some(list)));
  }

  /** The loop over a mapped name followed by a name the own-key check
      refuses: the first is cleaned and copied, then the second crashes. */
  lemma LoopCrashesAfterFirst(p: string, q: string, o: Options)
    requires Accepted(p) && !Accepted(q)
    requires o.clean && !o.dryRun
    ensures var r := RunPackages([p, q], o, EveryDirExists);
      r.crashed && r.actions[0] == CleanDir(DestOf(p))
  {
    assert [p, q][1..] == [q];
    assert RunPackages([q], o, EveryDirExists).crashed;
  }

  /** `--packages <key>,<name>` where `<name>` is inherited by every
      object (say `toString`): the check as written lets the name through,
      so the run creates the destination, cleans and copies the first
      package, and then crashes. */
  lemma PrototypeKeyAccepted(p: string, q: string)
    requires Accepted(p)
    requires q in ObjectPrototypeNames && !Accepted(q) && IsTrimmed(q) && ',' !in q
    ensures var r := MainAsWritten(["--packages", p + [','] + q], true, EveryDirExists);
      && r.crashed
      && |r.actions| >= 2 && r.actions[0] == MakeDestBase && r.actions[1] == CleanDir(DestOf(p))
  {
    MappingKeyClean(p);
    assert q != "" by { assert "" !in ObjectPrototypeNames; }
    var list := p + [','] + q;
    PackagesOnly(list);
    SelectedPair(p, q);
    var o := Defaults.(packages := Some(list));
    RunCrashesAfterFirst(p, q, o);
    assert MainAsWritten(["--packages", list], true, EveryDirExists)
      == RunSelected([p, q], o, true, EveryDirExists, AcceptedAsWritten);
  }

  lemma RunCrashesAfterFirst(p: string, q: string, o: Options)
    requires Accepted(p) && q in ObjectPrototypeNames && !Accepted(q)
    requires o.clean && !o.dryRun
    ensures var r := RunSelected([p, q], o, true, EveryDirExists, AcceptedAsWritten);
      && r.crashed
      && |r.actions| >= 2 && r.actions[0] == MakeDestBase && r.actions[1] == CleanDir(DestOf(p))
  {
    var sel := [p, q];
    assert sel[1..] == [q] && sel[1..][1..] == [];
    assert FirstRefused(sel, AcceptedAsWritten) == None;
    LoopCrashesAfterFirst(p, q, o);
    var tail := RunPackages(sel, o, EveryDirExists);
    var r := RunSelected(sel, o, true, EveryDirExists, AcceptedAsWritten);
    assert r.actions == [MakeDestBase] + tail.actions;
  }

  /** With the own-key check the same command exits with 1 and touches
      nothing. */
  lemma PrototypeKeyRefused(p: string, q: string)
    requires Accepted(p)
    requires q in ObjectPrototypeNames && !Accepted(q) && IsTrimmed(q) && ',' !in q
    ensures Main(["--packages", p + [','] + q], true, EveryDirExists) == Outcome([], 1, false)
  {
    MappingKeyClean(p);
    assert q != "" by { assert "" !in ObjectPrototypeNames; }
    PackagesOnly(p + [','] + q);
    SelectedPair(p, q);
    assert [p, q][1..] == [q];
    assert FirstRefused([p, q], Accepted) == Some(q);
  }

  /** `common,toString` is such a list. */
  lemma ToStringExample()
    ensures Accepted("common")
    ensures "toString" in ObjectPrototypeNames && !Accepted("toString") && IsTrimmed("toString") && ',' !in "toString"
  {
    assert "common" == MappingKeys[0];
    assert "toString"[0] != "realtime"[0];
  }

  /** The directory names the copy skips at any depth. */
  predicate IsIgnored(name: string) {
    name in {"node_modules", "dist", "coverage", ".vite", ".turbo", ".DS_Store"}
  }

  function AnyIgnored(parts: seq<string>): (r: bool)
    ensures r <==> exists k :: 0 <= k < |parts| && IsIgnored(parts[k])
  {
    if |parts| == 0 then false
    else if IsIgnored(parts[0]) then true
    else
      var rest := AnyIgnored(parts[1..]);
      assert forall k :: 1 <= k < |parts| ==> parts[k] == parts[1..][k - 1];
      rest
  }

  /** No segment of a path names an ignored directory. */
  predicate NoneIgnored(parts: seq<string>) {
    forall k :: 0 <= k < |parts| ==> !IsIgnored(parts[k])
  }

  /** The copy filter on a path relative to the package: the package root
      itself passes; any path with an ignored segment is refused. */
  function CopyFilter(rel: string): (r: bool)
    ensures rel == "" ==> r
    ensures rel != "" ==> (r <==> NoneIgnored(Split(rel, '/')))
  {
    rel == "" || !AnyIgnored(Split(rel, '/'))
  }

  /** A refused directory refuses everything below it. */
  lemma IgnoredSubtree(dir: string, below: string)
    requires !CopyFilter(dir)
    ensures !CopyFilter(dir + "/" + below)
  {
    SplitJoin(dir, below, '/');
    var parts := Split(dir, '/');
    var k :| 0 <= k < |parts| && IsIgnored(parts[k]);
    assert Split(dir + "/" + below, '/')[k] == parts[k];
  }

  /** The result of `patchFileIfExists`: whether it reports a change, and
      the content written, if any. */
  datatype PatchResult = PatchResult(changed: bool, written: Option<string>)

  /** `patchFileIfExists(file, replacer)`: nothing for a missing file or
      an unchanged content; otherwise `true`, and the new content is
      written unless this is a dry run. */
  function PatchFileIfExists(present: bool, before: string, replacer: string -> string, dryRun: bool): (r: PatchResult)
    ensures !present || replacer(before) == before ==> r == PatchResult(false, None)
    ensures present && replacer(before) != before ==>
      r.changed && r.written == (if dryRun then None else Some(replacer(before)))
    ensures r.written.Some? ==> r.written.value != before
  {
    if !present then PatchResult(false, None)
    else
      var after := replacer(before);
      if after == before then PatchResult(false, None)
      else if dryRun then PatchResult(true, None)
      else PatchResult(true, Some(after))
  }

  /** With an idempotent replacer, a second run finds nothing to patch. */
  lemma PatchSettles(before: string, replacer: string -> string)
    requires replacer(replacer(before)) == replacer(before)
    ensures var first := PatchFileIfExists(true, before, replacer, false);
      first.written.Some? ==> !PatchFileIfExists(true, first.written.value, replacer, false).changed
  {
  }
}

=== FILE: text.dfy ===
/** The JavaScript string operations the components rely on:
    `String.prototype.trim`, `toLowerCase` (ASCII letters only),
    `split(c)[0]`, `split(c).filter(Boolean)` and `includes`. */
module Text {

  /** The characters `String.prototype.trim` removes: the ECMAScript
      WhiteSpace and LineTerminator code points. */
  predicate IsJsSpace(c: char) {
    c == ' ' || c == '\t' || c == '\n' || c == '\r' || c == '\U{000B}' || c == '\U{000C}'
    || c == '\U{00A0}' || c == '\U{1680}' || ('\U{2000}' <= c <= '\U{200A}')
    || c == '\U{2028}' || c == '\U{2029}' || c == '\U{202F}' || c == '\U{205F}'
    || c == '\U{3000}' || c == '\U{FEFF}'
  }

  function TrimStart(s: string): (r: string)
    ensures |r| <= |s| && r == s[|s| - |r|..]
    ensures forall i :: 0 <= i < |s| - |r| ==> IsJsSpace(s[i])
    ensures |r| > 0 ==> !IsJsSpace(r[0])
  {
    if |s| > 0 && IsJsSpace(s[0]) then TrimStart(s[1..]) else s
  }

  function TrimEnd(s: string): (r: string)
    ensures |r| <= |s| && r == s[..|r|]
    ensures forall i :: |r| <= i < |s| ==> IsJsSpace(s[i])
    ensures |r| > 0 ==> !IsJsSpace(r[|r| - 1])
  {
    if |s| > 0 && IsJsSpace(s[|s| - 1]) then TrimEnd(s[..|s| - 1]) else s
  }

  /** `s.trim()`. */
  function Trim(s: string): string {
    TrimEnd(TrimStart(s))
  }

  /** A string is trimmed when it neither starts nor ends with white space. */
  predicate IsTrimmed(s: string) {
    |s| == 0 || (!IsJsSpace(s[0]) && !IsJsSpace(s[|s| - 1]))
  }

  /** `trim` removes exactly the leading and trailing white space: the
      result is a trimmed infix of the input and every removed character is
      white space. */
  lemma TrimSpec(s: string)
    ensures IsTrimmed(Trim(s))
    ensures exists a, b :: (0 <= a <= b <= |s| && Trim(s) == s[a..b]
      && (forall i :: 0 <= i < a ==> IsJsSpace(s[i]))
      && (forall i :: b <= i < |s| ==> IsJsSpace(s[i])))
  {
    var t := TrimStart(s);
    var r := TrimEnd(t);
    var a := |s| - |t|;
    var b := a + |r|;
    assert r == s[a..b] by {
      assert t == s[a..] && r == t[..|r|];
    }
    if |r| > 0 {
      assert r[0] == t[0];
    }
    forall i | b <= i < |s|
      ensures IsJsSpace(s[i])
    {
      assert s[i] == t[i - a];
    }
    assert forall i :: 0 <= i < a ==> IsJsSpace(s[i]);
    assert 0 <= a <= b <= |s|;
  }

  lemma TrimStartOfTrimmed(s: string)
    requires IsTrimmed(s)
    ensures TrimStart(s) == s
  {
  }

  lemma TrimEndOfTrimmed(s: string)
    requires IsTrimmed(s)
    ensures TrimEnd(s) == s
  {
  }

  /** Trimming a trimmed string changes nothing; hence `trim` is idempotent. */
  lemma TrimIdempotent(s: string)
    ensures Trim(Trim(s)) == Trim(s)
  {
    TrimSpec(s);
    TrimStartOfTrimmed(Trim(s));
    TrimEndOfTrimmed(Trim(s));
  }

  /** A trimmed string is its own trim. */
  lemma TrimOfTrimmed(s: string)
    requires IsTrimmed(s)
    ensures Trim(s) == s
  {
    TrimStartOfTrimmed(s);
    TrimEndOfTrimmed(s);
  }

  /** `trim()` yields the empty string exactly when every character is
      white space, i.e. the string is blank. */
  predicate IsBlank(s: string) {
    forall i :: 0 <= i < |s| ==> IsJsSpace(s[i])
  }

  lemma TrimEmptyIffBlank(s: string)
    ensures Trim(s) == "" <==> IsBlank(s)
  {
    var t := TrimStart(s);
    if Trim(s) == "" {
      assert forall i :: |s| - |t| <= i < |s| ==> s[i] == t[i - (|s| - |t|)];
    }
  }

  function LowerChar(c: char): char {
    if 'A' <= c <= 'Z' then (c as int + 32) as char else c
  }

  /** `toLowerCase()` restricted to ASCII letters. */
  function ToLower(s: string): (r: string)
    ensures |r| == |s|
    ensures forall i :: 0 <= i < |s| ==> r[i] == LowerChar(s[i])
  {
    seq(|s|, i requires 0 <= i < |s| => LowerChar(s[i]))
  }

  /** Lower-casing twice is lower-casing once. */
  lemma ToLowerIdempotent(s: string)
    ensures ToLower(ToLower(s)) == ToLower(s)
  {
    assert forall i :: 0 <= i < |s| ==> LowerChar(LowerChar(s[i])) == LowerChar(s[i]);
  }

  /** Lower-casing neither creates nor removes white space, and a
      character other than an ASCII capital only maps to itself. */
  lemma ToLowerKeeps(s: string)
    ensures IsTrimmed(s) ==> IsTrimmed(ToLower(s))
    ensures forall c :: !('A' <= c <= 'Z') && !('a' <= c <= 'z') ==> (c in ToLower(s) <==> c in s)
  {
    forall c | !('A' <= c <= 'Z') && !('a' <= c <= 'z')
      ensures c in ToLower(s) <==> c in s
    {
      if c in ToLower(s) {
        var i :| 0 <= i < |ToLower(s)| && ToLower(s)[i] == c;
        assert s[i] == c;
      }
      if c in s {
        var i :| 0 <= i < |s| && s[i] == c;
        assert ToLower(s)[i] == c;
      }
    }
  }

  /** Index of the first `c` in `s`, or `|s|` when there is none. */
  function IndexOf(s: string, c: char): (i: nat)
    ensures i <= |s|
    ensures i < |s| ==> s[i] == c
    ensures forall j :: 0 <= j < i ==> s[j] != c
  {
    if |s| == 0 then 0
    else if s[0] == c then 0
    else 1 + IndexOf(s[1..], c)
  }

  /** `s.split(c)[0]`: everything before the first `c`. */
  function BeforeFirst(s: string, c: char): (r: string)
    ensures c !in r
    ensures r <= s
    ensures c !in s ==> r == s
    ensures forall ch :: ch in r ==> ch in s
  {
    s[..IndexOf(s, c)]
  }

  /** `s.split(c)`. */
  function Split(s: string, c: char): (parts: seq<string>)
    ensures |parts| >= 1
    ensures forall k :: 0 <= k < |parts| ==> c !in parts[k]
    ensures forall k, ch :: 0 <= k < |parts| && ch in parts[k] ==> ch in s
    decreases |s|
  {
    var i := IndexOf(s, c);
    if i == |s| then [s] else
      var rest := Split(s[i + 1..], c);
      assert forall ch :: ch in s[i + 1..] ==> ch in s;
      assert forall ch :: ch in s[..i] ==> ch in s;
      [s[..i]] + rest
  }

  /** `xs.filter(Boolean)` on strings: drops the empty ones. */
  function NonEmpty(xs: seq<string>): (r: seq<string>)
    ensures |r| <= |xs|
    ensures forall k :: 0 <= k < |r| ==> r[k] != "" && r[k] in xs
    ensures forall x :: x in xs && x != "" ==> x in r
  {
    if |xs| == 0 then []
    else if xs[0] == "" then NonEmpty(xs[1..])
    else [xs[0]] + NonEmpty(xs[1..])
  }

  /** `s.split(c).filter(Boolean)`. */
  function Segments(s: string, c: char): (r: seq<string>)
    ensures forall k :: 0 <= k < |r| ==> r[k] != "" && c !in r[k]
    ensures forall k, ch :: 0 <= k < |r| && ch in r[k] ==> ch in s
  {
    NonEmpty(Split(s, c))
  }

  /** `s.includes(sub)`. */
  predicate Contains(s: string, sub: string) {
    sub <= s || (|s| > 0 && Contains(s[1..], sub))
  }

  /** `IndexOf` is the first occurrence, or the length. */
  lemma IndexOfIs(s: string, c: char, i: nat)
    requires i <= |s| && (i < |s| ==> s[i] == c)
    requires forall j :: 0 <= j < i ==> s[j] != c
    ensures IndexOf(s, c) == i
  {
  }

  lemma AppendAssoc<T>(x: seq<T>, y: seq<T>, z: seq<T>)
    ensures x + (y + z) == (x + y) + z
  {
  }

  /** `SplitJoin` when `a` holds no separator. */
  lemma SplitJoinBase(a: string, b: string, c: char)
    requires IndexOf(a, c) == |a|
    ensures Split(a + [c] + b, c) == [a] + Split(b, c)
    ensures Split(a, c) == [a]
  {
    var s := a + [c] + b;
    IndexOfIs(s, c, |a|);
    assert s[..|a|] == a;
    assert s[|a| + 1..] == b;
  }

  /** `SplitJoin` when `a` holds a separator at `i`: both sides split off
      `a[..i]` first. */
  lemma SplitJoinStep(a: string, b: string, c: char, i: nat)
    requires i == IndexOf(a, c) && i < |a|
    ensures Split(a + [c] + b, c) == [a[..i]] + Split(a[i + 1..] + [c] + b, c)
    ensures Split(a, c) == [a[..i]] + Split(a[i + 1..], c)
  {
    var s := a + [c] + b;
    IndexOfIs(s, c, i);
    assert s[..i] == a[..i];
    assert s[i + 1..] == a[i + 1..] + [c] + b;
  }

  /** Splitting at an inserted separator splits the two sides apart. */
  lemma {:induction false} SplitJoin(a: string, b: string, c: char)
    ensures Split(a + [c] + b, c) == Split(a, c) + Split(b, c)
    decreases |a|
  {
    var i := IndexOf(a, c);
    if i == |a| {
      SplitJoinBase(a, b, c);
    } else {
      SplitJoinStep(a, b, c, i);
      SplitJoin(a[i + 1..], b, c);
      AppendAssoc([a[..i]], Split(a[i + 1..], c), Split(b, c));
    }
  }

  /** A string without the separator splits into itself. */
  lemma SplitNoSep(s: string, c: char)
    requires c !in s
    ensures Split(s, c) == [s]
  {
    IndexOfIs(s, c, |s|);
  }
}

=== FILE: toolbar.dfy ===
/** The right-hand toolbar of the Live2D screen
    (packages/project-neko-components/src/Live2DRightToolbar/Live2DRightToolbar.tsx):
    which buttons it shows, what a click requests, where it sits, and the
    small machine that keeps a panel on screen while its exit animation
    plays. The open panel belongs to the parent (a prop); every
    `onOpenPanelChange` call is recorded in order, and the 240 ms close
    timer firing is an explicit event. */
module Toolbar {
  import opened Wrappers
  import opened JsNumber

  datatype Panel = AgentPanel | SettingsPanel

  datatype ButtonId = Mic | Screen | AgentButton | Settings | Goodbye | Return

  /** The closing panel and the panel whose close timer is pending. */
  datatype Bar = Bar(closing: Option<Panel>, timer: Option<Panel>)

  const InitialBar := Bar(None, None)

  /** The effect of an event: the bar afterwards and the panels requested
      from the parent, in order (`None` asks to close). */
  datatype Step = Step(bar: Bar, requests: seq<Option<Panel>>)

  /** A pending timer always belongs to the panel marked as closing. */
  predicate Inv(b: Bar) {
    b.timer.Some? ==> b.closing == b.timer
  }

  /** `startClose(panel)`: mark it closing, ask the parent to close, and
      restart the close timer for it. */
  function StartClose(b: Bar, p: Panel): (r: Step)
    ensures r.bar == Bar(Some(p), Some(p)) && r.requests == [None]
    ensures Inv(r.bar)
  {
    Step(Bar(Some(p), Some(p)), [None])
  }

  /** `togglePanel(panel)` while `open` is the parent's open panel. */
  function TogglePanel(b: Bar, open: Option<Panel>, p: Panel): (r: Step)
    ensures open == Some(p) ==> r.requests == [None] && r.bar.closing == Some(p)
    ensures open.None? ==> r == Step(b, [Some(p)])
    ensures open.Some? && open != Some(p) ==>
      r.requests == [None, Some(p)] && r.bar.closing == open
    ensures |r.requests| > 0 && r.requests[|r.requests| - 1] == (if open == Some(p) then None else Some(p))
  {
    if open == Some(p) then StartClose(b, p)
    else if open.Some? then
      var s := StartClose(b, open.value);
      Step(s.bar, s.requests + [Some(p)])
    else Step(b, [Some(p)])
  }

  /** A document-level pointer press. `mounted` says whether the toolbar's
      root element exists (it does not while the toolbar is hidden, yet the
      listener stays registered); `inside` says whether the press target
      lies within that root. Only a press outside a mounted toolbar closes
      the open panel, if any; every other press does nothing. */
  function PointerDownOutside(b: Bar, open: Option<Panel>, mounted: bool, inside: bool): (r: Step)
    ensures !mounted || open.None? || inside ==> r == Step(b, [])
    ensures mounted && open.Some? && !inside ==> r == StartClose(b, open.value)
    ensures |r.requests| > 0 <==> mounted && open.Some? && !inside
  {
    if !mounted then Step(b, [])
    else if open.None? then Step(b, [])
    else if inside then Step(b, [])
    else StartClose(b, open.value)
  }

  /** The close timer fires: the closing mark is cleared only if it still
      names the panel that started the timer. */
  function TimerFires(b: Bar): (r: Bar)
    ensures r.timer.None?
    ensures b.timer.Some? && b.closing == b.timer ==> r.closing.None?
    ensures b.timer.Some? && b.closing != b.timer ==> r.closing == b.closing
    ensures b.timer.None? ==> r == b
  {
    match b.timer
    case None => b
    case Some(p) => Bar(if b.closing == Some(p) then None else b.closing, None)
  }

  /** Every event keeps the timer and the closing mark in step, so a
      firing timer always ends the exit animation it started. */
  lemma InvPreserved(b: Bar, open: Option<Panel>, p: Panel, mounted: bool, inside: bool)
    requires Inv(b)
    ensures Inv(TogglePanel(b, open, p).bar)
    ensures Inv(PointerDownOutside(b, open, mounted, inside).bar)
    ensures Inv(TimerFires(b))
    ensures b.timer.Some? ==> TimerFires(b).closing.None?
  {
  }

  /** Whether a panel is on screen: open, or playing its exit animation. */
  predicate PanelShown(b: Bar, open: Option<Panel>, p: Panel) {
    open == Some(p) || b.closing == Some(p)
  }

  /** Closing the open panel keeps it on screen (exiting) until the timer
      fires, and then removes it. */
  lemma CloseAnimates(b: Bar, p: Panel)
    requires Inv(b)
    ensures var s := TogglePanel(b, Some(p), p);
      && PanelShown(s.bar, None, p)
      && !PanelShown(TimerFires(s.bar), None, p)
  {
  }

  /** The rendered buttons: just the return button in goodbye mode,
      otherwise mic, screen, agent, settings, goodbye with agent and
      goodbye hidden on mobile; nothing when the toolbar is invisible. */
  function Buttons(visible: bool, goodbyeMode: bool, isMobile: bool): (r: seq<ButtonId>)
    ensures !visible ==> r == []
    ensures visible && goodbyeMode ==> r == [Return]
    ensures visible && !goodbyeMode ==> Mic in r && Screen in r && Settings in r && Return !in r
    ensures visible && !goodbyeMode ==> (AgentButton in r <==> !isMobile) && (Goodbye in r <==> !isMobile)
  {
    if !visible then []
    else if goodbyeMode then [Return]
    else Visible([Mic, Screen, AgentButton, Settings, Goodbye], isMobile)
  }

  /** `.filter((b) => !b.hidden)`. */
  function Visible(all: seq<ButtonId>, isMobile: bool): (r: seq<ButtonId>)
    ensures forall x :: x in r <==> x in all && !(isMobile && (x == AgentButton || x == Goodbye))
  {
    if |all| == 0 then []
    else
      var rest := Visible(all[1..], isMobile);
      assert forall x :: x in all <==> x == all[0] || x in all[1..];
      if isMobile && (all[0] == AgentButton || all[0] == Goodbye) then rest else [all[0]] + rest
  }

  /** On a desktop no button is hidden. */
  lemma {:induction false} VisibleDesktop(all: seq<ButtonId>)
    ensures Visible(all, false) == all
  {
    if |all| > 0 {
      VisibleDesktop(all[1..]);
      assert all == [all[0]] + all[1..];
    }
  }

  /** One step of the filter. */
  lemma VisibleStep(x: ButtonId, rest: seq<ButtonId>, isMobile: bool)
    ensures Visible([x] + rest, isMobile)
      == (if isMobile && (x == AgentButton || x == Goodbye) then [] else [x]) + Visible(rest, isMobile)
  {
    assert ([x] + rest)[1..] == rest;
  }

  /** The order on a desktop and on a phone. */
  lemma ButtonOrder()
    ensures Buttons(true, false, false) == [Mic, Screen, AgentButton, Settings, Goodbye]
    ensures Buttons(true, false, true) == [Mic, Screen, Settings]
  {
    VisibleDesktop([Mic, Screen, AgentButton, Settings, Goodbye]);
    assert Visible([Goodbye], true) == [] by {
      VisibleStep(Goodbye, [], true);
    }
    assert Visible([Settings, Goodbye], true) == [Settings] by {
      VisibleStep(Settings, [Goodbye], true);
    }
    assert Visible([AgentButton, Settings, Goodbye], true) == [Settings] by {
      VisibleStep(AgentButton, [Settings, Goodbye], true);
    }
    assert Visible([Screen, AgentButton, Settings, Goodbye], true) == [Screen, Settings] by {
      VisibleStep(Screen, [AgentButton, Settings, Goodbye], true);
    }
    assert Visible([Mic, Screen, AgentButton, Settings, Goodbye], true) == [Mic, Screen, Settings] by {
      VisibleStep(Mic, [Screen, AgentButton, Settings, Goodbye], true);
    }
  }

  /** What a click asks of the parent. */
  datatype Action = SetMic(on: bool) | SetScreen(on: bool) | TogglePanelAction(panel: Panel) | LeaveAction | ReturnAction

  function Click(id: ButtonId, micEnabled: bool, screenEnabled: bool): (a: Action)
    ensures id == Mic ==> a == SetMic(!micEnabled)
    ensures id == Screen ==> a == SetScreen(!screenEnabled)
  {
    match id
    case Mic => SetMic(!micEnabled)
    case Screen => SetScreen(!screenEnabled)
    case AgentButton => TogglePanelAction(AgentPanel)
    case Settings => TogglePanelAction(SettingsPanel)
    case Goodbye => LeaveAction
    case Return => ReturnAction
  }

  /** Clicking the mic (or screen) button twice, re-rendered in between,
      comes back to the starting flag. */
  lemma ClickTwiceRestores(mic: bool, screen: bool)
    ensures Click(Mic, Click(Mic, mic, screen).on, screen) == SetMic(mic)
    ensures Click(Screen, mic, Click(Screen, mic, screen).on) == SetScreen(screen)
  {
  }

  /** The vertical anchor of the toolbar. */
  datatype Vertical = Top(top: Num) | Bottom(bottom: Num)

  datatype Style = Style(right: Num, vertical: Vertical)

  const DefaultRight := 460.0
  const DefaultBottom := 320.0

  /** `containerStyle`: `top` when it is a number, otherwise `bottom`
      (320 when it is not a number); `right` defaults to 460. A prop
      that is not a number is `None`. */
  function ContainerStyle(right: Option<Num>, top: Option<Num>, bottom: Option<Num>): (s: Style)
    ensures s.right == right.GetOr(Finite(DefaultRight))
    ensures top.Some? ==> s.vertical == Top(top.value)
    ensures top.None? ==> s.vertical == Bottom(bottom.GetOr(Finite(DefaultBottom)))
  {
    Style(right.GetOr(Finite(DefaultRight)),
      if top.Some? then Top(top.value) else Bottom(bottom.GetOr(Finite(DefaultBottom))))
  }

  /** The style anchors the toolbar at exactly one edge: a numeric `top`
      wins and makes `bottom` irrelevant, and without one the toolbar is
      anchored at the bottom; `right` never affects the vertical anchor. */
  lemma ContainerStyleAnchors(right: Option<Num>, right2: Option<Num>, t: Num, b1: Option<Num>, b2: Option<Num>)
    ensures ContainerStyle(right, Some(t), b1) == ContainerStyle(right, Some(t), b2)
    ensures ContainerStyle(right, Some(t), b1).vertical.Top?
    ensures ContainerStyle(right, None, b1).vertical.Bottom?
    ensures ContainerStyle(right, None, b1).vertical == ContainerStyle(right2, None, b1).vertical
  {
  }
}

=== FILE: types.dfy ===
/** The shapes shared by the Live2D service and its adapters
    (packages/project-neko-live2d-service/src/types.ts). Optional metadata
    fields (`source`, `id`, `meta`, motion `index`/`priority`) travel
    through the service untouched and are not represented. */
module Live2DTypes {
  import opened Wrappers
  import opened JsNumber

  datatype ModelRef = ModelRef(uri: string)
  datatype MotionRef = MotionRef(group: string)
  datatype ExpressionRef = ExpressionRef(id: string)

  datatype Vec2 = Vec2(x: Num, y: Num)

  /** `scale?: number | Vec2`. */
  datatype Scale = Uniform(s: Num) | PerAxis(v: Vec2)

  datatype Transform = Transform(position: Option<Vec2>, scale: Option<Scale>)

  /** An argument as it reaches a service entry point: not an object at
      all, an object lacking the required string field, or a well-formed
      value. */
  datatype Arg<T> = NotAnObject | Malformed | Valid(value: T)

  datatype Status = Idle | Loading | Ready | Error

  /** An opaque thrown value (the `cause` of a failure). */
  type Cause = nat

  /** `Live2DError`; the human-readable message is not represented. */
  datatype LiveError = LiveError(code: string, cause: Option<Cause>)

  datatype State = State(status: Status, model: Option<ModelRef>, error: Option<LiveError>)

  /** `Live2DEvents`: one constructor per event name with its payload. */
  datatype Event =
    | StateChanged(prev: State, next: State)
    | ModelLoaded(model: ModelRef)
    | ModelUnloaded(prevModel: Option<ModelRef>)
    | Tap(x: real, y: real)
    | MotionFinished(motion: Option<MotionRef>)
    | ErrorRaised(err: LiveError)
}

=== FILE: webapp.dfy ===
/** The pure logic of the single-page web shell (app/webapp.tsx): base-URL
    clean-up, `{name}` template interpolation, dictionary lookup with a
    fallback, the modal dialog's promise resolution, and the status
    toast's show/hide guard. Rendering, animation and the dictionaries'
    contents are not modelled; a dictionary is a parameter. */
module WebApp {
  import opened Wrappers
  import opened JsNumber
  import opened Text

  /** The longest prefix of `s` that does not end in `c`. */
  function DropTrailing(s: string, c: char): (r: string)
    ensures |r| <= |s| && r == s[..|r|]
    ensures |r| > 0 ==> r[|r| - 1] != c
    ensures forall i :: |r| <= i < |s| ==> s[i] == c
  {
    if |s| > 0 && s[|s| - 1] == c then DropTrailing(s[..|s| - 1], c) else s
  }

  /** `trimTrailingSlash(url)`: `''` for a missing or empty URL, otherwise
      the URL with every trailing `/` removed. */
  function TrimTrailingSlash(url: Option<string>): (r: string)
    ensures url.None? ==> r == ""
    ensures url.Some? ==> |r| <= |url.value| && r == url.value[..|r|] && (forall i :: |r| <= i < |url.value| ==> url.value[i] == '/')
    ensures |r| > 0 ==> r[|r| - 1] != '/'
  {
    if url.None? || url.value == "" then "" else DropTrailing(url.value, '/')
  }

  /** `k` slashes. */
  function Slashes(k: nat): (r: string)
    ensures |r| == k && forall i :: 0 <= i < k ==> r[i] == '/'
  {
    if k == 0 then "" else Slashes(k - 1) + "/"
  }

  /** Any run of trailing slashes is removed, and nothing more: a URL not
      ending in `/` comes back from itself followed by slashes. */
  lemma {:induction false} TrimTrailingSlashInverse(u: string, k: nat)
    requires |u| == 0 || u[|u| - 1] != '/'
    ensures TrimTrailingSlash(Some(u + Slashes(k))) == u
  {
    if k > 0 {
      var s := u + Slashes(k);
      assert s[..|s| - 1] == u + Slashes(k - 1);
      TrimTrailingSlashInverse(u, k - 1);
    }
  }

  /** Trimming twice is trimming once. */
  lemma TrimTrailingSlashIdempotent(url: Option<string>)
    ensures TrimTrailingSlash(Some(TrimTrailingSlash(url))) == TrimTrailingSlash(url)
  {
  }

  /** A template parameter: `null`/`undefined` (also a missing key), or a
      value shown as `String(v)`. */
  datatype Val = NullValue | Shown(text: string)

  /** `\w`. */
  predicate IsWordChar(c: char) {
    ('a' <= c <= 'z') || ('A' <= c <= 'Z') || ('0' <= c <= '9') || c == '_'
  }

  /** The length of the run of word characters at the start of `s`. */
  function WordRun(s: string): (n: nat)
    ensures n <= |s|
    ensures forall i :: 0 <= i < n ==> IsWordChar(s[i])
    ensures n < |s| ==> !IsWordChar(s[n])
  {
    if |s| > 0 && IsWordChar(s[0]) then 1 + WordRun(s[1..]) else 0
  }

  /** The text a `{name}` placeholder becomes. */
  function Lookup(params: map<string, Val>, name: string): string {
    if name in params && params[name].Shown? then params[name].text else ""
  }

  /** No character of `t` is `{`. */
  predicate NoOpenBrace(t: string) {
    |t| == 0 || (t[0] != '{' && NoOpenBrace(t[1..]))
  }

  /** `template.replace(/\{(\w+)\}/g, …)`: scanning left to right, each
      `{` followed by one or more word characters and `}` is replaced by
      the named parameter; every other character is kept. Text with no
      `{` comes back unchanged. */
  function Replace(t: string, params: map<string, Val>): (r: string)
    ensures NoOpenBrace(t) ==> r == t
    decreases |t|
  {
    if |t| == 0 then ""
    else if t[0] == '{' && 0 < WordRun(t[1..]) && 1 + WordRun(t[1..]) < |t| && t[1 + WordRun(t[1..])] == '}' then
      var n := WordRun(t[1..]);
      Lookup(params, t[1..1 + n]) + Replace(t[n + 2..], params)
    else [t[0]] + Replace(t[1..], params)
  }

  /** `interpolate(template, params)`: the template itself without
      parameters. */
  function Interpolate(t: string, params: Option<map<string, Val>>): (r: string)
    ensures params.None? ==> r == t
  {
    if params.None? then t else Replace(t, params.value)
  }

  /** Text without `{` passes through interpolation unchanged and is not
      merged into a later placeholder. */
  lemma {:induction false} ReplaceAppend(a: string, b: string, params: map<string, Val>)
    requires '{' !in a
    ensures Replace(a + b, params) == a + Replace(b, params)
  {
    if |a| == 0 {
      assert a + b == b;
    } else {
      assert (a + b)[0] != '{' by {
        assert (a + b)[0] == a[0] && a[0] in a;
      }
      ReplaceKeeps(a + b, params);
      assert '{' !in a[1..] by {
        assert forall c :: c in a[1..] ==> c in a;
      }
      ReplaceAppend(a[1..], b, params);
      assert (a + b)[1..] == a[1..] + b;
      assert a == [a[0]] + a[1..];
    }
  }

  /** A leading character other than `{` is copied. */
  lemma ReplaceKeeps(t: string, params: map<string, Val>)
    requires |t| > 0 && t[0] != '{'
    ensures Replace(t, params) == [t[0]] + Replace(t[1..], params)
  {
  }

  /** A placeholder `{name}` is replaced by the parameter's text, `''`
      for null, undefined or a missing key. */
  lemma Placeholder(name: string, rest: string, params: map<string, Val>)
    requires |name| > 0 && forall i :: 0 <= i < |name| ==> IsWordChar(name[i])
    ensures Replace("{" + name + "}" + rest, params) == Lookup(params, name) + Replace(rest, params)
  {
    var t := "{" + name + "}" + rest;
    assert t[1..] == name + "}" + rest;
    WordRunOf(name, "}" + rest);
    assert t[0] == '{' && t[1 + |name|] == '}';
    assert t[1..1 + |name|] == name;
    assert t[|name| + 2..] == rest;
  }

  lemma {:induction false} WordRunOf(w: string, rest: string)
    requires forall i :: 0 <= i < |w| ==> IsWordChar(w[i])
    requires |rest| > 0 && !IsWordChar(rest[0])
    ensures WordRun(w + rest) == |w|
  {
    if |w| > 0 {
      assert (w + rest)[1..] == w[1..] + rest;
      WordRunOf(w[1..], rest);
    }
  }

  /** The lookup `useT(language)` returns: the key itself when the
      dictionary has no (or an empty) entry, otherwise the entry
      interpolated. */
  function Translate(dict: map<string, string>, key: string, params: Option<map<string, Val>>): (r: string)
    ensures key !in dict || dict[key] == "" ==> r == key
    ensures key in dict && dict[key] != "" ==> r == Interpolate(dict[key], params)
  {
    var raw := if key in dict then dict[key] else "";
    if raw != "" then Interpolate(raw, params) else key
  }

  /** `tOrDefault(t, key, fallback, params)` given what the translator
      returned (`None` when it threw): the translation when it is
      non-empty and not the key, otherwise the interpolated fallback. */
  function TOrDefault(translated: Option<string>, key: string, fallback: string, params: Option<map<string, Val>>): (r: string)
    ensures translated.Some? && translated.value != "" && translated.value != key ==> r == translated.value
    ensures !(translated.Some? && translated.value != "" && translated.value != key) ==> r == Interpolate(fallback, params)
  {
    if translated.Some? && translated.value != "" && translated.value != key then translated.value
    else Interpolate(fallback, params)
  }

  /** With the shell's own translator, a key missing from the dictionary
      always yields the fallback, and an entry that does not interpolate
      to its key yields the entry. */
  lemma TOrDefaultWithDictionary(dict: map<string, string>, key: string, fallback: string, params: Option<map<string, Val>>)
    ensures var r := TOrDefault(Some(Translate(dict, key, params)), key, fallback, params);
      && (key !in dict ==> r == Interpolate(fallback, params))
      && (key in dict && Interpolate(dict[key], params) != key && Interpolate(dict[key], params) != "" ==>
            r == Interpolate(dict[key], params))
  {
  }

  datatype DialogType = AlertDialog | ConfirmDialog | PromptDialog

  /** What a pending dialog promise is resolved with, if anything. */
  datatype Resolution = Unresolved | ResolvedBool(b: bool) | ResolvedNull | ResolvedText(s: string)

  /** The modal's state: open flag, config type, and whether a promise is
      waiting. */
  datatype Dialog = Dialog(isOpen: bool, config: Option<DialogType>, hasResolver: bool)

  const ClosedDialog := Dialog(false, None, false)

  datatype DialogStep = DialogStep(dialog: Dialog, resolution: Resolution)

  /** `createDialog(config)`: a new promise replaces whatever was
      pending. */
  function OpenDialog(t: DialogType): (d: Dialog)
    ensures d.isOpen && d.config == Some(t) && d.hasResolver
  {
    Dialog(true, Some(t), true)
  }

  /** `closeDialog()` (backdrop or back button): prompt resolves `null`,
      confirm `false`, alert `true`; nothing without a pending promise or
      config. Always ends closed. */
  function CloseDialog(d: Dialog): (r: DialogStep)
    ensures r.dialog == ClosedDialog
    ensures !(d.hasResolver && d.config.Some?) ==> r.resolution == Unresolved
    ensures d.hasResolver && d.config == Some(PromptDialog) ==> r.resolution == ResolvedNull
    ensures d.hasResolver && d.config == Some(ConfirmDialog) ==> r.resolution == ResolvedBool(false)
    ensures d.hasResolver && d.config == Some(AlertDialog) ==> r.resolution == ResolvedBool(true)
  {
    var res :=
      if !(d.hasResolver && d.config.Some?) then Unresolved
      else match d.config.value
        case PromptDialog => ResolvedNull
        case ConfirmDialog => ResolvedBool(false)
        case AlertDialog => ResolvedBool(true);
    DialogStep(ClosedDialog, res)
  }

  /** `handleConfirm(value)`: prompt resolves `value ?? ''`, anything else
      `true`. Always ends closed. */
  function HandleConfirm(d: Dialog, value: Option<string>): (r: DialogStep)
    ensures r.dialog == ClosedDialog
    ensures !d.hasResolver ==> r.resolution == Unresolved
    ensures d.hasResolver && d.config == Some(PromptDialog) ==> r.resolution == ResolvedText(value.GetOr(""))
    ensures d.hasResolver && d.config != Some(PromptDialog) ==> r.resolution == ResolvedBool(true)
  {
    var res :=
      if !d.hasResolver then Unresolved
      else if d.config == Some(PromptDialog) then ResolvedText(value.GetOr(""))
      else ResolvedBool(true);
    DialogStep(ClosedDialog, res)
  }

  /** `handleCancel()`: prompt resolves `null`, anything else `false`.
      Always ends closed. */
  function HandleCancel(d: Dialog): (r: DialogStep)
    ensures r.dialog == ClosedDialog
    ensures !d.hasResolver ==> r.resolution == Unresolved
    ensures d.hasResolver && d.config == Some(PromptDialog) ==> r.resolution == ResolvedNull
    ensures d.hasResolver && d.config != Some(PromptDialog) ==> r.resolution == ResolvedBool(false)
  {
    var res :=
      if !d.hasResolver then Unresolved
      else if d.config == Some(PromptDialog) then ResolvedNull
      else ResolvedBool(false);
    DialogStep(ClosedDialog, res)
  }

  /** A dialog's answer has the type its caller awaits: `boolean` for alert
      and confirm, `string | null` for prompt; and once answered, no second
      handler resolves anything. */
  lemma DialogResolvesOnce(t: DialogType, value: Option<string>)
    ensures var d := OpenDialog(t);
      && (t == PromptDialog ==>
            && CloseDialog(d).resolution == ResolvedNull
            && HandleCancel(d).resolution == ResolvedNull
            && HandleConfirm(d, value).resolution.ResolvedText?)
      && (t != PromptDialog ==>
            && CloseDialog(d).resolution.ResolvedBool?
            && HandleCancel(d).resolution == ResolvedBool(false)
            && HandleConfirm(d, value).resolution == ResolvedBool(true))
    ensures var after := CloseDialog(OpenDialog(t)).dialog;
      && CloseDialog(after).resolution == Unresolved
      && HandleCancel(after).resolution == Unresolved
      && HandleConfirm(after, value).resolution == Unresolved
  {
  }

  /** The status toast: the text shown, whether it is visible, and the
      delay of the pending hide timer. */
  datatype Toast = Toast(message: string, visible: bool, hideAfter: Option<Num>)

  const HiddenToast := Toast("", false, None)
  const DefaultToastMs := 2500.0
  const MinToastMs := 300.0

  /** `Math.max(300, duration)` with the default of 2500 for an omitted
      duration; NaN stays NaN. */
  function HideDelay(duration: Option<Num>): (d: Num)
    ensures duration.None? ==> d == Finite(DefaultToastMs)
    ensures duration.Some? && duration.value.Finite? ==> d == Finite(Max(MinToastMs, duration.value.v))
    ensures d.Finite? ==> d.v >= MinToastMs
  {
    var n := duration.GetOr(Finite(DefaultToastMs));
    match n
    case Finite(v) => Finite(Max(MinToastMs, v))
    case NaN => NaN
    case PosInf => PosInf
    case NegInf => Finite(MinToastMs)
  }

  /** `show(msg, duration)`: a missing or blank message changes nothing;
      otherwise the trimmed message is shown and any pending hide timer is
      replaced by a new one. */
  function Show(t: Toast, msg: Option<string>, duration: Option<Num>): (r: Toast)
    ensures IsBlank(msg.GetOr("")) ==> r == t
    ensures !IsBlank(msg.GetOr("")) ==>
      && r.visible && r.message == Trim(msg.GetOr("")) && r.message != "" && IsTrimmed(r.message)
      && r.hideAfter == Some(HideDelay(duration))
  {
    var next := Trim(msg.GetOr(""));
    TrimEmptyIffBlank(msg.GetOr(""));
    TrimSpec(msg.GetOr(""));
    if next == "" then t else Toast(next, true, Some(HideDelay(duration)))
  }

  /** The hide timer fires and the fade-out runs; only a fade-out that
      finished (was not interrupted by another `show`) hides and clears
      the toast. */
  function HideTimerFires(t: Toast, finished: bool): (r: Toast)
    ensures r.hideAfter.None?
    ensures finished ==> r == HiddenToast
    ensures !finished ==> r.message == t.message && r.visible == t.visible
  {
    if finished then HiddenToast else t.(hideAfter := None)
  }

  /** A shown message stays until its timer's fade-out completes, after
      which the toast is hidden and empty. */
  lemma ShowThenHide(t: Toast, msg: string, duration: Option<Num>)
    requires !IsBlank(msg)
    ensures var shown := Show(t, Some(msg), duration);
      && shown.visible && shown.message == Trim(msg)
      && HideTimerFires(shown, false).visible
      && HideTimerFires(shown, true) == HiddenToast
  {
  }
}

=== FILE: wrappers.dfy ===
/** The optional-value type used throughout the model for JavaScript's
    `undefined`/`null` results and for absent fields. */
module Wrappers {

  datatype Option<+T> = None | Some(value: T) {

    /** Returns the wrapped value, or `default` when there is none (the
        `??` operator of the source). */
    function GetOr(default: T): (r: T)
      ensures Some? ==> r == value
      ensures None? ==> r == default
    {
      match this
      case Some(v) => v
      case None => default
    }
  }
}
